=== FILE: README.md ===
# experimaestro-ir training samplers and listeners, in Dafny

This project models the sampling layer and the learner listeners of
experimaestro-ir (`xpmir`), the information-retrieval training library. It
also models the small pieces that surround them.

The sampling layer is `xpmir.letor.samplers`. It turns relevance judgements
(qrels) and a retriever's ranking into training records:

- the per-topic split into positive candidates (judged `rel > 0`, score 0)
  and negative candidates (retrieved documents whose relevance, 0 when
  unjudged, is `<= 0`, with their retrieval score), together with the skip
  rules and their counter;
- the batched variant that asks the retriever for a whole group of queries
  at once;
- the pointwise sampler's two cached pools and its infinite random stream;
- the pairwise sampler, which draws a topic, a positive and a negative,
  redrawing documents that have no text;
- the list of samplers and the in-batch-negatives batches, whose relevance
  matrix is `[I | 0]`;
- the triplet-file samplers and the hard-negative export task, whose
  tab-separated rows the hard-negative reader parses back;
- the resumable iterators, whose saved state is the random state and the
  skip position.

The listeners are in `xpmir.letor.learner`:

- `ValidationListener` covers the configuration check, the cold start, the
  best-so-far table and its strict-improvement update, the warmup and
  validation-interval gates, the early-stop rule, `taskoutputs` and the
  `final/` metrics.
- `NegativeSamplerListener` switches to the second sampler once, then
  refreshes it on every sampling epoch.
- `FaissBuildListener` rebuilds its index periodically.

The surrounding pieces are:

- the pointwise trainer's batching, NaN/Inf guard and targets;
- the pairwise distillation trainer's records, teacher matrix, hook calls
  and pointwise target;
- the conversation-entry sampler;
- the topic and qrels folds, which filter by id and write a TREC qrels
  file.

Conventions of the model:

- Everything is a pure function over immutable data. Python exceptions,
  `assert` failures and `sys.exit(1)` are `Failure(e)` values of
  `Common.Result`.
- numpy's `RandomState` is an opaque state with a deterministic transition
  (`Rand.Prng`). `randint(0, n)` is a raw draw modulo `n` that fails on an
  empty range.
- A Python generator is a step function `S -> Result<(T, S)>` over an
  explicit state. `Rand.Take` runs such a step function `n` times, so
  resuming an iterator is a statement about its state.
- A Python dict that keeps insertion order is an association list with
  distinct keys (`Assessments.Dict`).
- The retriever, the document store, the evaluation, the ranker's scores and
  the file contents read or written are parameters. File writes, tensorboard
  calls and checkpoint copies are returned as effect values (for example
  `ValidationStep.Effect`).

Two places where the model follows the code rather than the code's
documentation:

- `TripletBasedSampler` puts the query in the text slot: `Query(None, query)`.
- The pointwise metric weight is the configured batch size even for a batch
  that came out short.

## Model

| member | source | states |
|---|---|---|
| `Common.PyMod` | src/xpmir/letor/learner.py:129 | Python's `%`: the remainder lies in `[0, b)` for a positive divisor and in `(b, 0]` for a negative one, it is zero exactly when `b` divides `a`, and `a` minus it is a multiple of `b` |
| `Assessments.Put` | src/xpmir/letor/samplers.py:139-142 | `d[k] = v` keeps keys distinct and adds exactly `k` to the key set |
| `Assessments.PutGet` | src/xpmir/letor/samplers.py:142 | after `d[k] = v`, `k` looks up `v` and every other key looks up what it did before |
| `Assessments.GetFound` | src/xpmir/letor/samplers.py:156 | `d.get(k)` finds a value exactly when `k` is a key |
| `Assessments.Doc2Rel` | src/xpmir/letor/samplers.py:139-142 | the per-topic `{docno: rel}` dict has distinct keys |
| `Assessments.Doc2RelJudged` | src/xpmir/letor/samplers.py:141-142 | a document is in the dict exactly when some judgement of the topic names it |
| `Assessments.Doc2RelLastWins` | src/xpmir/letor/samplers.py:141-142 | the last judgement of a document is the value the dict keeps |
| `Assessments.AssessmentMap` | src/xpmir/letor/samplers.py:137-142 | the `qid -> dict` map has exactly the judged topic ids as keys, each with a distinct-key dict |
| `Assessments.AssessmentMapLastWins` | src/xpmir/letor/samplers.py:140 | a topic judged twice keeps only the dict of its last `qrels` entry |
| `TopicIteration.Positives` | src/xpmir/letor/samplers.py:163-166 | every positive is a judged `(docno, rel)` with `rel > 0` and score 0, and every judged document with `rel > 0` is a positive |
| `TopicIteration.Negatives` | src/xpmir/letor/samplers.py:179-186 | every negative is a retrieved document with its retrieval score whose relevance (0 when unjudged) is `<= 0`, and every such retrieved document is a negative |
| `TopicIteration.PositivesAppend` | src/xpmir/letor/samplers.py:164-166 | positives keep the dict's insertion order |
| `TopicIteration.NegativesAppend` | src/xpmir/letor/samplers.py:180-186 | negatives keep the retrieval order |
| `TopicIteration.PositivesEmpty` | src/xpmir/letor/samplers.py:168-173 | a topic has no positives exactly when none of its judgements is above 0 |
| `TopicIteration.SplitSeparated` | src/xpmir/letor/samplers.py:162-186 | no document is both a positive and a negative of the same topic |
| `TopicIteration.TopicStep` | src/xpmir/letor/samplers.py:155-189 | a topic is skipped exactly when it has no judgements or no positive; the `assert` fails exactly when it has a positive but no negative, so every judged topic with a positive and a negative is yielded; a yielded topic carries its query text and its positive and negative lists, both non-empty and disjoint |
| `TopicIteration.IterTopics` | src/xpmir/letor/samplers.py:154-192 | the pass succeeds iff every topic's step succeeds, and a failure is the assertion error; yielded topics plus skipped topics equal the number of topics; every yielded topic has non-empty, disjoint lists |
| `TopicIteration.IterTopicsSucceeds` | src/xpmir/letor/samplers.py:155-189 | the pass succeeds exactly when no topic has a positive but an empty negative list |
| `TopicIteration.IterTopicsAppend` | src/xpmir/letor/samplers.py:155-189 | a pass over `a + b` yields the samples of `a` then those of `b`, and the skip counts add up |
| `TopicIteration.OneTopic` | src/xpmir/letor/samplers.py:156-173 | a single topic counts as skipped exactly when it is unjudged or all its judgements are `<= 0`; otherwise it yields its text with both lists |
| `TopicIteration.Chunks` | src/xpmir/letor/samplers.py:223 | `batchiter` groups are consecutive, full except possibly the last, non-empty, and their concatenation is the query list |
| `TopicIteration.QueriesDict` | src/xpmir/letor/samplers.py:224 | `{query.qid: query.text}` has distinct keys |
| `TopicIteration.QueriesDictDistinct` | src/xpmir/letor/samplers.py:224 | for topics with distinct ids the dict is their `(qid, text)` pairs in batch order |
| `TopicIteration.BatchSamples` | src/xpmir/letor/samplers.py:228-244 | on success, one triple per answered qid, which is judged and was asked for, carrying the text it was asked with and the same positive/negative split as the per-topic mode |
| `TopicIteration.BatchSamplesSucceed` | src/xpmir/letor/samplers.py:231-244 | a batch whose answered qids are all judged and asked for succeeds |
| `TopicIteration.BatchwiseSplit` | src/xpmir/letor/samplers.py:222-244 | every triple of the batched mode has the positives of a judged topic and disjoint lists |
| `TopicIteration.BatchwiseOnePerTopic` | src/xpmir/letor/samplers.py:223-244 | judged batches answered in order succeed, and the titles of the triples are the batches' query texts, in order |
| `TopicIteration.BatchwiseWellBehaved` | src/xpmir/letor/samplers.py:215-244 | the whole batched pass over distinct judged topics yields one triple per topic with titles in topic order, nothing skipped |
| `TopicIteration.DistinctChunks` | src/xpmir/letor/samplers.py:223 | groups of distinct-id topics have distinct ids |
| `PointwiseSampling.ToRecords` | src/xpmir/letor/samplers.py:272-275 | one record per candidate, in order, with the topic's title and no text |
| `PointwiseSampling.ReadPools` | src/xpmir/letor/samplers.py:271-283 | every record of the positive pool comes from a positive candidate of some topic, every negative record from a negative candidate |
| `PointwiseSampling.ReadPoolsComplete` | src/xpmir/letor/samplers.py:271-275 | every candidate of every topic is in its pool |
| `PointwiseSampling.ReadPoolsAppend` | src/xpmir/letor/samplers.py:271-275 | pools are built topic after topic, in order |
| `PointwiseSampling.ReadRecords` | src/xpmir/letor/samplers.py:266-286 | `readrecords` (and `update`) fails exactly when the sample pass (per topic or batchwise) fails; otherwise, in either mode, every positive record is a judged `(docid, rel)` pair with `rel > 0`, score 0 and no text, and every negative record has `rel <= 0` and no text |
| `PointwiseSampling.ReadSamplesShaped` | src/xpmir/letor/samplers.py:126-244 | both sample passes give positives that are judged with `rel > 0` and score 0, and negatives with `rel <= 0` |
| `PointwiseSampling.PoolsShaped` | src/xpmir/letor/samplers.py:266-284 | flattening such triples into the two pools keeps those properties per record |
| `PointwiseSampling.PerTopicPools` | src/xpmir/letor/samplers.py:270-275 | in the per-topic mode the positive pool holds only relevant records with score 0 and the negative pool only records with `rel <= 0` |
| `PointwiseSampling.SampleFromPositives` | src/xpmir/letor/samplers.py:271-275 | every kept topic's positives are relevant with score 0, its negatives non-relevant |
| `PointwiseSampling.Prepare` | src/xpmir/letor/samplers.py:261-264 | `prepare` fills a missing text from the store and changes nothing else |
| `PointwiseSampling.PrepareIdempotent` | src/xpmir/letor/samplers.py:261-264 | preparing twice is preparing once |
| `PointwiseSampling.RecordNext` | src/xpmir/letor/samplers.py:288-295 | one draw of `record_iter` as written: the uniform draw picks the pool, the index draw uses the sizes read when the stream first runs (the generator's locals), and it succeeds exactly when that index is inside the current pool |
| `PointwiseSampling.FreshIterInBounds` | src/xpmir/letor/samplers.py:288-295 | a stream whose first `next()` reads the current pools fails only on an empty pool |
| `PointwiseSampling.StaleSizeAfterUpdate` | src/xpmir/letor/samplers.py:285-295 | after `update` shrinks a pool, a running stream can index past its end |
| `PointwiseSampling.RecordNextLive` | src/xpmir/letor/samplers.py:288-295 | with sizes read from the current pools, a draw succeeds exactly when the chosen pool is non-empty and returns a prepared member of it |
| `PairwiseSampling.Sample` | src/xpmir/letor/samplers.py:320-325 | `sample` fails on an empty list and otherwise returns a document of the list that has a text, with that text |
| `PairwiseSampling.SampleNoText` | src/xpmir/letor/samplers.py:321-324 | a list whose documents all lack text never yields a document |
| `PairwiseSampling.SampleMoreFuel` | src/xpmir/letor/samplers.py:322-324 | the redraw budget only cuts the loop short: more budget gives the same answer |
| `PairwiseSampling.SampleFirstDraw` | src/xpmir/letor/samplers.py:323-325 | when the first drawn document has a text, it is the one returned |
| `PairwiseSampling.PairwiseNext` | src/xpmir/letor/samplers.py:330-338 | each pair is the query of the topic the first draw picks, with one of its positives and one of its negatives, both with text; no topics, or a drawn topic without positives, fails with the empty-range error, and a drawn topic without negatives fails |
| `PairwiseSampling.PairDistinct` | src/xpmir/letor/samplers.py:330-338 | for topics with disjoint lists, a pair's positive and negative differ |
| `PairwiseSampling.PairwiseResume` | src/xpmir/letor/samplers.py:340 | restoring the saved random state reproduces the rest of an uninterrupted stream |
| `PairwiseSampling.ListNext` | src/xpmir/letor/samplers.py:354-357 | the list iterator delegates to the active sampler's stream and fails on an index past the list |
| `PairwiseSampling.SetCurrent` | src/xpmir/letor/samplers.py:354-357 | `set_current(i)` changes the active stream and nothing else |
| `PairwiseSampling.SwitchedRun` | src/xpmir/letor/samplers.py:354-357 | after a switch, a run of the list iterator is a run of the chosen sampler's stream |
| `InBatch.Relevances` | src/xpmir/letor/samplers.py:373-375 | the matrix is `B x 2B` and entry `(i, j)` is 1 exactly when `j == i`, 0 otherwise |
| `InBatch.BatchNext` | src/xpmir/letor/samplers.py:377-388 | a batch holds the pairs' queries in stream order, then their positives followed by their negatives, with the precomputed matrix |
| `InBatch.FirstBatch` | src/xpmir/letor/samplers.py:381-388 | the first batch of a long enough stream holds its first `B` queries |
| `InBatch.BatchesInStreamOrder` | src/xpmir/letor/samplers.py:371-390 | on a stream of at least `n * B` pairs, the queries of `n` batches are the first `n * B` queries in stream order |
| `InBatch.BatchesFull` | src/xpmir/letor/samplers.py:381-386 | on such a stream every batch has `B` queries and `2B` documents |
| `Rand.RandInt` | src/xpmir/letor/samplers.py:334 | `randint(0, n)` gives an index in `[0, n)` and fails exactly when `n <= 0` |
| `Rand.ZipTake` | src/xpmir/letor/samplers.py:381 | `zip(range(n), it)` takes at most `n` items |
| `Rand.ZipTakeFull` | src/xpmir/letor/samplers.py:381 | on a stream that does not run out, the zip is a plain run of `n` calls |
| `Rand.ResumeEquivalence` | src/xpmir/letor/samplers.py:340 | a run restored from the state reached after `n` items and asked for `m` more equals an uninterrupted run of `n + m`, failures included |
| `Rand.SourceRun` | src/xpmir/letor/samplers.py:422-427 | a plain iterator over a finite source yields its items in order and stops exactly when the source runs out |
| `Rand.SkipTo` | src/xpmir/letor/samplers.py:427 | restoring a skip position succeeds exactly when it is within the source |
| `Rand.SkipResume` | src/xpmir/letor/samplers.py:427 | an iterator restored after `k` items yields items `k`, `k + 1`, ... of an uninterrupted run |
| `Text.Split` | src/xpmir/letor/samplers.py:484-485 | `s.split(sep)` gives at least one piece and no piece contains the separator |
| `Text.SplitJoin` | src/xpmir/letor/samplers.py:598-599 | splitting a join of separator-free parts gives the parts back |
| `Text.JoinSplit` | src/xpmir/letor/samplers.py:484-485 | joining a split gives the string back |
| `Text.TerminatedIsJoin` | xpmir/datasets/adapters.py:27-30 | newline-terminated lines are the join of the lines and one empty last piece |
| `Text.IntToString` | xpmir/datasets/adapters.py:30 | `f"{rel}"` is non-empty and made of digits and a minus sign |
| `Text.ParseIntToString` | xpmir/datasets/adapters.py:30 | `int(f"{rel}") == rel` |
| `Triplets.Lines` | src/xpmir/letor/samplers.py:482 | no line of a read file contains a newline |
| `Triplets.ReadTsv` | src/xpmir/letor/samplers.py:482 | one row per line, each the line's tab-separated fields |
| `Triplets.LinesOfTerminated` | src/xpmir/letor/samplers.py:482 | a file of newline-terminated lines reads back as those lines |
| `Triplets.ParseHardNegativeRow` | src/xpmir/letor/samplers.py:482-487 | a row parses exactly when it has at least five fields; the id is field 0 and the lists join back to fields 2 and 4 |
| `Triplets.ReadHardNegatives` | src/xpmir/letor/samplers.py:480-487 | the reader succeeds exactly when every row has at least five fields and gives one sample per row, in order |
| `Triplets.HardNegativeLineRoundTrip` | src/xpmir/letor/samplers.py:598-603 | a hard-negative row of space-, tab- and newline-free ids parses back to its id and both lists |
| `Triplets.HardNegativeLineOneLine` | src/xpmir/letor/samplers.py:600-603 | such a row is one non-empty line |
| `Triplets.TripletRow` | src/xpmir/letor/samplers.py:498-504 | a triplet row unpacks exactly when it has five fields (else the unpacking error), into ids and the score fields as read |
| `Triplets.TripletLineRoundTrip` | src/xpmir/letor/samplers.py:498-504 | a five-field tab line reads back as the record of its fields |
| `Triplets.ValidateTriplets` | src/xpmir/letor/samplers.py:405-408 | an id-only source without an index is refused |
| `Triplets.GetDoc` | src/xpmir/letor/samplers.py:410-419 | an id becomes a document with the index's text, a text becomes a document without id; an id without index fails |
| `Triplets.TripletRecord` | src/xpmir/letor/samplers.py:418-425 | a record exists exactly when the configuration is valid; the query goes in the text slot, and the documents carry the triplet's ids (id mode) or texts (text mode) |
| `Triplets.TripletRun` | src/xpmir/letor/samplers.py:418-427 | restored after `k` triplets, the stream yields the records of triplets `k ..` in order |
| `Triplets.IteratorNext` | src/xpmir/letor/samplers.py:457-466 | each triple takes the next sample's query; three successive draws pick the positive, then the group of negatives, then the negative within it; the saved random state is the one after the third draw and the position advances by one; an exhausted dataset stops and empty lists fail |
| `Triplets.LoadState` | src/xpmir/letor/samplers.py:446-448 | loading a state restores both the random state and a position inside the dataset |
| `Triplets.RunStaysInDataset` | src/xpmir/letor/samplers.py:457-466 | every state a run reaches is a valid position |
| `Triplets.SaveLoadResume` | src/xpmir/letor/samplers.py:446-455 | saving after `n` triples and loading back continues exactly as the uninterrupted iterator |
| `HardNegatives.ExportPositives` | src/xpmir/letor/samplers.py:575-578 | the first list is exactly the retrieved documents judged `rel > 0` |
| `HardNegatives.ExportNegatives` | src/xpmir/letor/samplers.py:579-582 | the second list is exactly the other retrieved documents, unjudged ones included |
| `HardNegatives.ExportPartition` | src/xpmir/letor/samplers.py:575-582 | the two lists account for every retrieved document once |
| `HardNegatives.ExportPositivesAppend` | src/xpmir/letor/samplers.py:575-578 | positives keep rank order |
| `HardNegatives.ExportNegativesAppend` | src/xpmir/letor/samplers.py:579-582 | negatives keep rank order |
| `HardNegatives.ExportNegativesAgree` | src/xpmir/letor/samplers.py:575-582 | the exported negatives are the negatives the training samplers compute, by id |
| `HardNegatives.ExportExample` | src/xpmir/letor/samplers.py:575-582 | judgements {d1: 1, d2: 0, d3: -1} with ranking [d1, d2, d4] give [d1] and [d2, d4] |
| `HardNegatives.KeptStep` | src/xpmir/letor/samplers.py:562-595 | a topic is kept exactly when it has judgements, a positive and a negative, with its own id and both lists |
| `HardNegatives.Kept` | src/xpmir/letor/samplers.py:561-595 | a sample is kept exactly when some queried topic's step keeps it; at most one per query, none without judgements |
| `HardNegatives.KeptAppend` | src/xpmir/letor/samplers.py:561 | topics are processed in query order: the kept samples of two query lists run together |
| `HardNegatives.SkipCount` | src/xpmir/letor/samplers.py:560-595 | `skipped` grows once per topic dropped at any of the three `continue`s, so it plus the kept topics is the number of topics, and it is 0 exactly when every topic is kept |
| `HardNegatives.Execute` | src/xpmir/letor/samplers.py:555-605 | `execute` as written: skipped plus kept topics equal the number of topics; no judgements means an empty file; with exactly one kept topic the file is that topic's row under the id of the last judged topic read |
| `HardNegatives.KeptWords` | src/xpmir/letor/samplers.py:575-582 | kept samples of well-formed ids have well-formed ids |
| `HardNegatives.ExportIdsRetrieved` | src/xpmir/letor/samplers.py:575-582 | every exported id is a retrieved document |
| `HardNegatives.KeptNeedsJudgements` | src/xpmir/letor/samplers.py:562-566 | without judgements no topic is kept |
| `HardNegatives.ExecuteOneLine` | src/xpmir/letor/samplers.py:600-603 | the rows of all kept topics run together into one line |
| `HardNegatives.ExecuteSingleTopicId` | src/xpmir/letor/samplers.py:600-603 | with one kept topic the file reads back as one sample under the last judged topic's id |
| `HardNegatives.ReadSingleLine` | src/xpmir/letor/samplers.py:480-487 | one well-formed unterminated row reads back as its sample |
| `HardNegatives.WrongIdExample` | src/xpmir/letor/samplers.py:600-603 | q1 judged then q2, only q1 asked and kept: its row reads back under the id q2 |
| `HardNegatives.ExecuteIntended` | src/xpmir/letor/samplers.py:555-605 | the corrected export: skipped plus kept topics equal the number of topics, and for well-formed ids the file reads back as exactly the kept topics, in order, with their own ids and both lists |
| `HardNegatives.ReadBack` | src/xpmir/letor/samplers.py:480-487 | newline-terminated rows of well-formed samples read back as the samples |
| `Validation.Validate` | src/xpmir/letor/learner.py:69-72 | the configuration is accepted exactly when `early_stop % validation_interval == 0`, and a zero interval raises |
| `Validation.Initialize` | src/xpmir/letor/learner.py:82-87 | any failure reading the info file gives an empty table, otherwise the table read |
| `Validation.KeptEpochs` | src/xpmir/letor/learner.py:116 | the epochs considered are exactly those of keep-flagged metrics; a table key that is not a metric raises KeyError |
| `Validation.MaxOf` | src/xpmir/letor/learner.py:115-117 | `max` is an element and bounds every element |
| `Validation.ShouldStop` | src/xpmir/letor/learner.py:113-121 | STOP exactly when early stopping is on, the table is non-empty, some best is kept, and every kept best is at least `early_stop` epochs before `epoch or context.epoch`; never NO_DECISION |
| `Validation.StaleIffMax` | src/xpmir/letor/learner.py:115-118 | "every kept best is old enough" is the source's comparison with the maximum |
| `Validation.ShouldStopDefaultEpoch` | src/xpmir/letor/learner.py:115 | an epoch of 0 decides with the context's epoch |
| `Validation.ShouldStopMonotone` | src/xpmir/letor/learner.py:113-121 | once STOP at an epoch, STOP at every later non-zero epoch |
| `Validation.UnflaggedIgnored` | src/xpmir/letor/learner.py:116 | changing the best of a metric that is not keep-flagged never changes the decision |
| `Validation.KeptEpochsSameKeys` | src/xpmir/letor/learner.py:116 | which key raises depends on the keys alone |
| `Validation.ShouldStopExample` | src/xpmir/letor/learner.py:113-121 | bests at epochs 0, 2, 4 with `early_stop` 4: epoch 8 stops, epoch 6 does not |
| `Validation.KeptMetrics` | src/xpmir/letor/learner.py:101-105 | the keep-flagged metrics, exactly |
| `Validation.Monitored` | src/xpmir/letor/learner.py:95-96 | `monitored()` lists exactly the metrics flagged true |
| `Validation.UniqueMonitored` | src/xpmir/letor/learner.py:95-96 | no metric is listed twice |
| `Validation.TaskOutputs` | src/xpmir/letor/learner.py:98-111 | one output per keep-flagged metric, plus `last_checkpoint` exactly when the last checkpoint is stored, keys distinct; each metric's output is its best checkpoint and `last_checkpoint`'s is the last checkpoint |
| `Validation.BestOutputsKeys` | src/xpmir/letor/learner.py:101-105 | the outputs' keys are the metric names given |
| `Validation.UpdateMetrics` | src/xpmir/letor/learner.py:89-93 | an empty table leaves the metrics unchanged; otherwise it succeeds exactly when every metric has a best |
| `Validation.AddFinals` | src/xpmir/letor/learner.py:92-93 | every metric gets its `id/final/metric` key and no earlier key is lost |
| `Validation.AddFinalsValue` | src/xpmir/letor/learner.py:93 | the value under a metric's final key is its best value |
| `Validation.AddFinalsKeeps` | src/xpmir/letor/learner.py:92-93 | keys other than final keys keep their values |
| `Validation.FinalKeyInjective` | src/xpmir/letor/learner.py:93 | different metrics have different final keys |
| `ValidationStep.MetricStep` | src/xpmir/letor/learner.py:135-161 | only the metric's own entry can change, by the improvement rule; the best checkpoint is copied exactly when the metric is kept and its entry changed |
| `ValidationStep.RunMetrics` | src/xpmir/letor/learner.py:135-136 | the loop succeeds exactly when the evaluation has every metric |
| `ValidationStep.RunMetricsTable` | src/xpmir/letor/learner.py:149-153 | each configured metric's entry is improved by its mean; other entries are unchanged |
| `ValidationStep.OnEpoch` | src/xpmir/letor/learner.py:123-172 | a STOP on the previous epoch returns STOP with the table untouched and no effects; off-interval epochs leave the table and do nothing; a zero interval raises; the result is never NO_DECISION |
| `ValidationStep.BestNeverDecreases` | src/xpmir/letor/learner.py:149-153 | a best value never decreases and an entry is never removed |
| `ValidationStep.WarmupKeepsTable` | src/xpmir/letor/learner.py:149 | before the warmup epoch the table never changes |
| `ValidationStep.CopiesOnlyKept` | src/xpmir/letor/learner.py:156-161 | only keep-flagged metrics have their checkpoint copied, and only with the new best at the context epoch |
| `ValidationStep.ImproveExample` | src/xpmir/letor/learner.py:149-153 | 0.5 then 0.3 keeps {0.5, first epoch}; a later 0.6 replaces it with the later epoch |
| `Listeners.NegOnEpoch` | src/xpmir/letor/learner.py:185-194 | off-interval epochs do nothing; on a sampling epoch the call succeeds exactly when the sampler it switches to (first time) or refreshes is in the list, and afterwards no switch is pending; a zero interval raises; always NO_DECISION |
| `Listeners.NegRunState` | src/xpmir/letor/learner.py:180-192 | over epochs `1..n`, the listener is on sampler 1 exactly from the first sampling epoch, and asks nothing before |
| `Listeners.NegRunCount` | src/xpmir/letor/learner.py:187-192 | over epochs `1..n` the sampler is refreshed `n / k` times |
| `Listeners.NegRunEffects` | src/xpmir/letor/learner.py:187-192 | the switch is the first request, made once, and every other request refreshes sampler 1 |
| `Listeners.CountUpdatesAppend` | src/xpmir/letor/learner.py:192 | refresh counts add up over consecutive epochs |
| `Listeners.MultiplesStep` | src/xpmir/letor/learner.py:187 | the number of multiples of `k` in `1..n` grows by one exactly when `n` is a multiple |
| `Listeners.FaissOnEpoch` | src/xpmir/letor/learner.py:214-224 | a rebuild happens exactly on multiples of the interval, into a path under the checkpoint; a zero interval raises; always NO_DECISION |
| `Listeners.FaissRebuildCount` | src/xpmir/letor/learner.py:216-222 | over epochs `1..n` the index is rebuilt `n / k` times |
| `PointwiseTraining.NextBatch` | xpmir/letor/trainers/pointwise.py:65-71 | on a long enough stream, the batch after `m` records holds the next `B` records |
| `PointwiseTraining.IterBatches` | xpmir/letor/trainers/pointwise.py:65-71 | `n` batches of a long enough stream are each full and together are the first `n * B` records in order, none dropped or repeated |
| `PointwiseTraining.Normalise` | xpmir/letor/trainers/pointwise.py:82-87 | -999 becomes 0 and every other target is unchanged |
| `PointwiseTraining.NormaliseIdempotent` | xpmir/letor/trainers/pointwise.py:85-87 | normalising twice is normalising once |
| `PointwiseTraining.Binarise` | xpmir/letor/trainers/pointwise.py:39-40 | the BCE target is 1 exactly when the relevance is above 0, else 0 |
| `PointwiseTraining.NormaliseIrrelevantForBce` | xpmir/letor/trainers/pointwise.py:39-40 | for the BCE loss the -999 replacement changes nothing |
| `PointwiseTraining.Relevances` | xpmir/letor/trainers/pointwise.py:82 | one target per record |
| `PointwiseTraining.TrainBatch` | xpmir/letor/trainers/pointwise.py:73-133 | NaN or Inf scores exit with status 1, otherwise the loss sees the flattened scores against the normalised (MSE) or binarised (BCE) targets, weighted by the configured batch size |
| `Tensors.Values` | xpmir/letor/trainers/pointwise.py:89 | finite scores flatten to their values, in order |
| `Tensors.ReshapeT` | xpmir/letor/distillation/pairwise.py:113 | `reshape(2, n).T` succeeds exactly on `2n` scores and row `i` pairs score `i` with score `n + i` |
| `Tensors.ReshapeRoundTrip` | xpmir/letor/distillation/pairwise.py:113 | the reshape loses nothing: columns give the flat vector back and reshaping columns gives the rows back |
| `Distillation.RecordOf` | xpmir/letor/distillation/pairwise.py:101-108 | a sample's record is its query with `documents[0]` as positive and `documents[1]` as negative, by content only; fewer than two documents fails |
| `Distillation.BuildInputs` | xpmir/letor/distillation/pairwise.py:98-110 | one record and one teacher row `[documents[0].score, documents[1].score]` per sample, in order |
| `Distillation.Deltas` | xpmir/letor/distillation/pairwise.py:58-64 | one entry per row, the second column minus the first |
| `Distillation.DeltasShiftInvariant` | xpmir/letor/distillation/pairwise.py:58-64 | the delta loss sees only score differences: a per-query offset changes nothing |
| `Distillation.PointwiseTarget` | xpmir/letor/distillation/pairwise.py:130-133 | every row of the pointwise target is `[1, 0]`, one per query; no rows fails |
| `Distillation.DistillCalls` | xpmir/letor/distillation/pairwise.py:26-64 | one loss per distillation hook; each is named `pairwise-delta-MSE`, compares the student's deltas with the teacher's, and carries the weight of a registered hook, every hook's weight appearing |
| `Distillation.PairwiseCalls` | xpmir/letor/distillation/pairwise.py:125-128 | one call per pairwise hook |
| `Distillation.PointwiseCalls` | xpmir/letor/distillation/pairwise.py:130-136 | one call per pointwise hook |
| `Distillation.CountKinds` | xpmir/letor/distillation/pairwise.py:121-136 | every hook is of exactly one kind |
| `Distillation.TrainBatch` | xpmir/letor/distillation/pairwise.py:97-136 | NaN or Inf student scores exit before any hook runs; hooks are called distillation first, then pairwise, then pointwise, once each; valid inputs succeed unless pointwise hooks meet an empty batch |
| `Distillation.TrainBatchScores` | xpmir/letor/distillation/pairwise.py:113-136 | every pairwise and pointwise hook receives the reshaped student matrix: row `i` is flat entries `i` and `n + i` |
| `Distillation.TrainBatchLosses` | xpmir/letor/distillation/pairwise.py:58-64 | every distillation loss compares, per record `i`, the student's `flat[n + i] - flat[i]` with the teacher's second score minus its first, with a registered hook's weight |
| `Distillation.SetLossFn` | xpmir/letor/distillation/pairwise.py:77-81 | the deprecated setter succeeds only on a trainer without hooks, leaving exactly that hook |
| `ConversationSampling.TopicNodes` | src/xpmir/conversation/learning/__init__.py:33-37 | exactly the conversation's nodes whose entry is a topic record |
| `ConversationSampling.TopicNodesEmpty` | src/xpmir/conversation/learning/__init__.py:33-39 | the node list is empty exactly when the conversation has no topic record |
| `ConversationSampling.Next` | src/xpmir/conversation/learning/__init__.py:27-45 | the record is a topic-record node of the conversation the first draw picks, and the call succeeds exactly when that conversation has one; an empty dataset fails; two draws are consumed |
| `ConversationSampling.NextTotal` | src/xpmir/conversation/learning/__init__.py:29-39 | when every conversation has a topic record the stream never fails |
| `ConversationSampling.NextNoTopic` | src/xpmir/conversation/learning/__init__.py:33-39 | when none has one the stream always fails |
| `ConversationSampling.Resume` | src/xpmir/conversation/learning/__init__.py:47 | the stream restored from its saved random state continues exactly as an uninterrupted one |
| `Folds.TopicFold` | xpmir/datasets/adapters.py:10-15 | the fold yields exactly the topics whose id is in `ids` |
| `Folds.TopicFoldAppend` | xpmir/datasets/adapters.py:12-15 | the fold keeps source order |
| `Folds.TopicFoldIdSet` | xpmir/datasets/adapters.py:11 | only the set of ids matters: order and duplicates make no difference |
| `Folds.TopicFoldIdempotent` | xpmir/datasets/adapters.py:10-15 | folding twice is folding once |
| `Folds.QrelsFold` | xpmir/datasets/adapters.py:27-30 | the written judgements are exactly those of topics whose id is in `ids` |
| `Folds.TrecFile` | xpmir/datasets/adapters.py:22-32 | an existing file is kept as it is; otherwise every line ends with a newline and no judgement gives an empty file |
| `Folds.ParseTrecLinesRoundTrip` | xpmir/datasets/adapters.py:30 | lines `qid 0 docno rel` of single-word ids read back as their judgements |
| `Folds.TrecLineRoundTrip` | xpmir/datasets/adapters.py:30 | one line reads back as its judgement and holds no newline |
| `Folds.TrecFileRoundTrip` | xpmir/datasets/adapters.py:24-30 | the written file reads back as exactly the fold's judgements, in source order |

## Left out

- `max_query`: the `random.sample` of the topics (samplers.py:150-151, 219-220) uses Python's process-wide generator; the model takes the topic list as given.
- numpy's generator and `xpmir.utils.iter` are not part of this model. The generator is an opaque deterministic transition, and the iterators are step functions over their saved state.
- Loss values: MSE, BCE, the delta-MSE number and the teacher scoring in `TeacherModelBasedHardNegativesTripletSampler.execute` are floating-point computations. The model stops at the vectors handed to the loss.
- The learner loop and the aggregation of the listeners' votes live in `xpmir.learning.learner`, which is not part of this model. Each listener is one call.
- `evaluate`, the tensorboard writer, `context.copy`, the Faiss `update` and file reads and writes are inputs or returned effects.
- `ValidationStep.OnEpoch`: histogram effects carry the tag and step but not the per-query values.
- `PointwiseTraining.TrainBatch`: the ranker's scores are an input of the batch's length. The loss itself is not computed.
- `Distillation.TrainBatch`: `AddLoss` carries the student's and the teacher's score differences and the weight, not the loss value.
- `Records`: relevance grades are integers. The source annotates them as floats (samplers.py:137, 541), so fractional grades and the float formatting of `f"{qrel.rel}"` (`1.0`, adapters.py:30) are not modelled.
- `PairwiseSamplerFromTSV.pairwise_iter` passes the generator function `iter` itself, not `iter()`, to `SkippingIterator` (samplers.py:505). The model gives the wrapper the stream the function would produce.
- `PairwiseSampling.Sample`: the redraw loop has a fuel bound. `SampleMoreFuel` shows the bound only ever cuts a run short, but a run that never finds a text is a failure rather than a hang.
- `TeacherModelBasedHardNegativesTripletSampler.iter_batches` creates a fresh record iterator for every batch (samplers.py:649). `NegativeSamplerListener` calls `set_current` on a freshly created list iterator (learner.py:190). Neither is modelled. The list iterator's switch is modelled on the running iterator (`PairwiseSampling.SetCurrent`).
- `PairwiseDatasetTripletBasedSampler` wraps its `_Iterator` in a second `SkippingIterator` (samplers.py:468). Only the inner iterator is modelled.
- The `_Iterator` calls `sample.negatives()` and `.values()` (samplers.py:462), which the reader's lists do not provide. The model takes the negatives already grouped (`Triplets.GroupedSample`).
- CSV quoting in `read_tsv` is not modelled: a field is the text between tabs.
- `ListwiseSerializableIterator` is not part of this model beyond `ListNext`/`SetCurrent`.
- Effects done before an exception aborts a call (for example scalars already written when a later metric is missing) are not returned. A failure returns only the error.
- `PointwiseSampling.Prepare`: the source writes the text into the pooled record in place (samplers.py:262-263), so later draws of that record already carry it. The model returns a filled copy and leaves the pools unchanged. With a store that is a pure function, both give the same records (`PrepareIdempotent`).
- `Folds.TopicFold`: the yielded `(num, title)` pair is the model's `Topic(qid, text)`.

## Findings

| source | as written | input that shows it | evidently intended | confidence | as-written member | corrected member |
|---|---|---|---|---|---|---|
| src/xpmir/letor/samplers.py:600-603 | each row starts with `qrels.qid`, the loop variable left over from reading the assessments | topic q1 judged, then q2; only q1 is asked and kept; its row reads back under id q2 | `query.qid`, the exported topic's own id | not executed | `HardNegatives.WrongIdExample` | `HardNegatives.ExecuteIntended` |
| src/xpmir/letor/samplers.py:600-603 | rows are written without a trailing newline | any two kept topics: the file is one line and the reader sees one row | one newline-terminated row per kept topic | not executed | `HardNegatives.ExecuteOneLine` | `HardNegatives.ExecuteIntended` |
| src/xpmir/letor/samplers.py:288-295 | `record_iter` reads the pool sizes once, when the generator starts, while `update` replaces the pools | pools of 2 positives, then `update` leaves 1; a draw of index 1 raises IndexError | sizes read from the current pools at each draw | not executed | `PointwiseSampling.StaleSizeAfterUpdate` | `PointwiseSampling.RecordNextLive` |

=== FILE: assessments.dfy ===
/** The in-memory judgements every retrieval-based sampler builds first: a
    Python dict `qid -> {docno: rel}` filled from the assessments iterator.
    The inner dict keeps insertion order (the order its positives come out
    in), so it is an association list with distinct keys; a later judgement of
    the same document overwrites the value in place, and a later `qrels` entry
    of the same topic replaces that topic's whole dict. */
module Assessments {
  import opened Common
  import opened Records

  /** An insertion-ordered dict with string keys. */
  type Dict<V> = seq<(string, V)>

  predicate UniqueKeys<V>(d: Dict<V>)
  {
    forall i, j :: 0 <= i < j < |d| ==> d[i].0 != d[j].0
  }

  function Keys<V>(d: Dict<V>): set<string>
  {
    set i | 0 <= i < |d| :: d[i].0
  }

  lemma KeysCons<V>(x: (string, V), d: Dict<V>)
    ensures Keys([x] + d) == {x.0} + Keys(d)
  {
    var r := [x] + d;
    forall k | k in Keys(r) ensures k in {x.0} + Keys(d) {
      var i :| 0 <= i < |r| && r[i].0 == k;
      if i > 0 { assert d[i - 1] == r[i]; }
    }
    forall k | k in {x.0} + Keys(d) ensures k in Keys(r) {
      if k == x.0 {
        assert r[0].0 == k;
      } else {
        var i :| 0 <= i < |d| && d[i].0 == k;
        assert r[i + 1] == d[i];
      }
    }
  }

  /** `d.get(k)`. */
  function Get<V>(d: Dict<V>, k: string): Option<V>
  {
    if |d| == 0 then None
    else if d[0].0 == k then Some(d[0].1)
    else Get(d[1..], k)
  }

  /** A key is found exactly when it is one of the dict's keys. */
  lemma {:induction false} GetFound<V>(d: Dict<V>, k: string)
    ensures Get(d, k).Some? <==> k in Keys(d)
    decreases |d|
  {
    if |d| > 0 {
      GetFound(d[1..], k);
      KeysCons(d[0], d[1..]);
      assert d == [d[0]] + d[1..];
    }
  }

  /** With distinct keys, every entry is what its key looks up. */
  lemma {:induction false} GetAt<V>(d: Dict<V>, i: int)
    requires UniqueKeys(d)
    requires 0 <= i < |d|
    ensures Get(d, d[i].0) == Some(d[i].1)
    decreases |d|
  {
    if i > 0 {
      assert d[1..][i - 1] == d[i];
      GetAt(d[1..], i - 1);
    }
  }

  /** `d[k] = v`: an existing key keeps its position, a new key goes last. */
  function Put<V>(d: Dict<V>, k: string, v: V): (r: Dict<V>)
    requires UniqueKeys(d)
    ensures UniqueKeys(r)
    ensures Keys(r) == Keys(d) + {k}
    decreases |d|
  {
    if |d| == 0 then
      KeysCons((k, v), d);
      assert [(k, v)] == [(k, v)] + d;
      [(k, v)]
    else
      KeysCons(d[0], d[1..]);
      assert d == [d[0]] + d[1..];
      if d[0].0 == k then
        var r := [(k, v)] + d[1..];
        KeysCons((k, v), d[1..]);
        r
      else
        var rest := Put(d[1..], k, v);
        KeysCons(d[0], rest);
        [d[0]] + rest
  }

  /** After `d[k] = v`, `k` looks up `v` and every other key is unchanged. */
  lemma {:induction false} PutGet<V>(d: Dict<V>, k: string, v: V, k': string)
    requires UniqueKeys(d)
    ensures Get(Put(d, k, v), k') == if k' == k then Some(v) else Get(d, k')
    decreases |d|
  {
    if |d| > 0 && d[0].0 != k {
      PutGet(d[1..], k, v, k');
    }
  }

  /** The dict `{qrel.docno: qrel.rel for qrel in qrels.assessments}`. */
  function Doc2Rel(qs: seq<Qrel>): (d: Dict<int>)
    ensures UniqueKeys(d)
  {
    if |qs| == 0 then [] else Put(Doc2Rel(qs[..|qs| - 1]), qs[|qs| - 1].docno, qs[|qs| - 1].rel)
  }

  /** `qs[i]` is the last judgement of its document. */
  ghost predicate LastJudgement(qs: seq<Qrel>, i: int)
  {
    0 <= i < |qs| && forall j :: i < j < |qs| ==> qs[j].docno != qs[i].docno
  }

  /** Some judgement of `qs` is about `docno`. */
  ghost predicate Judged(qs: seq<Qrel>, docno: string)
  {
    exists i :: 0 <= i < |qs| && qs[i].docno == docno
  }

  /** One more judgement changes only its own document's entry. */
  lemma Doc2RelStep(qs: seq<Qrel>, docno: string)
    requires |qs| > 0
    ensures Get(Doc2Rel(qs), docno)
         == if qs[|qs| - 1].docno == docno then Some(qs[|qs| - 1].rel) else Get(Doc2Rel(qs[..|qs| - 1]), docno)
  {
    var last := qs[|qs| - 1];
    PutGet(Doc2Rel(qs[..|qs| - 1]), last.docno, last.rel, docno);
  }

  lemma JudgedStep(qs: seq<Qrel>, docno: string)
    requires |qs| > 0
    ensures Judged(qs, docno) <==> qs[|qs| - 1].docno == docno || Judged(qs[..|qs| - 1], docno)
  {
    var init := qs[..|qs| - 1];
    if Judged(qs, docno) && qs[|qs| - 1].docno != docno {
      var i :| 0 <= i < |qs| && qs[i].docno == docno;
      assert init[i] == qs[i];
    }
    if Judged(init, docno) {
      var i :| 0 <= i < |init| && init[i].docno == docno;
      assert init[i] == qs[i];
    }
  }

  /** Exactly the judged documents are in the dict. */
  lemma {:induction false} Doc2RelJudged(qs: seq<Qrel>, docno: string)
    ensures Get(Doc2Rel(qs), docno).Some? <==> Judged(qs, docno)
    decreases |qs|
  {
    if |qs| > 0 {
      Doc2RelJudged(qs[..|qs| - 1], docno);
      Doc2RelStep(qs, docno);
      JudgedStep(qs, docno);
    }
  }

  /** The last judgement of a document wins. */
  lemma {:induction false} Doc2RelLastWins(qs: seq<Qrel>, i: int)
    requires LastJudgement(qs, i)
    ensures Get(Doc2Rel(qs), qs[i].docno) == Some(qs[i].rel)
    decreases |qs|
  {
    Doc2RelStep(qs, qs[i].docno);
    if i < |qs| - 1 {
      var init := qs[..|qs| - 1];
      assert init[i] == qs[i];
      assert LastJudgement(init, i);
      Doc2RelLastWins(init, i);
    }
  }

  /** `{qrels.qid: Doc2Rel(qrels) for qrels in assessments.iter()}`. */
  function AssessmentMap(raw: seq<Qrels>): (m: map<string, Dict<int>>)
    ensures forall qid :: qid in m <==> exists i :: 0 <= i < |raw| && raw[i].qid == qid
    ensures forall qid :: qid in m ==> UniqueKeys(m[qid])
  {
    if |raw| == 0 then map[]
    else
      var init := raw[..|raw| - 1];
      var m := AssessmentMap(init);
      assert forall i :: 0 <= i < |init| ==> init[i] == raw[i];
      m[raw[|raw| - 1].qid := Doc2Rel(raw[|raw| - 1].assessments)]
  }

  /** A topic judged twice keeps only its last `qrels` entry. */
  lemma {:induction false} AssessmentMapLastWins(raw: seq<Qrels>, i: int)
    requires 0 <= i < |raw|
    requires forall j :: i < j < |raw| ==> raw[j].qid != raw[i].qid
    ensures AssessmentMap(raw)[raw[i].qid] == Doc2Rel(raw[i].assessments)
    decreases |raw|
  {
    if i < |raw| - 1 {
      var init := raw[..|raw| - 1];
      assert init[i] == raw[i];
      AssessmentMapLastWins(init, i);
    }
  }

  /** `qassessments.get(docid, 0)`: an unjudged document counts as rel 0. */
  function RelOf(d: Dict<int>, docid: string): int
  {
    Get(d, docid).GetOr(0)
  }
}

=== FILE: common.dfy ===
/** Values shared by every part of the model: the exceptions the modelled code
    can raise, an Option/Result pair to carry them, and Python's `%`. */
module Common {

  /** The exceptions the modelled Python code raises. Every one of them aborts
      the operation that raised it (nothing in the core catches them). */
  datatype Error =
    | EmptyRange                // numpy `randint` over an empty range (ValueError)
    | KeyMissing(key: string)   // `d[key]` on an absent key (KeyError)
    | AssertionFailed(what: string)
    | EmptyMax                  // `max()` of an empty sequence (ValueError)
    | ZeroModulo                // `x % 0` (ZeroDivisionError)
    | IndexOutOfRange           // list index past the end (IndexError)
    | StopIteration             // a finite source is exhausted
    | Unpack(fields: nat)       // unpacking a row of the wrong width (ValueError)
    | NoneAttribute             // `.items()` called on None (AttributeError)
    | ShapeMismatch             // a tensor `reshape` whose sizes do not agree
    | OutOfFuel                 // the model's bound on a loop the source may never leave
    | Exit(code: int)           // `sys.exit(code)`
    | BadInteger(text: string)  // `int(text)` on a non-integer (ValueError)

  datatype Option<+T> = None | Some(value: T) {
    function GetOr(default: T): T {
      match this
      case Some(v) => v
      case None => default
    }
  }

  datatype Result<+T> = Success(value: T) | Failure(error: Error) {
    predicate IsFailure() {
      Failure?
    }

    /** The same failure, at another value type. */
    function PropagateFailure<U>(): Result<U>
      requires Failure?
    {
      Failure(error)
    }

    function Extract(): T
      requires Success?
    {
      value
    }
  }

  /** Python's `a % b`: the remainder takes the sign of the divisor. Dafny's own
      `%` is Euclidean, so the two differ when `b < 0`. */
  function PyMod(a: int, b: int): (r: int)
    requires b != 0
    ensures b > 0 ==> 0 <= r < b
    ensures b < 0 ==> b < r <= 0
    ensures r == 0 <==> a % b == 0
    ensures (a - r) % b == 0
  {
    var e := a % b;
    var q := a / b;
    assert a - e == q * b;
    MultipleMod(q, b);
    if b > 0 || e == 0 then e else
      assert a - (e + b) == (q - 1) * b;
      MultipleMod(q - 1, b);
      e + b
  }

  /** A multiple of `b` leaves no remainder. */
  lemma MultipleMod(k: int, b: int)
    requires b != 0
    ensures (k * b) % b == 0
  {
    var c := if b > 0 then b else -b;
    var q := (k * b) / b;
    var m := (k * b) % b;
    assert k * b == q * b + m;
    assert m == (k - q) * b;
    var d := if b > 0 then k - q else q - k;
    assert m == d * c;
    if d >= 1 {
      MulAtLeast(d, c);
    } else if d <= -1 {
      MulAtLeast(-d, c);
    }
  }

  lemma {:induction false} MulAtLeast(d: int, c: int)
    requires d >= 1 && c > 0
    ensures d * c >= c
    decreases d
  {
    if d > 1 {
      MulAtLeast(d - 1, c);
      assert d * c == (d - 1) * c + c;
    }
  }

  /** The concatenation of a sequence of sequences. */
  function Flatten<T>(xss: seq<seq<T>>): seq<T>
  {
    if |xss| == 0 then [] else xss[0] + Flatten(xss[1..])
  }

  lemma {:induction false} FlattenAppend<T>(xss: seq<seq<T>>, yss: seq<seq<T>>)
    ensures Flatten(xss + yss) == Flatten(xss) + Flatten(yss)
    decreases |xss|
  {
    if |xss| == 0 {
      assert xss + yss == yss;
    } else {
      assert (xss + yss)[1..] == xss[1..] + yss;
      FlattenAppend(xss[1..], yss);
    }
  }
}

=== FILE: conversation.dfy ===
/** `DatasetConversationEntrySampler`: an endless stream that draws a
    conversation, then one of its topic-record nodes, and yields that node's
    record extended with its conversation history. The stream's whole state
    is the random state its `RandomSerializableIterator` saves. */
module ConversationSampling {
  import opened Common
  import opened Rand

  /** A conversation entry; only whether it is a `TopicRecord` matters here. */
  datatype Entry = Entry(isTopic: bool, content: string)

  /** A conversation node: its entry and the entries before it. */
  datatype Node = Node(entry: Entry, history: seq<Entry>)

  type Conversation = seq<Node>

  /** `node.entry().add(ConversationHistoryItem(node.history()))`. */
  datatype TopicConversationRecord = TopicConversationRecord(topic: Entry, history: seq<Entry>)

  /** `[node for node in conversation if isinstance(node.entry(), TopicRecord)]`. */
  function TopicNodes(c: Conversation): (r: seq<Node>)
    ensures forall n :: n in r <==> n in c && n.entry.isTopic
    ensures |r| <= |c|
  {
    if |c| == 0 then []
    else
      var rest := TopicNodes(c[1..]);
      assert forall n :: n in c <==> n == c[0] || n in c[1..];
      if c[0].entry.isTopic then [c[0]] + rest else rest
  }

  predicate HasTopic(c: Conversation)
  {
    exists i :: 0 <= i < |c| && c[i].entry.isTopic
  }

  lemma TopicNodesEmpty(c: Conversation)
    ensures |TopicNodes(c)| == 0 <==> !HasTopic(c)
  {
    if HasTopic(c) {
      var i :| 0 <= i < |c| && c[i].entry.isTopic;
      assert c[i] in TopicNodes(c);
    }
  }

  /** The record the stream yields for a node. */
  function RecordOf(n: Node): TopicConversationRecord
  {
    TopicConversationRecord(n.entry, n.history)
  }

  /** One `next()`: `randint(0, len(conversations))`, then `randint(len(nodes))`
      over the topic nodes; each draw raises on an empty range. */
  function Next(g: Prng, conversations: seq<Conversation>, s: RandomState)
    : (r: Result<(TopicConversationRecord, RandomState)>)
    ensures |conversations| == 0 ==> r == Failure(EmptyRange)
    ensures r.Failure? ==> r.error == EmptyRange
    ensures r.Success? ==> exists c, n :: c in conversations && n in c && n.entry.isTopic && r.value.0 == RecordOf(n)
    ensures r.Success? ==> r.value.0.topic.isTopic
    ensures |conversations| > 0 ==>
      var c := conversations[RandInt(g, s, |conversations|).value.index];
      && (r.Success? <==> HasTopic(c))
      && (r.Success? ==> exists n :: n in c && n.entry.isTopic && r.value.0 == RecordOf(n))
    ensures r.Success? ==> r.value.1 == g.next(g.next(s).1).1
  {
    var d :- RandInt(g, s, |conversations|);
    var c := conversations[d.index];
    var nodes := TopicNodes(c);
    TopicNodesEmpty(c);
    var d2 :- RandInt(g, d.state, |nodes|);
    var n := nodes[d2.index];
    assert n in nodes;
    Success((RecordOf(n), d2.state))
  }

  /** When every conversation has a topic record, the stream never fails. */
  lemma NextTotal(g: Prng, conversations: seq<Conversation>, s: RandomState)
    requires |conversations| > 0
    requires forall c :: c in conversations ==> HasTopic(c)
    ensures Next(g, conversations, s).Success?
  {
    var d := RandInt(g, s, |conversations|).value;
    TopicNodesEmpty(conversations[d.index]);
  }

  /** When no conversation has a topic record, the stream always fails. */
  lemma NextNoTopic(g: Prng, conversations: seq<Conversation>, s: RandomState)
    requires forall c :: c in conversations ==> !HasTopic(c)
    ensures Next(g, conversations, s) == Failure(EmptyRange)
  {
    if |conversations| > 0 {
      var d := RandInt(g, s, |conversations|).value;
      TopicNodesEmpty(conversations[d.index]);
    }
  }

  function Step(g: Prng, conversations: seq<Conversation>): RandomState -> Result<(TopicConversationRecord, RandomState)>
  {
    s => Next(g, conversations, s)
  }

  /** Restoring the saved random state after `n` records and drawing `m`
      more gives what an uninterrupted run of `n + m` gives. */
  lemma Resume(g: Prng, conversations: seq<Conversation>, s: RandomState, n: nat, m: nat)
    ensures Take(Step(g, conversations), s, n + m) == Continue(Step(g, conversations), Take(Step(g, conversations), s, n), m)
  {
    ResumeEquivalence(Step(g, conversations), s, n, m);
  }
}

=== FILE: distillation.dfy ===
/** `DistillationPairwiseTrainer.train_batch`: records and the teacher's
    `n × 2` score matrix built from the samples, the student's scores reshaped
    to `n × 2`, the NaN/Inf abort, then the training hooks called in a fixed
    order: distillation losses, pairwise losses, pointwise losses. The student
    ranker's flat score vector is an input; the loss arithmetic is not
    modelled, only what each hook is given. */
module Distillation {
  import opened Common
  import opened Records
  import opened Tensors

  /** A teacher-scored document: `sample.documents[i]`. */
  datatype ScoredContent = ScoredContent(content: string, score: real)

  /** `PairwiseDistillationSample(query, documents)`. */
  datatype Sample = Sample(query: Query, documents: seq<ScoredContent>)

  /** The training hooks registered in the context, in order. A distillation
      hook is `MSEDifferenceLoss` with its weight; pairwise and pointwise
      hooks are named only. */
  datatype Hook = DeltaMse(weight: real) | PairwiseHook(id: string) | PointwiseHook(id: string)

  /** What a hook is given. `AddLoss` is `info.add_loss(Loss(name, mse(student,
      teacher), weight))` with the two vectors whose squared error is the
      loss: the student's and the teacher's score differences. */
  datatype HookCall =
    | AddLoss(name: string, student: seq<real>, teacher: seq<real>, weight: real)
    | PairwiseCall(id: string, scores: seq<(real, real)>)
    | PointwiseCall(id: string, scores: seq<(real, real)>, target: seq<(real, real)>)

  /** The record for a sample: its query, its two documents by content only. */
  function RecordOf(s: Sample): (r: Result<PairwiseRecord>)
    ensures r.Success? <==> |s.documents| >= 2
    ensures r.Success? ==> r.value.query == s.query
    ensures r.Success? ==> r.value.positive == Document(None, Some(s.documents[0].content), None)
    ensures r.Success? ==> r.value.negative == Document(None, Some(s.documents[1].content), None)
  {
    if |s.documents| < 2 then Failure(IndexOutOfRange)
    else Success(PairwiseRecord(s.query, Document(None, Some(s.documents[0].content), None), Document(None, Some(s.documents[1].content), None)))
  }

  /** The records and the teacher matrix: row `i` is the teacher's scores of
      sample `i`'s two documents. */
  function BuildInputs(samples: seq<Sample>): (r: Result<(seq<PairwiseRecord>, seq<(real, real)>)>)
    ensures r.Success? <==> forall i :: 0 <= i < |samples| ==> |samples[i].documents| >= 2
    ensures r.Success? ==> |r.value.0| == |r.value.1| == |samples|
    ensures r.Success? ==> forall i :: 0 <= i < |samples| ==>
      && Success(r.value.0[i]) == RecordOf(samples[i])
      && r.value.1[i] == (samples[i].documents[0].score, samples[i].documents[1].score)
    decreases |samples|
  {
    if |samples| == 0 then Success(([], []))
    else
      assert forall i :: 1 <= i < |samples| ==> samples[1..][i - 1] == samples[i];
      var rec :- RecordOf(samples[0]);
      var rest :- BuildInputs(samples[1..]);
      var d := samples[0].documents;
      Success(([rec] + rest.0, [(d[0].score, d[1].score)] + rest.1))
  }

  /** `student[:, 1] - student[:, 0]`: how far each query's second document
      is scored above its first. */
  function Deltas(rows: seq<(real, real)>): (r: seq<real>)
    ensures |r| == |rows|
    ensures forall i :: 0 <= i < |rows| ==> rows[i].0 + r[i] == rows[i].1
  {
    seq(|rows|, i requires 0 <= i < |rows| => rows[i].1 - rows[i].0)
  }

  /** Shifting both scores of a row by the same amount. */
  function Shift(rows: seq<(real, real)>, cs: seq<real>): (r: seq<(real, real)>)
    requires |cs| == |rows|
    ensures |r| == |rows|
  {
    seq(|rows|, i requires 0 <= i < |rows| => (rows[i].0 + cs[i], rows[i].1 + cs[i]))
  }

  /** The delta-MSE loss only sees score differences: a per-query offset of
      the student's (or the teacher's) scores does not change its input. */
  lemma DeltasShiftInvariant(rows: seq<(real, real)>, cs: seq<real>)
    requires |cs| == |rows|
    ensures Deltas(Shift(rows, cs)) == Deltas(rows)
  {
  }

  /** `torch.cat((ones(n), zeros(n))).reshape(2, -1).T`: each row targets the
      positive; with `n = 0` the `-1` is ambiguous and `reshape` raises. */
  function PointwiseTarget(n: nat): (r: Result<seq<(real, real)>>)
    ensures r.Success? <==> n > 0
    ensures r.Success? ==> |r.value| == n && forall i :: 0 <= i < n ==> r.value[i] == (1.0, 0.0)
  {
    if n == 0 then Failure(ShapeMismatch)
    else
      var flat := seq(n, _ => 1.0) + seq(n, _ => 0.0);
      ReshapeT(flat, n)
  }

  /** The hooks of one kind, in registration order (`context.hooks(cls)`). */
  function DistillCalls(hooks: seq<Hook>, student: seq<(real, real)>, teacher: seq<(real, real)>): (r: seq<HookCall>)
    ensures forall c :: c in r ==> c.AddLoss?
    ensures |r| == CountKind(hooks, 0)
    ensures forall i :: 0 <= i < |r| ==>
      r[i] == AddLoss("pairwise-delta-MSE", Deltas(student), Deltas(teacher), r[i].weight)
    ensures forall w :: DeltaMse(w) in hooks <==> AddLoss("pairwise-delta-MSE", Deltas(student), Deltas(teacher), w) in r
  {
    if |hooks| == 0 then []
    else
      var rest := DistillCalls(hooks[1..], student, teacher);
      assert forall h :: h in hooks <==> h == hooks[0] || h in hooks[1..];
      match hooks[0]
      case DeltaMse(w) => [AddLoss("pairwise-delta-MSE", Deltas(student), Deltas(teacher), w)] + rest
      case _ => rest
  }

  function PairwiseCalls(hooks: seq<Hook>, scores: seq<(real, real)>): (r: seq<HookCall>)
    ensures forall c :: c in r ==> c.PairwiseCall?
    ensures |r| == CountKind(hooks, 1)
  {
    if |hooks| == 0 then []
    else
      var rest := PairwiseCalls(hooks[1..], scores);
      match hooks[0]
      case PairwiseHook(id) => [PairwiseCall(id, scores)] + rest
      case _ => rest
  }

  function PointwiseCalls(hooks: seq<Hook>, scores: seq<(real, real)>, target: seq<(real, real)>): (r: seq<HookCall>)
    ensures forall c :: c in r ==> c.PointwiseCall?
    ensures |r| == CountKind(hooks, 2)
  {
    if |hooks| == 0 then []
    else
      var rest := PointwiseCalls(hooks[1..], scores, target);
      match hooks[0]
      case PointwiseHook(id) => [PointwiseCall(id, scores, target)] + rest
      case _ => rest
  }

  function Kind(h: Hook): nat
  {
    match h
    case DeltaMse(_) => 0
    case PairwiseHook(_) => 1
    case PointwiseHook(_) => 2
  }

  function CountKind(hooks: seq<Hook>, k: nat): nat
  {
    if |hooks| == 0 then 0 else (if Kind(hooks[0]) == k then 1 else 0) + CountKind(hooks[1..], k)
  }

  function CallKind(c: HookCall): nat
  {
    match c
    case AddLoss(_, _, _, _) => 0
    case PairwiseCall(_, _) => 1
    case PointwiseCall(_, _, _) => 2
  }

  /** Distillation losses first, then pairwise, then pointwise. */
  predicate KindOrdered(calls: seq<HookCall>)
  {
    forall i, j :: 0 <= i < j < |calls| ==> CallKind(calls[i]) <= CallKind(calls[j])
  }

  lemma Ordered(a: seq<HookCall>, b: seq<HookCall>, c: seq<HookCall>)
    requires forall x :: x in a ==> CallKind(x) == 0
    requires forall x :: x in b ==> CallKind(x) == 1
    requires forall x :: x in c ==> CallKind(x) == 2
    ensures KindOrdered(a + b + c)
  {
    var calls := a + b + c;
    forall i, j | 0 <= i < j < |calls| ensures CallKind(calls[i]) <= CallKind(calls[j]) {
      assert i < |a| ==> calls[i] in a;
      assert |a| <= i < |a| + |b| ==> calls[i] == b[i - |a|];
      assert |a| + |b| <= i ==> calls[i] == c[i - |a| - |b|];
      assert j < |a| ==> calls[j] in a;
      assert |a| <= j < |a| + |b| ==> calls[j] == b[j - |a|];
      assert |a| + |b| <= j ==> calls[j] == c[j - |a| - |b|];
    }
  }

  lemma {:induction false} CountKinds(hooks: seq<Hook>)
    ensures CountKind(hooks, 0) + CountKind(hooks, 1) + CountKind(hooks, 2) == |hooks|
    decreases |hooks|
  {
    if |hooks| > 0 {
      CountKinds(hooks[1..]);
    }
  }

  /** `train_batch(samples)`, given the student's flat scores. */
  function TrainBatch(samples: seq<Sample>, flat: seq<Float>, hooks: seq<Hook>): (r: Result<seq<HookCall>>)
    ensures r.Success? ==> forall i :: 0 <= i < |samples| ==> |samples[i].documents| >= 2
    ensures r.Success? ==> |flat| == 2 * |samples| && AllFinite(flat)
    ensures r.Success? ==> KindOrdered(r.value)
    ensures r.Success? ==> |r.value| == |hooks| && (CountKind(hooks, 2) > 0 ==> |samples| > 0)
    ensures ((forall i :: 0 <= i < |samples| ==> |samples[i].documents| >= 2)
      && |flat| == 2 * |samples| && AllFinite(flat) && (CountKind(hooks, 2) == 0 || |samples| > 0)) ==> r.Success?
    ensures ((forall i :: 0 <= i < |samples| ==> |samples[i].documents| >= 2)
      && |flat| == 2 * |samples| && !AllFinite(flat)) ==> r == Failure(Exit(1))
  {
    var inputs :- BuildInputs(samples);
    var rows :- ReshapeT(flat, |inputs.0|);
    if !AllFinite(flat) then Failure(Exit(1))
    else
      var scores := seq(|rows|, i requires 0 <= i < |rows| => (rows[i].0.v, rows[i].1.v));
      var first := DistillCalls(hooks, scores, inputs.1) + PairwiseCalls(hooks, scores);
      CountKinds(hooks);
      if CountKind(hooks, 2) == 0 then
        Ordered(DistillCalls(hooks, scores, inputs.1), PairwiseCalls(hooks, scores), []);
        assert first + [] == first;
        Success(first)
      else
        var target :- PointwiseTarget(|scores|);
        Ordered(DistillCalls(hooks, scores, inputs.1), PairwiseCalls(hooks, scores), PointwiseCalls(hooks, scores, target));
        Success(first + PointwiseCalls(hooks, scores, target))
  }

  /** The student's score matrix each hook receives: row `i` holds the scores
      of record `i`'s positive and negative, which the flat vector lists as
      entries `i` and `n + i`. */
  lemma TrainBatchScores(samples: seq<Sample>, flat: seq<Float>, hooks: seq<Hook>, k: int)
    requires TrainBatch(samples, flat, hooks).Success?
    requires 0 <= k < |TrainBatch(samples, flat, hooks).value|
    ensures var c := TrainBatch(samples, flat, hooks).value[k];
      !c.AddLoss? ==> |c.scores| == |samples| && forall i :: 0 <= i < |samples| ==>
        Finite(c.scores[i].0) == flat[i] && Finite(c.scores[i].1) == flat[|samples| + i]
  {
    var n := |samples|;
    var rows := ReshapeT(flat, n).value;
    var scores := seq(|rows|, i requires 0 <= i < |rows| => (rows[i].0.v, rows[i].1.v));
    var inputs := BuildInputs(samples).value;
    PairwiseCallsScores(hooks, scores);
    if CountKind(hooks, 2) > 0 {
      PointwiseCallsScores(hooks, scores, PointwiseTarget(n).value);
    }
    var d := DistillCalls(hooks, scores, inputs.1);
    var p := PairwiseCalls(hooks, scores);
    var calls := TrainBatch(samples, flat, hooks).value;
    if k >= |d| && k < |d| + |p| {
      assert calls[k] == p[k - |d|] && p[k - |d|] in p;
    } else if k >= |d| + |p| {
      assert calls[k] == PointwiseCalls(hooks, scores, PointwiseTarget(n).value)[k - |d| - |p|];
    }
  }

  /** The distillation losses: each is the `MSEDifferenceLoss` of a
      registered hook, comparing the student's score difference of record `i`
      (flat entries `n + i` and `i`) with the teacher's (sample `i`'s second
      document's score minus its first's). */
  lemma TrainBatchLosses(samples: seq<Sample>, flat: seq<Float>, hooks: seq<Hook>, k: int)
    requires TrainBatch(samples, flat, hooks).Success?
    requires 0 <= k < |TrainBatch(samples, flat, hooks).value|
    ensures var c := TrainBatch(samples, flat, hooks).value[k];
      c.AddLoss? ==> (
        && c.name == "pairwise-delta-MSE" && DeltaMse(c.weight) in hooks
        && |c.student| == |c.teacher| == |samples|
        && forall i :: 0 <= i < |samples| ==>
          && c.student[i] == flat[|samples| + i].v - flat[i].v
          && c.teacher[i] == samples[i].documents[1].score - samples[i].documents[0].score)
  {
    var n := |samples|;
    var inputs := BuildInputs(samples).value;
    var rows := ReshapeT(flat, n).value;
    var scores := seq(|rows|, i requires 0 <= i < |rows| => (rows[i].0.v, rows[i].1.v));
    var d := DistillCalls(hooks, scores, inputs.1);
    var p := PairwiseCalls(hooks, scores);
    var calls := TrainBatch(samples, flat, hooks).value;
    if k < |d| {
      assert calls[k] == d[k];
      assert DeltaMse(calls[k].weight) in hooks;
      forall i | 0 <= i < n
        ensures calls[k].student[i] == flat[n + i].v - flat[i].v
      {
        assert rows[i] == (flat[i], flat[n + i]);
      }
    } else if k < |d| + |p| {
      assert calls[k] == p[k - |d|] && p[k - |d|] in p;
    } else {
      var q := PointwiseCalls(hooks, scores, PointwiseTarget(n).value);
      assert calls[k] == q[k - |d| - |p|] && q[k - |d| - |p|] in q;
    }
  }

  lemma {:induction false} PairwiseCallsScores(hooks: seq<Hook>, scores: seq<(real, real)>)
    ensures forall c :: c in PairwiseCalls(hooks, scores) ==> c.scores == scores
    decreases |hooks|
  {
    if |hooks| > 0 {
      PairwiseCallsScores(hooks[1..], scores);
    }
  }

  lemma {:induction false} PointwiseCallsScores(hooks: seq<Hook>, scores: seq<(real, real)>, target: seq<(real, real)>)
    ensures forall c :: c in PointwiseCalls(hooks, scores, target) ==> c.scores == scores && c.target == target
    decreases |hooks|
  {
    if |hooks| > 0 {
      PointwiseCallsScores(hooks[1..], scores, target);
    }
  }

  /** The deprecated `lossfn` setter: only on a trainer without hooks. */
  function SetLossFn(hooks: seq<Hook>, value: Hook): (r: Result<seq<Hook>>)
    ensures r.Success? <==> |hooks| == 0
    ensures r.Success? ==> r.value == [value]
  {
    if |hooks| > 0 then Failure(AssertionFailed("hooks already set")) else Success([value])
  }
}

=== FILE: folds.dfy ===
/** `AdhocTopicFold` and `AdhocAssessmentFold`: the topics and the
    assessments of a fold, i.e. those whose query id is in the fold's id
    list. The assessment fold is written once as a TREC qrels file
    (`qid 0 docno rel` per line) and reused when the file already exists. */
module Folds {
  import opened Common
  import opened Text
  import opened Records
  import opened Triplets

  // --- `AdhocTopicFold.iter`

  /** The topics whose id is in `set(ids)`, in the order of `topics`. */
  function TopicFold(ids: seq<string>, topics: seq<Topic>): (r: seq<Topic>)
    ensures forall t :: t in r <==> t in topics && t.qid in ids
    ensures |r| <= |topics|
  {
    if |topics| == 0 then []
    else
      var rest := TopicFold(ids, topics[1..]);
      assert forall t :: t in topics <==> t == topics[0] || t in topics[1..];
      if topics[0].qid in ids then [topics[0]] + rest else rest
  }

  /** Folding distributes over concatenation: the fold keeps the source order. */
  lemma {:induction false} TopicFoldAppend(ids: seq<string>, a: seq<Topic>, b: seq<Topic>)
    ensures TopicFold(ids, a + b) == TopicFold(ids, a) + TopicFold(ids, b)
    decreases |a|
  {
    if |a| == 0 {
      assert a + b == b;
    } else {
      assert (a + b)[1..] == a[1..] + b;
      TopicFoldAppend(ids, a[1..], b);
    }
  }

  /** Only the set of ids matters: their order and repetitions do not. */
  lemma {:induction false} TopicFoldIdSet(ids: seq<string>, ids': seq<string>, topics: seq<Topic>)
    requires forall q :: q in ids <==> q in ids'
    ensures TopicFold(ids, topics) == TopicFold(ids', topics)
    decreases |topics|
  {
    if |topics| > 0 {
      TopicFoldIdSet(ids, ids', topics[1..]);
    }
  }

  /** Folding twice with the same ids is folding once. */
  lemma {:induction false} TopicFoldIdempotent(ids: seq<string>, topics: seq<Topic>)
    ensures TopicFold(ids, TopicFold(ids, topics)) == TopicFold(ids, topics)
    decreases |topics|
  {
    if |topics| > 0 {
      TopicFoldIdempotent(ids, topics[1..]);
      var rest := TopicFold(ids, topics[1..]);
      if topics[0].qid in ids {
        assert ([topics[0]] + rest)[1..] == rest;
      }
    }
  }

  // --- `AdhocAssessmentFold.trecpath`

  /** The judgements of the fold, flattened in file order. */
  function QrelsFold(ids: seq<string>, raw: seq<Qrels>): (r: seq<(string, Qrel)>)
    ensures forall e: (string, Qrel) :: e in r <==> exists i :: 0 <= i < |raw| && raw[i].qid == e.0 && e.0 in ids && e.1 in raw[i].assessments
    decreases |raw|
  {
    if |raw| == 0 then []
    else
      var rest := QrelsFold(ids, raw[1..]);
      var here := if raw[0].qid in ids then Tagged(raw[0].qid, raw[0].assessments) else [];
      assert forall i :: 1 <= i < |raw| ==> raw[1..][i - 1] == raw[i];
      assert forall e :: e in here + rest <==> e in here || e in rest;
      assert forall e: (string, Qrel) :: (exists i :: 0 <= i < |raw| && raw[i].qid == e.0 && e.0 in ids && e.1 in raw[i].assessments) <==>
        ((raw[0].qid == e.0 && e.0 in ids && e.1 in raw[0].assessments) ||
         (exists i :: 0 <= i < |raw[1..]| && raw[1..][i].qid == e.0 && e.0 in ids && e.1 in raw[1..][i].assessments)) by {
        forall e: (string, Qrel) | exists i :: 0 <= i < |raw| && raw[i].qid == e.0 && e.0 in ids && e.1 in raw[i].assessments
          ensures (raw[0].qid == e.0 && e.0 in ids && e.1 in raw[0].assessments) ||
            (exists i :: 0 <= i < |raw[1..]| && raw[1..][i].qid == e.0 && e.0 in ids && e.1 in raw[1..][i].assessments)
        {
          var i :| 0 <= i < |raw| && raw[i].qid == e.0 && e.0 in ids && e.1 in raw[i].assessments;
          if i > 0 {
            assert raw[1..][i - 1] == raw[i];
          }
        }
      }
      here + rest
  }

  function Tagged(qid: string, qs: seq<Qrel>): (r: seq<(string, Qrel)>)
    ensures forall e :: e in r <==> e.0 == qid && e.1 in qs
  {
    if |qs| == 0 then []
    else
      assert forall q :: q in qs <==> q == qs[0] || q in qs[1..];
      [(qid, qs[0])] + Tagged(qid, qs[1..])
  }

  /** `f"{qid} 0 {docno} {rel}"`. */
  function TrecLine(e: (string, Qrel)): string
  {
    Join([e.0, "0", e.1.docno, IntToString(e.1.rel)], ' ')
  }

  function TrecLines(es: seq<(string, Qrel)>): (r: seq<string>)
    ensures |r| == |es|
  {
    seq(|es|, i requires 0 <= i < |es| => TrecLine(es[i]))
  }

  /** The content of the qrels file after `trecpath`: an existing file is
      kept as it is; otherwise the fold's judgements are written, one
      newline-terminated line each. */
  function TrecFile(ids: seq<string>, raw: seq<Qrels>, existing: Option<string>): (content: string)
    ensures existing.Some? ==> content == existing.value
    ensures existing.None? && |QrelsFold(ids, raw)| > 0 ==> |content| > 0 && content[|content| - 1] == '\n'
    ensures existing.None? && |QrelsFold(ids, raw)| == 0 ==> content == ""
  {
    match existing
    case Some(c) => c
    case None =>
      var lines := TrecLines(QrelsFold(ids, raw));
      TerminatedLast(lines);
      Terminated(lines, '\n')
  }

  lemma TerminatedLast(lines: seq<string>)
    ensures |lines| > 0 ==> |Terminated(lines, '\n')| > 0 && Terminated(lines, '\n')[|Terminated(lines, '\n')| - 1] == '\n'
    ensures |lines| == 0 ==> Terminated(lines, '\n') == ""
  {
    if |lines| > 0 {
      TerminatedIsJoin(lines, '\n');
      TerminatedSnoc(lines);
    } else {
      TerminatedIsJoin(lines, '\n');
      assert lines + [""] == [""];
    }
  }

  lemma {:induction false} TerminatedSnoc(lines: seq<string>)
    requires |lines| > 0
    ensures Terminated(lines, '\n') == Terminated(lines[..|lines| - 1], '\n') + lines[|lines| - 1] + "\n"
    decreases |lines|
  {
    if |lines| > 1 {
      TerminatedSnoc(lines[1..]);
      assert lines[1..][..|lines[1..]| - 1] == lines[..|lines| - 1][1..];
    }
  }

  // --- Reading a qrels file back

  /** One qrels line: four space-separated fields, the last an integer. */
  function ParseTrecLine(line: string): (r: Result<(string, Qrel)>)
  {
    var fs := Split(line, ' ');
    if |fs| != 4 then Failure(Unpack(|fs|))
    else
      match ParseInt(fs[3])
      case None => Failure(BadInteger(fs[3]))
      case Some(rel) => Success((fs[0], Qrel(fs[2], rel)))
  }

  function ParseTrecLines(lines: seq<string>): (r: Result<seq<(string, Qrel)>>)
    ensures r.Success? ==> |r.value| == |lines|
  {
    if |lines| == 0 then Success([])
    else
      var e :- ParseTrecLine(lines[0]);
      match ParseTrecLines(lines[1..])
      case Failure(err) => Failure(err)
      case Success(rest) => Success([e] + rest)
  }

  function ReadTrec(content: string): Result<seq<(string, Qrel)>>
  {
    ParseTrecLines(Lines(content))
  }

  /** A line reads back as the judgement it was written from. */
  lemma TrecLineRoundTrip(e: (string, Qrel))
    requires Word(e.0) && Word(e.1.docno)
    ensures ParseTrecLine(TrecLine(e)) == Success(e)
    ensures '\n' !in TrecLine(e)
  {
    var parts := [e.0, "0", e.1.docno, IntToString(e.1.rel)];
    assert FreeOf(parts, ' ');
    SplitJoin(parts, ' ');
    ParseIntToString(e.1.rel);
    assert FreeOf(parts, '\n');
    JoinFree(parts, ' ', '\n');
  }

  lemma {:induction false} ParseTrecLinesRoundTrip(es: seq<(string, Qrel)>)
    requires forall i :: 0 <= i < |es| ==> Word(es[i].0) && Word(es[i].1.docno)
    ensures ParseTrecLines(TrecLines(es)) == Success(es)
    decreases |es|
  {
    if |es| > 0 {
      var lines := TrecLines(es);
      TrecLineRoundTrip(es[0]);
      assert lines[0] == TrecLine(es[0]);
      assert lines[1..] == TrecLines(es[1..]);
      ParseTrecLinesRoundTrip(es[1..]);
      assert ParseTrecLines(lines) == Success([es[0]] + es[1..]);
      assert [es[0]] + es[1..] == es;
    }
  }

  /** The file written for a fold reads back as exactly the fold's judgements,
      provided ids and document ids are single words. */
  lemma TrecFileRoundTrip(ids: seq<string>, raw: seq<Qrels>)
    requires forall i :: 0 <= i < |raw| ==> Word(raw[i].qid)
    requires forall i, q :: 0 <= i < |raw| && q in raw[i].assessments ==> Word(q.docno)
    ensures ReadTrec(TrecFile(ids, raw, None)) == Success(QrelsFold(ids, raw))
  {
    var es := QrelsFold(ids, raw);
    forall k | 0 <= k < |es| ensures Word(es[k].0) && Word(es[k].1.docno) {
      assert es[k] in es;
    }
    var lines := TrecLines(es);
    forall k | 0 <= k < |es| ensures '\n' !in lines[k] {
      TrecLineRoundTrip(es[k]);
    }
    assert FreeOf(lines, '\n');
    LinesOfTerminated(lines);
    ParseTrecLinesRoundTrip(es);
  }
}

=== FILE: hardneg.dfy ===
/** `ModelBasedHardNegativeSampler.execute`: for every topic with judgements,
    the retrieved documents are partitioned by `rel > 0` (both lists taken
    from the retrieved ranking, in rank order), topics lacking either list are
    skipped and counted, and each kept topic is written as one hard-negative
    row for `PairwiseSampleDatasetFromTSV` to read back. */
module HardNegatives {
  import opened Common
  import opened Text
  import opened Records
  import opened Assessments
  import opened TopicIteration
  import opened Triplets

  /** The first list of the partition: retrieved documents judged `rel > 0`,
      in rank order. */
  function ExportPositives(d: Dict<int>, docs: seq<ScoredDocument>): (r: seq<string>)
    ensures forall x :: x in r ==> RelOf(d, x) > 0
    ensures forall sd :: sd in docs && RelOf(d, sd.docid) > 0 ==> sd.docid in r
    decreases |docs|
  {
    if |docs| == 0 then []
    else
      assert docs == [docs[0]] + docs[1..];
      var id := docs[0].docid;
      (if RelOf(d, id) > 0 then [id] else []) + ExportPositives(d, docs[1..])
  }

  /** The second list: every other retrieved document, unjudged ones included. */
  function ExportNegatives(d: Dict<int>, docs: seq<ScoredDocument>): (r: seq<string>)
    ensures forall x :: x in r ==> RelOf(d, x) <= 0
    ensures forall sd :: sd in docs && RelOf(d, sd.docid) <= 0 ==> sd.docid in r
    decreases |docs|
  {
    if |docs| == 0 then []
    else
      assert docs == [docs[0]] + docs[1..];
      var id := docs[0].docid;
      (if RelOf(d, id) > 0 then [] else [id]) + ExportNegatives(d, docs[1..])
  }

  /** Together the two lists account for every retrieved document once. */
  lemma {:induction false} ExportPartition(d: Dict<int>, docs: seq<ScoredDocument>)
    ensures |ExportPositives(d, docs)| + |ExportNegatives(d, docs)| == |docs|
    decreases |docs|
  {
    if |docs| > 0 {
      ExportPartition(d, docs[1..]);
    }
  }

  /** Both lists keep rank order: each distributes over concatenation. */
  lemma {:induction false} ExportPositivesAppend(d: Dict<int>, a: seq<ScoredDocument>, b: seq<ScoredDocument>)
    ensures ExportPositives(d, a + b) == ExportPositives(d, a) + ExportPositives(d, b)
    decreases |a|
  {
    if |a| == 0 {
      assert a + b == b;
    } else {
      assert (a + b)[0] == a[0];
      assert (a + b)[1..] == a[1..] + b;
      ExportPositivesAppend(d, a[1..], b);
    }
  }

  lemma {:induction false} ExportNegativesAppend(d: Dict<int>, a: seq<ScoredDocument>, b: seq<ScoredDocument>)
    ensures ExportNegatives(d, a + b) == ExportNegatives(d, a) + ExportNegatives(d, b)
    decreases |a|
  {
    if |a| == 0 {
      assert a + b == b;
    } else {
      assert (a + b)[0] == a[0];
      assert (a + b)[1..] == a[1..] + b;
      ExportNegativesAppend(d, a[1..], b);
    }
  }

  function DocIds(cs: seq<Candidate>): (r: seq<string>)
    ensures |r| == |cs|
  {
    seq(|cs|, i requires 0 <= i < |cs| => cs[i].docno)
  }

  lemma DocIdsCons(c: Candidate, cs: seq<Candidate>)
    ensures DocIds([c] + cs) == [c.docno] + DocIds(cs)
  {
  }

  /** The exported negatives are exactly the documents of the samplers'
      negative list, in the same order. */
  lemma {:induction false} ExportNegativesAgree(d: Dict<int>, docs: seq<ScoredDocument>)
    ensures ExportNegatives(d, docs) == DocIds(Negatives(d, docs))
    decreases |docs|
  {
    if |docs| > 0 {
      ExportNegativesAgree(d, docs[1..]);
      var sd := docs[0];
      var rel := RelOf(d, sd.docid);
      if rel <= 0 {
        assert Negatives(d, docs) == [Candidate(sd.docid, rel, sd.score)] + Negatives(d, docs[1..]);
        DocIdsCons(Candidate(sd.docid, rel, sd.score), Negatives(d, docs[1..]));
      } else {
        assert Negatives(d, docs) == [] + Negatives(d, docs[1..]);
      }
    }
  }

  /** The example of the export rule: judgements {d1: 1, d2: 0, d3: -1} and
      the ranking [d1, d2, d4] give positives [d1] and negatives [d2, d4]. */
  lemma ExportExample()
    ensures var d: Dict<int> := [("d1", 1), ("d2", 0), ("d3", -1)];
      var docs := [ScoredDocument("d1", 3.0), ScoredDocument("d2", 2.0), ScoredDocument("d4", 1.0)];
      ExportPositives(d, docs) == ["d1"] && ExportNegatives(d, docs) == ["d2", "d4"]
  {
    var d: Dict<int> := [("d1", 1), ("d2", 0), ("d3", -1)];
    var docs := [ScoredDocument("d1", 3.0), ScoredDocument("d2", 2.0), ScoredDocument("d4", 1.0)];
    assert RelOf(d, "d1") == 1;
    assert RelOf(d, "d2") == 0;
    assert Get(d[1..][1..], "d4") == None;
    assert RelOf(d, "d4") == 0;
    assert docs[1..][1..][1..] == [];
    assert ExportPositives(d, docs[1..][1..]) == [];
    assert ExportNegatives(d, docs[1..][1..]) == ["d4"];
    assert ExportPositives(d, docs[1..]) == [];
    assert ExportNegatives(d, docs[1..]) == ["d2", "d4"];
  }

  /** What happens to one topic: None when it is skipped, the row's content
      otherwise. */
  function KeptStep(assess: map<string, Dict<int>>, q: Topic, retrieve: Retriever): (r: Option<HardNegativeSample>)
    ensures r.Some? <==> (q.qid in assess && |assess[q.qid]| > 0
      && |ExportPositives(assess[q.qid], retrieve(q.text))| > 0 && |ExportNegatives(assess[q.qid], retrieve(q.text))| > 0)
    ensures r.Some? ==> r.value == HardNegativeSample(q.qid,
      ExportPositives(assess[q.qid], retrieve(q.text)), ExportNegatives(assess[q.qid], retrieve(q.text)))
  {
    if q.qid !in assess || |assess[q.qid]| == 0 then None
    else
      var positives := ExportPositives(assess[q.qid], retrieve(q.text));
      var negatives := ExportNegatives(assess[q.qid], retrieve(q.text));
      if |positives| == 0 || |negatives| == 0 then None
      else Some(HardNegativeSample(q.qid, positives, negatives))
  }

  /** The kept topics, in topic order: the rows `execute` writes. */
  function Kept(assess: map<string, Dict<int>>, queries: seq<Topic>, retrieve: Retriever): (r: seq<HardNegativeSample>)
    ensures |r| <= |queries|
    ensures assess == map[] ==> r == []
    ensures forall x :: x in r <==> exists i :: 0 <= i < |queries| && KeptStep(assess, queries[i], retrieve) == Some(x)
    decreases |queries|
  {
    if |queries| == 0 then []
    else
      var rest := Kept(assess, queries[1..], retrieve);
      assert forall i :: 1 <= i < |queries| ==> queries[1..][i - 1] == queries[i];
      assert forall x :: (exists i :: 0 <= i < |queries| && KeptStep(assess, queries[i], retrieve) == Some(x)) <==>
        (KeptStep(assess, queries[0], retrieve) == Some(x) ||
         exists i :: 0 <= i < |queries[1..]| && KeptStep(assess, queries[1..][i], retrieve) == Some(x)) by {
        forall x | exists i :: 0 <= i < |queries| && KeptStep(assess, queries[i], retrieve) == Some(x)
          ensures KeptStep(assess, queries[0], retrieve) == Some(x) ||
            exists i :: 0 <= i < |queries[1..]| && KeptStep(assess, queries[1..][i], retrieve) == Some(x)
        {
          var i :| 0 <= i < |queries| && KeptStep(assess, queries[i], retrieve) == Some(x);
          if i > 0 {
            assert queries[1..][i - 1] == queries[i];
          }
        }
      }
      match KeptStep(assess, queries[0], retrieve)
      case None => rest
      case Some(x) => [x] + rest
  }

  /** Topics are kept in query order: the rows for `a + b` are those for `a`,
      then those for `b`. */
  lemma {:induction false} KeptAppend(assess: map<string, Dict<int>>, a: seq<Topic>, b: seq<Topic>, retrieve: Retriever)
    ensures Kept(assess, a + b, retrieve) == Kept(assess, a, retrieve) + Kept(assess, b, retrieve)
    decreases |a|
  {
    if |a| == 0 {
      assert a + b == b;
    } else {
      assert (a + b)[0] == a[0];
      assert (a + b)[1..] == a[1..] + b;
      KeptAppend(assess, a[1..], b, retrieve);
    }
  }

  /** The `skipped` counter: one more for every topic that is not kept
      (no judgements, no positive or no negative). */
  function SkipCount(assess: map<string, Dict<int>>, queries: seq<Topic>, retrieve: Retriever): (n: nat)
    ensures n + |Kept(assess, queries, retrieve)| == |queries|
    ensures n == 0 <==> forall i :: 0 <= i < |queries| ==> KeptStep(assess, queries[i], retrieve).Some?
    decreases |queries|
  {
    if |queries| == 0 then 0
    else
      var rest := SkipCount(assess, queries[1..], retrieve);
      assert forall i :: 1 <= i < |queries| ==> queries[1..][i - 1] == queries[i];
      assert (forall i :: 0 <= i < |queries| ==> KeptStep(assess, queries[i], retrieve).Some?) <==>
        (KeptStep(assess, queries[0], retrieve).Some? &&
         forall i :: 0 <= i < |queries[1..]| ==> KeptStep(assess, queries[1..][i], retrieve).Some?);
      rest + if KeptStep(assess, queries[0], retrieve).None? then 1 else 0
  }

  /** The file and the skip counter that the final log reports. */
  datatype Export = Export(content: string, skipped: nat)

  function WriteRows(qid: string, kept: seq<HardNegativeSample>): seq<string>
  {
    seq(|kept|, i requires 0 <= i < |kept| => HardNegativeLine(qid, kept[i].positives, kept[i].negatives))
  }

  /** `execute` as written: every row carries the id of the last topic of the
      judgements loop, and rows are not newline-terminated. With no
      judgements at all, no row is written; with one kept topic the file is
      that topic's row under the last judged topic's id. */
  function Execute(raw: seq<Qrels>, queries: seq<Topic>, retrieve: Retriever): (r: Export)
    ensures r.skipped + |Kept(AssessmentMap(raw), queries, retrieve)| == |queries|
    ensures |raw| == 0 ==> r.content == ""
    ensures |Kept(AssessmentMap(raw), queries, retrieve)| == 1 ==>
      && |raw| > 0
      && var x := Kept(AssessmentMap(raw), queries, retrieve)[0];
         r.content == HardNegativeLine(raw[|raw| - 1].qid, x.positives, x.negatives)
  {
    var kept := Kept(AssessmentMap(raw), queries, retrieve);
    var lastQid := if |raw| > 0 then raw[|raw| - 1].qid else "";
    var content := Flatten(WriteRows(lastQid, kept));
    KeptNeedsJudgements(raw, queries, retrieve);
    assert |kept| == 1 ==> content == HardNegativeLine(lastQid, kept[0].positives, kept[0].negatives) by {
      if |kept| == 1 {
        var line := HardNegativeLine(lastQid, kept[0].positives, kept[0].negatives);
        assert WriteRows(lastQid, kept) == [line];
        assert [line][1..] == [];
        assert Flatten([line]) == line + Flatten<char>([]);
      }
    }
    Export(content, SkipCount(AssessmentMap(raw), queries, retrieve))
  }

  /** A topic has a well-formed row when its id and the retrieved ids are
      free of space, tab and newline. */
  ghost predicate WellFormedIds(queries: seq<Topic>, retrieve: Retriever)
  {
    forall i :: 0 <= i < |queries| ==>
      Word(queries[i].qid) && forall sd :: sd in retrieve(queries[i].text) ==> Word(sd.docid)
  }

  lemma {:induction false} KeptWords(assess: map<string, Dict<int>>, queries: seq<Topic>, retrieve: Retriever)
    requires WellFormedIds(queries, retrieve)
    ensures forall x :: x in Kept(assess, queries, retrieve) ==>
      Word(x.query) && Words(x.positives) && Words(x.negatives)
    decreases |queries|
  {
    if |queries| > 0 {
      assert WellFormedIds(queries[1..], retrieve) by {
        forall i | 0 <= i < |queries[1..]| ensures queries[1..][i] == queries[i + 1] { }
      }
      KeptWords(assess, queries[1..], retrieve);
      var q := queries[0];
      if q.qid in assess {
        forall x | x in ExportPositives(assess[q.qid], retrieve(q.text)) ensures Word(x) {
          ExportIdsRetrieved(assess[q.qid], retrieve(q.text), x);
        }
        forall x | x in ExportNegatives(assess[q.qid], retrieve(q.text)) ensures Word(x) {
          ExportIdsRetrieved(assess[q.qid], retrieve(q.text), x);
        }
      }
    }
  }

  /** Every exported id is the id of a retrieved document. */
  lemma {:induction false} ExportIdsRetrieved(d: Dict<int>, docs: seq<ScoredDocument>, x: string)
    requires x in ExportPositives(d, docs) || x in ExportNegatives(d, docs)
    ensures exists sd :: sd in docs && sd.docid == x
    decreases |docs|
  {
    if x != docs[0].docid {
      ExportIdsRetrieved(d, docs[1..], x);
      var sd :| sd in docs[1..] && sd.docid == x;
      assert sd in docs;
    }
  }

  /** Without judgements no topic is kept. */
  lemma KeptNeedsJudgements(raw: seq<Qrels>, queries: seq<Topic>, retrieve: Retriever)
    ensures |Kept(AssessmentMap(raw), queries, retrieve)| > 0 ==> |raw| > 0
  {
    if |raw| == 0 {
      assert AssessmentMap(raw) == map[];
    }
  }

  /** No row of a kept topic contains a newline. */
  lemma RowsOneLine(qid: string, kept: seq<HardNegativeSample>)
    requires Word(qid)
    requires forall x :: x in kept ==> Words(x.positives) && Words(x.negatives)
    ensures forall i :: 0 <= i < |kept| ==>
      '\n' !in WriteRows(qid, kept)[i] && WriteRows(qid, kept)[i] != ""
  {
    forall i | 0 <= i < |kept|
      ensures '\n' !in WriteRows(qid, kept)[i] && WriteRows(qid, kept)[i] != ""
    {
      assert kept[i] in kept;
      HardNegativeLineOneLine(qid, kept[i].positives, kept[i].negatives);
    }
  }

  lemma {:induction false} FlattenNoNewline(rows: seq<string>)
    requires forall i :: 0 <= i < |rows| ==> '\n' !in rows[i]
    ensures '\n' !in Flatten(rows)
    decreases |rows|
  {
    if |rows| > 0 {
      FlattenNoNewline(rows[1..]);
    }
  }

  /** A non-empty string without a newline is read as exactly one line. */
  lemma OneLine(content: string)
    requires '\n' !in content && content != ""
    ensures Lines(content) == [content]
  {
  }

  /** The unterminated rows of all kept topics run together into a single
      line, so the reader sees one row however many topics were kept. */
  lemma ExecuteOneLine(raw: seq<Qrels>, queries: seq<Topic>, retrieve: Retriever)
    requires WellFormedIds(queries, retrieve)
    requires forall i :: 0 <= i < |raw| ==> Word(raw[i].qid)
    requires |Kept(AssessmentMap(raw), queries, retrieve)| >= 1
    ensures |ReadTsv(Execute(raw, queries, retrieve).content)| == 1
  {
    var kept := Kept(AssessmentMap(raw), queries, retrieve);
    KeptWords(AssessmentMap(raw), queries, retrieve);
    KeptNeedsJudgements(raw, queries, retrieve);
    var lastQid := raw[|raw| - 1].qid;
    var rows := WriteRows(lastQid, kept);
    RowsOneLine(lastQid, kept);
    FlattenNoNewline(rows);
    var content := Execute(raw, queries, retrieve).content;
    assert content == rows[0] + Flatten(rows[1..]);
    OneLine(content);
  }

  /** A single well-formed row, unterminated, reads back as its sample. */
  lemma ReadSingleLine(qid: string, positives: seq<string>, negatives: seq<string>)
    requires Word(qid) && Words(positives) && Words(negatives)
    ensures ReadHardNegatives(HardNegativeLine(qid, positives, negatives))
         == Success([HardNegativeSample(qid, positives, negatives)])
  {
    var line := HardNegativeLine(qid, positives, negatives);
    HardNegativeLineOneLine(qid, positives, negatives);
    OneLine(line);
    HardNegativeLineRoundTrip(qid, positives, negatives);
    assert ReadTsv(line) == [Fields(line)];
    ParseAll([Fields(line)], [HardNegativeSample(qid, positives, negatives)]);
  }

  /** Rows that each parse give the list of their samples. */
  lemma ParseAll(rows: seq<seq<string>>, samples: seq<HardNegativeSample>)
    requires |rows| == |samples|
    requires forall i :: 0 <= i < |rows| ==> ParseHardNegativeRow(rows[i]) == Success(samples[i])
    ensures ParseRows(rows) == Success(samples)
  {
    var r := ParseRows(rows);
    assert r.Success?;
    assert forall i :: 0 <= i < |rows| ==> r.value[i] == samples[i];
    assert r.value == samples;
  }

  /** With one kept topic the file reads back as one sample whose id is the
      last judged topic's, whichever topic was exported. */
  lemma ExecuteSingleTopicId(raw: seq<Qrels>, queries: seq<Topic>, retrieve: Retriever)
    requires WellFormedIds(queries, retrieve)
    requires forall i :: 0 <= i < |raw| ==> Word(raw[i].qid)
    requires |Kept(AssessmentMap(raw), queries, retrieve)| == 1
    ensures |raw| > 0
    ensures var x := Kept(AssessmentMap(raw), queries, retrieve)[0];
      ReadHardNegatives(Execute(raw, queries, retrieve).content)
        == Success([HardNegativeSample(raw[|raw| - 1].qid, x.positives, x.negatives)])
  {
    var kept := Kept(AssessmentMap(raw), queries, retrieve);
    KeptWords(AssessmentMap(raw), queries, retrieve);
    assert kept[0] in kept;
    ReadSingleLine(raw[|raw| - 1].qid, kept[0].positives, kept[0].negatives);
  }

  /** The concrete case: topic q1 is judged, then topic q2; only q1 is asked
      and kept; its row is read back under the id q2. */
  function ExampleJudgements(): seq<Qrels>
  {
    [Qrels("q1", [Qrel("d1", 1)]), Qrels("q2", [Qrel("d2", 1)])]
  }

  function ExampleRetriever(): Retriever
  {
    t => [ScoredDocument("d1", 2.0), ScoredDocument("d3", 1.0)]
  }

  lemma ExampleAssessments()
    ensures "q1" in AssessmentMap(ExampleJudgements())
    ensures AssessmentMap(ExampleJudgements())["q1"] == [("d1", 1)]
  {
    var raw := ExampleJudgements();
    assert raw[..1] == [Qrels("q1", [Qrel("d1", 1)])];
    assert raw[..1][..0] == [];
    assert [Qrel("d1", 1)][..0] == [];
    assert Doc2Rel([Qrel("d1", 1)]) == [("d1", 1)];
    assert AssessmentMap(raw[..1]) == map["q1" := [("d1", 1)]];
  }

  lemma ExampleKept()
    ensures Kept(AssessmentMap(ExampleJudgements()), [Topic("q1", "first")], ExampleRetriever())
         == [HardNegativeSample("q1", ["d1"], ["d3"])]
  {
    ExampleAssessments();
    var assess := AssessmentMap(ExampleJudgements());
    var d: Dict<int> := [("d1", 1)];
    var docs := ExampleRetriever()("first");
    assert docs == [ScoredDocument("d1", 2.0), ScoredDocument("d3", 1.0)];
    assert RelOf(d, "d1") == 1;
    assert RelOf(d, "d3") == 0;
    assert docs[1..][1..] == [];
    assert ExportPositives(d, docs) == ["d1"];
    assert ExportNegatives(d, docs) == ["d3"];
    var queries := [Topic("q1", "first")];
    assert KeptStep(assess, queries[0], ExampleRetriever()) == Some(HardNegativeSample("q1", ["d1"], ["d3"]));
    assert queries[1..] == [];
  }

  lemma WrongIdExample()
    ensures Kept(AssessmentMap(ExampleJudgements()), [Topic("q1", "first")], ExampleRetriever())
         == [HardNegativeSample("q1", ["d1"], ["d3"])]
    ensures ReadHardNegatives(Execute(ExampleJudgements(), [Topic("q1", "first")], ExampleRetriever()).content)
         == Success([HardNegativeSample("q2", ["d1"], ["d3"])])
  {
    ExampleKept();
    ExampleWellFormed();
    ExecuteSingleTopicId(ExampleJudgements(), [Topic("q1", "first")], ExampleRetriever());
  }

  lemma ExampleWellFormed()
    ensures WellFormedIds([Topic("q1", "first")], ExampleRetriever())
    ensures forall i :: 0 <= i < |ExampleJudgements()| ==> Word(ExampleJudgements()[i].qid)
  {
    var raw := ExampleJudgements();
    var docs := ExampleRetriever()("first");
    assert docs == [ScoredDocument("d1", 2.0), ScoredDocument("d3", 1.0)];
    assert Word("q1") && Word("q2") && Word("d1") && Word("d3");
    assert forall sd :: sd in docs ==> Word(sd.docid);
  }

  /** `execute` as evidently intended: each kept topic's own id, one
      newline-terminated row per topic. The file reads back as exactly the
      kept topics, in query order, each with its own id and both lists. */
  function ExecuteIntended(raw: seq<Qrels>, queries: seq<Topic>, retrieve: Retriever): (r: Export)
    ensures r.skipped + |Kept(AssessmentMap(raw), queries, retrieve)| == |queries|
    ensures WellFormedIds(queries, retrieve) ==>
      ReadHardNegatives(r.content) == Success(Kept(AssessmentMap(raw), queries, retrieve))
  {
    var kept := Kept(AssessmentMap(raw), queries, retrieve);
    var content := Terminated(OwnRows(kept), '\n');
    assert WellFormedIds(queries, retrieve) ==> ReadHardNegatives(content) == Success(kept) by {
      if WellFormedIds(queries, retrieve) {
        KeptWords(AssessmentMap(raw), queries, retrieve);
        ReadBack(kept);
      }
    }
    Export(content, SkipCount(AssessmentMap(raw), queries, retrieve))
  }

  function OwnRows(kept: seq<HardNegativeSample>): (rows: seq<string>)
    ensures |rows| == |kept|
  {
    seq(|kept|, i requires 0 <= i < |kept| => HardNegativeLine(kept[i].query, kept[i].positives, kept[i].negatives))
  }

  /** Newline-terminated rows of well-formed samples read back as the samples. */
  lemma ReadBack(kept: seq<HardNegativeSample>)
    requires forall x :: x in kept ==> Word(x.query) && Words(x.positives) && Words(x.negatives)
    ensures ReadHardNegatives(Terminated(OwnRows(kept), '\n')) == Success(kept)
  {
    var rows := OwnRows(kept);
    forall i | 0 <= i < |kept|
      ensures '\n' !in rows[i] && ParseHardNegativeRow(Fields(rows[i])) == Success(kept[i])
    {
      assert kept[i] in kept;
      OwnRowReadsBack(kept[i]);
    }
    ReadTerminatedRows(rows, kept);
  }

  lemma OwnRowReadsBack(x: HardNegativeSample)
    requires Word(x.query) && Words(x.positives) && Words(x.negatives)
    ensures var row := HardNegativeLine(x.query, x.positives, x.negatives);
      '\n' !in row && ParseHardNegativeRow(Fields(row)) == Success(x)
  {
    HardNegativeLineOneLine(x.query, x.positives, x.negatives);
    HardNegativeLineRoundTrip(x.query, x.positives, x.negatives);
  }

  lemma TsvOfTerminated(rows: seq<string>)
    requires FreeOf(rows, '\n')
    ensures ReadTsv(Terminated(rows, '\n')) == seq(|rows|, i requires 0 <= i < |rows| => Fields(rows[i]))
  {
    LinesOfTerminated(rows);
  }

  lemma ReadTerminatedRows(rows: seq<string>, kept: seq<HardNegativeSample>)
    requires |rows| == |kept|
    requires forall i :: 0 <= i < |kept| ==> '\n' !in rows[i] && ParseHardNegativeRow(Fields(rows[i])) == Success(kept[i])
    ensures ReadHardNegatives(Terminated(rows, '\n')) == Success(kept)
  {
    TsvOfTerminated(rows);
    ParseAll(seq(|rows|, i requires 0 <= i < |rows| => Fields(rows[i])), kept);
  }
}

=== FILE: inbatch.dfy ===
/** `PairwiseInBatchNegativesSampler.batchwise_iter`: batches of `B` pairs
    from the wrapped pairwise stream, laid out as `B` queries against `2B`
    documents (the positives, then the negatives) with the relevance matrix
    `[I_B | 0_B]`, which is computed once per call. */
module InBatch {
  import opened Common
  import opened Records
  import opened Rand

  /** `torch.cat((torch.eye(B), torch.zeros(B, B)), 1)`. */
  function Eye(b: nat): seq<seq<real>>
  {
    seq(b, i requires 0 <= i < b => seq(b, j requires 0 <= j < b => if i == j then 1.0 else 0.0))
  }

  function Zeros(rows: nat, cols: nat): seq<seq<real>>
  {
    seq(rows, i requires 0 <= i < rows => seq(cols, j requires 0 <= j < cols => 0.0))
  }

  function CatColumns(a: seq<seq<real>>, b: seq<seq<real>>): seq<seq<real>>
    requires |a| == |b|
  {
    seq(|a|, i requires 0 <= i < |a| => a[i] + b[i])
  }

  /** The matrix is `B × 2B` and query `i` is relevant to document `i` (its
      own positive) and to nothing else. */
  function Relevances(b: nat): (m: seq<seq<real>>)
    ensures |m| == b
    ensures forall i :: 0 <= i < b ==> |m[i]| == 2 * b
    ensures forall i, j :: 0 <= i < b && 0 <= j < 2 * b ==> (m[i][j] == 1.0 <==> j == i)
    ensures forall i, j :: 0 <= i < b && 0 <= j < 2 * b ==> (m[i][j] == 0.0 <==> j != i)
  {
    var m := CatColumns(Eye(b), Zeros(b, b));
    assert forall i, j :: 0 <= i < b && 0 <= j < 2 * b ==> m[i][j] == if j == i then 1.0 else 0.0 by {
      forall i, j | 0 <= i < b && 0 <= j < 2 * b
        ensures m[i][j] == if j == i then 1.0 else 0.0
      {
        assert m[i] == Eye(b)[i] + Zeros(b, b)[i];
        if j >= b {
          assert m[i][j] == Zeros(b, b)[i][j - b];
        }
      }
    }
    m
  }

  /** `ProductRecords` after `addQueries`, `addDocuments` and `setRelevances`. */
  datatype ProductBatch = ProductBatch(queries: seq<Query>, documents: seq<Document>, relevances: seq<seq<real>>)

  function QueriesOf(pairs: seq<PairwiseRecord>): (r: seq<Query>)
    ensures |r| == |pairs|
  {
    seq(|pairs|, i requires 0 <= i < |pairs| => pairs[i].query)
  }

  function PositivesOf(pairs: seq<PairwiseRecord>): (r: seq<Document>)
    ensures |r| == |pairs|
  {
    seq(|pairs|, i requires 0 <= i < |pairs| => pairs[i].positive)
  }

  function NegativesOf(pairs: seq<PairwiseRecord>): (r: seq<Document>)
    ensures |r| == |pairs|
  {
    seq(|pairs|, i requires 0 <= i < |pairs| => pairs[i].negative)
  }

  /** One yielded batch. */
  function BatchNext<S>(step: S -> Result<(PairwiseRecord, S)>, b: nat, s: S): (r: Result<(ProductBatch, S)>)
    ensures r.Success? <==> ZipTake(step, s, b).Success?
    ensures r.Success? ==>
      var pairs := ZipTake(step, s, b).value.items;
      && r.value.1 == ZipTake(step, s, b).value.state
      && r.value.0.relevances == Relevances(b)
      && |r.value.0.queries| == |pairs| && |r.value.0.documents| == 2 * |pairs|
      && (forall i :: 0 <= i < |pairs| ==> r.value.0.queries[i] == pairs[i].query)
      && (forall i :: 0 <= i < |pairs| ==> r.value.0.documents[i] == pairs[i].positive)
      && (forall i :: 0 <= i < |pairs| ==> r.value.0.documents[|pairs| + i] == pairs[i].negative)
  {
    var t :- ZipTake(step, s, b);
    Success((ProductBatch(QueriesOf(t.items), PositivesOf(t.items) + NegativesOf(t.items), Relevances(b)), t.state))
  }

  function BatchStep<S>(step: S -> Result<(PairwiseRecord, S)>, b: nat): S -> Result<(ProductBatch, S)>
  {
    s => BatchNext(step, b, s)
  }

  function BatchQueries(batches: seq<ProductBatch>): seq<seq<Query>>
  {
    seq(|batches|, i requires 0 <= i < |batches| => batches[i].queries)
  }

  /** A run of `n > 0` calls is one call followed by a run of `n - 1`. */
  lemma TakeUnfold<T, S>(step: S -> Result<(T, S)>, s: S, n: nat)
    requires n > 0 && step(s).Success? && Take(step, step(s).value.1, n - 1).Success?
    ensures Take(step, s, n) == Success(Taken([step(s).value.0] + Take(step, step(s).value.1, n - 1).value.items,
                                              Take(step, step(s).value.1, n - 1).value.state))
  {
  }

  lemma QueriesOfAppend(a: seq<PairwiseRecord>, b: seq<PairwiseRecord>)
    ensures QueriesOf(a + b) == QueriesOf(a) + QueriesOf(b)
  {
  }

  lemma BatchQueriesCons(x: ProductBatch, rest: seq<ProductBatch>)
    ensures Flatten(BatchQueries([x] + rest)) == x.queries + Flatten(BatchQueries(rest))
  {
    assert BatchQueries([x] + rest)[1..] == BatchQueries(rest);
  }

  /** The first batch of a long enough stream: its queries are those of the
      first `B` pairs, and it leaves the stream where those pairs left it. */
  lemma FirstBatch<S>(step: S -> Result<(PairwiseRecord, S)>, b: nat, s: S)
    requires Take(step, s, b).Success?
    ensures BatchStep(step, b)(s).Success?
    ensures BatchStep(step, b)(s).value.0.queries == QueriesOf(Take(step, s, b).value.items)
    ensures BatchStep(step, b)(s).value.1 == Take(step, s, b).value.state
  {
    ZipTakeFull(step, s, b);
  }

  /** On a stream of at least `n * B` pairs, the queries of `n` batches,
      concatenated, are those of the first `n * B` pairs in stream order, and
      the stream is left where those pairs left it. */
  lemma {:induction false} BatchesInStreamOrder<S>(step: S -> Result<(PairwiseRecord, S)>, b: nat, s: S, n: nat)
    requires Take(step, s, n * b).Success?
    ensures Take(BatchStep(step, b), s, n).Success?
    ensures Flatten(BatchQueries(Take(BatchStep(step, b), s, n).value.items))
         == QueriesOf(Take(step, s, n * b).value.items)
    ensures Take(BatchStep(step, b), s, n).value.state == Take(step, s, n * b).value.state
    decreases n
  {
    if n == 0 {
      assert Take(step, s, 0).value.items == [];
    } else {
      var bstep := BatchStep(step, b);
      assert n * b == b + (n - 1) * b;
      ResumeEquivalence(step, s, b, (n - 1) * b);
      var first := Take(step, s, b).value;
      FirstBatch(step, b, s);
      var s1 := first.state;
      var tail := Take(step, s1, (n - 1) * b).value.items;
      assert Take(step, s, n * b).value.items == first.items + tail;
      BatchesInStreamOrder(step, b, s1, n - 1);
      var batch := bstep(s).value.0;
      var rest := Take(bstep, s1, n - 1).value;
      TakeUnfold(bstep, s, n);
      BatchQueriesCons(batch, rest.items);
      QueriesOfAppend(first.items, tail);
    }
  }

  /** On such a stream every one of the `n` batches is full: `B` queries,
      `2B` documents. */
  lemma {:induction false} BatchesFull<S>(step: S -> Result<(PairwiseRecord, S)>, b: nat, s: S, n: nat, k: nat)
    requires Take(step, s, n * b).Success?
    requires k < n
    ensures Take(BatchStep(step, b), s, n).Success?
    ensures |Take(BatchStep(step, b), s, n).value.items[k].queries| == b
    ensures |Take(BatchStep(step, b), s, n).value.items[k].documents| == 2 * b
    decreases n
  {
    var bstep := BatchStep(step, b);
    assert n * b == b + (n - 1) * b;
    ResumeEquivalence(step, s, b, (n - 1) * b);
    FirstBatch(step, b, s);
    ZipTakeFull(step, s, b);
    var s1 := Take(step, s, b).value.state;
    BatchesInStreamOrder(step, b, s1, n - 1);
    TakeUnfold(bstep, s, n);
    if k > 0 {
      BatchesFull(step, b, s1, n - 1, k - 1);
    }
  }
}

=== FILE: listeners.dfy ===
/** `NegativeSamplerListener` and `FaissBuildListener`: listeners that act
    every `interval` epochs and never take part in the stopping decision. */
module Listeners {
  import opened Common
  import opened Validation

  // --- `NegativeSamplerListener`

  /** `change` is true until the first switch; `index` is the active sampler. */
  datatype NegState = NegState(change: bool, index: int)

  /** What the listener asks of the list sampler. */
  datatype SamplerEffect = SetCurrent(index: int) | UpdateSampler(index: int)

  /** `initialize`. */
  const NegStart := NegState(true, 0)

  /** `__call__(state)` at `epoch`, with `count` samplers in the list: on a
      sampling epoch, the first time only, move to the next sampler; then
      refresh the active sampler's negatives. */
  function NegOnEpoch(interval: int, count: nat, st: NegState, epoch: int)
    : (r: Result<(NegState, seq<SamplerEffect>, Status)>)
    ensures interval == 0 ==> r == Failure(ZeroModulo)
    ensures r.Success? ==> r.value.2 == NoDecision
    ensures interval != 0 && epoch % interval != 0 ==> r == Success((st, [], NoDecision))
    ensures interval != 0 && epoch % interval == 0 && st.change ==>
      (r.Success? <==> 0 <= st.index + 1 < count)
    ensures interval != 0 && epoch % interval == 0 && !st.change ==>
      (r.Success? <==> 0 <= st.index < count)
    ensures r.Success? && epoch % interval == 0 ==> !r.value.0.change
  {
    if interval == 0 then Failure(ZeroModulo)
    else if PyMod(epoch, interval) != 0 then Success((st, [], NoDecision))
    else
      var switched := if st.change then NegState(false, st.index + 1) else st;
      var effects := if st.change then [SetCurrent(switched.index)] else [];
      if 0 <= switched.index < count then
        Success((switched, effects + [UpdateSampler(switched.index)], NoDecision))
      else Failure(IndexOutOfRange)
  }

  /** Epochs `1..n` from the initial state. */
  function NegRun(interval: int, count: nat, n: nat): (r: Result<(NegState, seq<SamplerEffect>)>)
    decreases n
  {
    if n == 0 then Success((NegStart, []))
    else
      var p :- NegRun(interval, count, n - 1);
      var q :- NegOnEpoch(interval, count, p.0, n);
      Success((q.0, p.1 + q.1))
  }

  function CountUpdates(effects: seq<SamplerEffect>): nat
  {
    if |effects| == 0 then 0 else (if effects[0].UpdateSampler? then 1 else 0) + CountUpdates(effects[1..])
  }

  lemma {:induction false} CountUpdatesAppend(a: seq<SamplerEffect>, b: seq<SamplerEffect>)
    ensures CountUpdates(a + b) == CountUpdates(a) + CountUpdates(b)
    decreases |a|
  {
    if |a| == 0 {
      assert a + b == b;
    } else {
      assert (a + b)[1..] == a[1..] + b;
      CountUpdatesAppend(a[1..], b);
    }
  }

  /** Epochs `1..n` hold `n / k` multiples of `k`. */
  lemma {:induction false} MultiplesStep(k: int, n: nat)
    requires k > 0 && n > 0
    ensures n / k == (n - 1) / k + (if n % k == 0 then 1 else 0)
  {
    var q := (n - 1) / k;
    var r := (n - 1) % k;
    if r == k - 1 {
      assert n == (q + 1) * k + 0;
      DivUnique(n, k, q + 1, 0);
    } else {
      assert n == q * k + (r + 1);
      DivUnique(n, k, q, r + 1);
    }
  }

  /** Quotient and remainder are the only such pair. */
  lemma DivUnique(n: int, k: int, q: int, r: int)
    requires k > 0 && 0 <= r < k && n == q * k + r
    ensures n / k == q && n % k == r
  {
    var d := n / k - q;
    assert d * k == r - n % k;
    if d >= 1 {
      MulAtLeast(d, k);
    } else if d <= -1 {
      MulAtLeast(-d, k);
    }
  }

  /** Over epochs `1..n` with two samplers or more, the listener has moved
      to the second sampler exactly when a sampling epoch has passed, and has
      asked nothing before. */
  lemma {:induction false} NegRunState(k: int, count: nat, n: nat)
    requires k > 0 && count >= 2
    ensures NegRun(k, count, n).Success?
    ensures NegRun(k, count, n).value.0 == if n >= k then NegState(false, 1) else NegStart
    ensures n < k ==> NegRun(k, count, n).value.1 == []
    decreases n
  {
    if n > 0 {
      NegRunState(k, count, n - 1);
      var p := NegRun(k, count, n - 1).value;
      if n < k {
        DivUnique(n, k, 0, n);
        assert NegOnEpoch(k, count, p.0, n) == Success((p.0, [], NoDecision));
      } else if n == k {
        DivUnique(n, k, 1, 0);
        assert p.0 == NegStart;
        assert NegOnEpoch(k, count, p.0, n).value.0 == NegState(false, 1);
      } else {
        assert p.0 == NegState(false, 1);
      }
    }
  }

  /** The sampler is refreshed on every sampling epoch: `n / k` times. */
  lemma {:induction false} NegRunCount(k: int, count: nat, n: nat)
    requires k > 0 && count >= 2
    ensures NegRun(k, count, n).Success?
    ensures CountUpdates(NegRun(k, count, n).value.1) == n / k
    decreases n
  {
    NegRunState(k, count, n);
    if n > 0 {
      NegRunCount(k, count, n - 1);
      NegRunState(k, count, n - 1);
      MultiplesStep(k, n);
      var p := NegRun(k, count, n - 1).value;
      var q := NegOnEpoch(k, count, p.0, n).value;
      CountUpdatesAppend(p.1, q.1);
      assert CountUpdates(q.1) == if n % k == 0 then 1 else 0 by {
        if n % k == 0 {
          assert q.1 == [SetCurrent(1), UpdateSampler(1)] || q.1 == [UpdateSampler(1)];
          assert [SetCurrent(1), UpdateSampler(1)][1..] == [UpdateSampler(1)];
        }
      }
    }
  }

  /** The switch is the first request, and every other request refreshes the
      second sampler. */
  ghost predicate SwitchThenRefresh(effects: seq<SamplerEffect>, switched: bool)
  {
    forall i :: 0 <= i < |effects| ==> effects[i] == if i == 0 && switched then SetCurrent(1) else UpdateSampler(1)
  }

  lemma {:induction false} NegRunEffects(k: int, count: nat, n: nat)
    requires k > 0 && count >= 2
    ensures NegRun(k, count, n).Success?
    ensures SwitchThenRefresh(NegRun(k, count, n).value.1, n >= k)
    decreases n
  {
    NegRunState(k, count, n);
    if n > 0 {
      NegRunEffects(k, count, n - 1);
      NegRunState(k, count, n - 1);
      var p := NegRun(k, count, n - 1).value;
      var q := NegOnEpoch(k, count, p.0, n).value;
      if n % k != 0 {
        assert p.1 + q.1 == p.1;
        assert n - 1 >= k <==> n >= k;
      } else if n - 1 < k {
        assert p.1 + q.1 == [SetCurrent(1), UpdateSampler(1)];
      } else {
        assert q.1 == [UpdateSampler(1)];
        assert |p.1| > 0 by {
          NegRunCount(k, count, n - 1);
          assert (n - 1) / k >= 1 by {
            DivMonotone(k, n - 1);
          }
        }
      }
    }
  }

  lemma DivMonotone(k: int, m: int)
    requires k > 0 && m >= k
    ensures m / k >= 1
  {
    if m / k < 1 {
      DivUnique(m, k, 0, m);
    }
  }

  // --- `FaissBuildListener`

  /** `state.path / "listeners" / id / "faiss.dat"`. */
  function FaissPath(checkpoint: string, id: string): string
  {
    checkpoint + "/listeners/" + id + "/faiss.dat"
  }

  /** `__call__(state)`: on an indexing epoch, rebuild the index into the
      listener's directory of the current checkpoint. */
  function FaissOnEpoch(interval: int, id: string, checkpoint: string, epoch: int): (r: Result<(Option<string>, Status)>)
    ensures interval == 0 <==> r.Failure?
    ensures r.Success? ==> r.value.1 == NoDecision
    ensures r.Success? ==> (r.value.0.Some? <==> epoch % interval == 0)
    ensures r.Success? && r.value.0.Some? ==> checkpoint <= r.value.0.value
  {
    if interval == 0 then Failure(ZeroModulo)
    else if PyMod(epoch, interval) == 0 then Success((Some(FaissPath(checkpoint, id)), NoDecision))
    else Success((None, NoDecision))
  }

  /** The number of rebuilds during epochs `1..n`. */
  function FaissRebuilds(interval: int, id: string, checkpoint: string, n: nat): nat
    requires interval != 0
  {
    if n == 0 then 0
    else FaissRebuilds(interval, id, checkpoint, n - 1) + (if FaissOnEpoch(interval, id, checkpoint, n).value.0.Some? then 1 else 0)
  }

  /** Every `k` epochs means `n / k` rebuilds over epochs `1..n`. */
  lemma {:induction false} FaissRebuildCount(k: int, id: string, checkpoint: string, n: nat)
    requires k > 0
    ensures FaissRebuilds(k, id, checkpoint, n) == n / k
    decreases n
  {
    if n > 0 {
      FaissRebuildCount(k, id, checkpoint, n - 1);
      MultiplesStep(k, n);
    }
  }
}

=== FILE: pairwise_sampler.dfy ===
/** `PairwiseModelBasedSampler` and `PairwiseListSamplers`: every pair is a
    uniformly drawn topic with one positive and one negative drawn from its
    lists, each redrawn until the store has a text for it. The sampler's random
    state (shared by every sampler initialised with the same generator) is the
    whole state of the stream. */
module PairwiseSampling {
  import opened Common
  import opened Records
  import opened Assessments
  import opened TopicIteration
  import opened Rand

  /** The document `sample` returns for a candidate with the given text. */
  function ToDocument(c: Candidate, text: string): Document
  {
    Document(Some(c.docno), Some(text), Some(Number(c.score)))
  }

  /** `sample(samples)`: redraw until the drawn document has a text. The loop
      has no bound in the source; `fuel` bounds the number of draws. */
  function Sample(g: Prng, store: Store, samples: seq<Candidate>, s: RandomState, fuel: nat)
    : (r: Result<(Document, RandomState)>)
    ensures |samples| == 0 ==> r == Failure(EmptyRange)
    ensures r.Success? ==> exists c :: c in samples && store(c.docno).Some? && r.value.0 == ToDocument(c, store(c.docno).value)
    decreases fuel
  {
    if fuel == 0 then (if |samples| == 0 then Failure(EmptyRange) else Failure(OutOfFuel))
    else
      var d :- RandInt(g, s, |samples|);
      var c := samples[d.index];
      match store(c.docno)
      case None => Sample(g, store, samples, d.state, fuel - 1)
      case Some(text) => Success((ToDocument(c, text), d.state))
  }

  /** A list whose documents all lack text is never sampled from: whatever the
      budget, the draw does not succeed. */
  lemma {:induction false} SampleNoText(g: Prng, store: Store, samples: seq<Candidate>, s: RandomState, fuel: nat)
    requires forall c :: c in samples ==> store(c.docno).None?
    ensures Sample(g, store, samples, s, fuel).Failure?
    decreases fuel
  {
    if fuel > 0 && |samples| > 0 {
      var d := RandInt(g, s, |samples|).value;
      assert samples[d.index] in samples;
      SampleNoText(g, store, samples, d.state, fuel - 1);
    }
  }

  /** The budget only cuts the loop short: a draw that succeeds with some
      budget gives the same document and state with any larger one. */
  lemma {:induction false} SampleMoreFuel(g: Prng, store: Store, samples: seq<Candidate>, s: RandomState, fuel: nat, more: nat)
    requires Sample(g, store, samples, s, fuel).Success?
    ensures Sample(g, store, samples, s, fuel + more) == Sample(g, store, samples, s, fuel)
    decreases fuel
  {
    var d := RandInt(g, s, |samples|).value;
    if store(samples[d.index].docno).None? {
      SampleMoreFuel(g, store, samples, d.state, fuel - 1, more);
    }
  }

  /** When the first draw has a text, that is the document returned. */
  lemma SampleFirstDraw(g: Prng, store: Store, samples: seq<Candidate>, s: RandomState, fuel: nat)
    requires |samples| > 0 && fuel > 0
    requires store(samples[g.next(s).0 % |samples|].docno).Some?
    ensures var c := samples[g.next(s).0 % |samples|];
      Sample(g, store, samples, s, fuel) == Success((ToDocument(c, store(c.docno).value), g.next(s).1))
  {
  }

  /** The pair is the topic's query with one of its positives and one of its
      negatives, both with a text. */
  ghost predicate PairFrom(rec: PairwiseRecord, t: TopicSample)
  {
    && rec.query == Query(None, Some(t.title))
    && (exists c :: c in t.positives && rec.positive.docid == Some(c.docno))
    && (exists c :: c in t.negatives && rec.negative.docid == Some(c.docno))
    && rec.positive.text.Some? && rec.negative.text.Some?
  }

  /** One `next()` of `pairwise_iter`: a topic, then a positive, then a negative. */
  function PairwiseNext(g: Prng, store: Store, topics: seq<TopicSample>, fuel: nat, s: RandomState)
    : (r: Result<(PairwiseRecord, RandomState)>)
    ensures |topics| == 0 ==> r == Failure(EmptyRange)
    ensures r.Success? ==> exists t :: t in topics && PairFrom(r.value.0, t)
    ensures |topics| > 0 ==>
      var t := topics[RandInt(g, s, |topics|).value.index];
      && (r.Success? ==> PairFrom(r.value.0, t))
      && (|t.positives| == 0 ==> r == Failure(EmptyRange))
      && (|t.negatives| == 0 ==> r.Failure?)
  {
    var d :- RandInt(g, s, |topics|);
    var t := topics[d.index];
    var p :- Sample(g, store, t.positives, d.state, fuel);
    var n :- Sample(g, store, t.negatives, p.1, fuel);
    assert t in topics;
    Success((PairwiseRecord(Query(None, Some(t.title)), p.0, n.0), n.1))
  }

  /** The stream as a step function of the random state. */
  function PairwiseStep(g: Prng, store: Store, topics: seq<TopicSample>, fuel: nat): RandomState -> Result<(PairwiseRecord, RandomState)>
  {
    s => PairwiseNext(g, store, topics, fuel, s)
  }

  /** With topics whose lists are separated (as the topic iterators yield
      them), the two documents of a pair are different documents. */
  lemma PairDistinct(g: Prng, store: Store, topics: seq<TopicSample>, fuel: nat, s: RandomState)
    requires forall t :: t in topics ==> Separated(t.positives, t.negatives)
    requires PairwiseNext(g, store, topics, fuel, s).Success?
    ensures PairwiseNext(g, store, topics, fuel, s).value.0.positive.docid
         != PairwiseNext(g, store, topics, fuel, s).value.0.negative.docid
  {
    var rec := PairwiseNext(g, store, topics, fuel, s).value.0;
    var t :| t in topics && PairFrom(rec, t);
    var p :| p in t.positives && rec.positive.docid == Some(p.docno);
    var n :| n in t.negatives && rec.negative.docid == Some(n.docno);
    assert p.docno != n.docno;
  }

  /** Resuming the stream from a saved random state reproduces the rest of an
      uninterrupted run. */
  lemma PairwiseResume(g: Prng, store: Store, topics: seq<TopicSample>, fuel: nat, s: RandomState, n: nat, m: nat)
    ensures var step := PairwiseStep(g, store, topics, fuel);
      Take(step, s, n + m) == Continue(step, Take(step, s, n), m)
  {
    ResumeEquivalence(PairwiseStep(g, store, topics, fuel), s, n, m);
  }

  // --- `PairwiseListSamplers`

  /** The list iterator: one stream per sampler, the index of the active one,
      and the random state all samplers share. */
  datatype ListIter = ListIter(current: nat, state: RandomState)

  /** `next()` delegates to the active sampler's stream. */
  function ListNext(steps: seq<RandomState -> Result<(PairwiseRecord, RandomState)>>, it: ListIter)
    : (r: Result<(PairwiseRecord, ListIter)>)
    ensures it.current >= |steps| ==> r == Failure(IndexOutOfRange)
    ensures it.current < |steps| ==> (r.Success? <==> steps[it.current](it.state).Success?)
    ensures r.Success? ==> (r.value.1.current == it.current
      && (r.value.0, r.value.1.state) == steps[it.current](it.state).value)
  {
    if it.current >= |steps| then Failure(IndexOutOfRange)
    else
      var p :- steps[it.current](it.state);
      Success((p.0, ListIter(it.current, p.1)))
  }

  /** `set_current(i)`: the active stream changes, the random state does not. */
  function SetCurrent(it: ListIter, i: nat): (r: ListIter)
    ensures r.current == i && r.state == it.state
  {
    it.(current := i)
  }

  function ListStep(steps: seq<RandomState -> Result<(PairwiseRecord, RandomState)>>): ListIter -> Result<(PairwiseRecord, ListIter)>
  {
    it => ListNext(steps, it)
  }

  /** After a switch, a run of the list iterator is a run of the chosen
      sampler's stream from the shared state. */
  lemma {:induction false} SwitchedRun(steps: seq<RandomState -> Result<(PairwiseRecord, RandomState)>>, it: ListIter, i: nat, n: nat)
    requires i < |steps|
    ensures Take(ListStep(steps), SetCurrent(it, i), n).Success? <==> Take(steps[i], it.state, n).Success?
    ensures Take(ListStep(steps), SetCurrent(it, i), n).Success? ==>
      && Take(ListStep(steps), SetCurrent(it, i), n).value.items == Take(steps[i], it.state, n).value.items
      && Take(ListStep(steps), SetCurrent(it, i), n).value.state == ListIter(i, Take(steps[i], it.state, n).value.state)
    decreases n
  {
    if n > 0 {
      var start := SetCurrent(it, i);
      match steps[i](it.state)
      case Failure(e) =>
        assert ListStep(steps)(start).Failure?;
      case Success(p) =>
        assert ListStep(steps)(start) == Success((p.0, ListIter(i, p.1)));
        SwitchedRun(steps, ListIter(i, p.1), i, n - 1);
        assert SetCurrent(ListIter(i, p.1), i) == ListIter(i, p.1);
    }
  }
}

=== FILE: pointwise_sampler.dfy ===
/** `PointwiseModelBasedSampler`: the cached pools of positive and negative
    pointwise records built from the topic iterators, the lazy fetch of a
    record's text, and the infinite stream that draws a positive with
    probability `relevant_ratio` and a negative otherwise. */
module PointwiseSampling {
  import opened Common
  import opened Records
  import opened Assessments
  import opened TopicIteration
  import opened Rand

  /** The two pools `(pos_records, neg_records)`. */
  datatype Pools = Pools(pos: seq<PointwiseRecord>, neg: seq<PointwiseRecord>)

  /** The record built from one candidate of a topic: no text yet. */
  function Record(title: string, c: Candidate): PointwiseRecord
  {
    PointwiseRecord(title, c.docno, None, c.score, c.rel)
  }

  function ToRecords(title: string, cs: seq<Candidate>): (r: seq<PointwiseRecord>)
    ensures |r| == |cs|
    ensures forall i :: 0 <= i < |cs| ==> r[i] == Record(title, cs[i])
  {
    seq(|cs|, i requires 0 <= i < |cs| => Record(title, cs[i]))
  }

  /** Every candidate of a topic is a record of its pool. */
  ghost predicate Drawn(samples: seq<TopicSample>, x: PointwiseRecord, positive: bool)
  {
    exists i, c :: 0 <= i < |samples| && c in (if positive then samples[i].positives else samples[i].negatives)
      && x == Record(samples[i].title, c)
  }

  /** The loops of `readrecords`: the positives of every topic, in order, go
      to one pool and the negatives to the other. */
  function ReadPools(samples: seq<TopicSample>): (r: Pools)
    ensures forall x :: x in r.pos ==> Drawn(samples, x, true)
    ensures forall x :: x in r.neg ==> Drawn(samples, x, false)
    decreases |samples|
  {
    if |samples| == 0 then Pools([], [])
    else
      var t := samples[0];
      var rest := ReadPools(samples[1..]);
      var r := Pools(ToRecords(t.title, t.positives) + rest.pos, ToRecords(t.title, t.negatives) + rest.neg);
      forall x | x in r.pos ensures Drawn(samples, x, true) {
        if x in rest.pos {
          var i, c :| 0 <= i < |samples[1..]| && c in samples[1..][i].positives && x == Record(samples[1..][i].title, c);
          assert samples[i + 1] == samples[1..][i];
        } else {
          var k :| 0 <= k < |t.positives| && x == ToRecords(t.title, t.positives)[k];
          assert t.positives[k] in samples[0].positives;
        }
      }
      forall x | x in r.neg ensures Drawn(samples, x, false) {
        if x in rest.neg {
          var i, c :| 0 <= i < |samples[1..]| && c in samples[1..][i].negatives && x == Record(samples[1..][i].title, c);
          assert samples[i + 1] == samples[1..][i];
        } else {
          var k :| 0 <= k < |t.negatives| && x == ToRecords(t.title, t.negatives)[k];
          assert t.negatives[k] in samples[0].negatives;
        }
      }
      r
  }

  /** Nothing is lost: every candidate of every topic is in its pool. */
  lemma {:induction false} ReadPoolsComplete(samples: seq<TopicSample>, i: int, c: Candidate)
    requires 0 <= i < |samples|
    ensures c in samples[i].positives ==> Record(samples[i].title, c) in ReadPools(samples).pos
    ensures c in samples[i].negatives ==> Record(samples[i].title, c) in ReadPools(samples).neg
    decreases |samples|
  {
    var t := samples[0];
    if i == 0 {
      if c in t.positives {
        var k :| 0 <= k < |t.positives| && t.positives[k] == c;
        assert ToRecords(t.title, t.positives)[k] == Record(t.title, c);
      }
      if c in t.negatives {
        var k :| 0 <= k < |t.negatives| && t.negatives[k] == c;
        assert ToRecords(t.title, t.negatives)[k] == Record(t.title, c);
      }
    } else {
      assert samples[1..][i - 1] == samples[i];
      ReadPoolsComplete(samples[1..], i - 1, c);
    }
  }

  /** The pools built from topics of `a + b` are those of `a` followed by those of `b`. */
  lemma {:induction false} ReadPoolsAppend(a: seq<TopicSample>, b: seq<TopicSample>)
    ensures ReadPools(a + b).pos == ReadPools(a).pos + ReadPools(b).pos
    ensures ReadPools(a + b).neg == ReadPools(a).neg + ReadPools(b).neg
    decreases |a|
  {
    if |a| == 0 {
      assert a + b == b;
    } else {
      assert (a + b)[0] == a[0];
      assert (a + b)[1..] == a[1..] + b;
      ReadPoolsAppend(a[1..], b);
    }
  }

  /** The topic triples the sampler reads: per topic when `batch_size` is 0,
      batched otherwise. */
  function ReadSamples(assess: map<string, Dict<int>>, queries: seq<Topic>, batchSize: nat,
                       retrieve: Retriever, retrieveAll: RetrieveAll): Result<seq<TopicSample>>
    requires forall qid :: qid in assess ==> UniqueKeys(assess[qid])
  {
    if batchSize == 0 then
      var p :- IterTopics(assess, queries, retrieve);
      Success(p.samples)
    else IterTopicsBatchwise(assess, queries, batchSize, retrieveAll)
  }

  /** `readrecords` (also what `update` assigns to the pools). */
  function ReadRecords(assess: map<string, Dict<int>>, queries: seq<Topic>, batchSize: nat,
                       retrieve: Retriever, retrieveAll: RetrieveAll): (r: Result<Pools>)
    requires forall qid :: qid in assess ==> UniqueKeys(assess[qid])
    ensures r.Success? <==> ReadSamples(assess, queries, batchSize, retrieve, retrieveAll).Success?
    ensures r.Success? ==> r.value == ReadPools(ReadSamples(assess, queries, batchSize, retrieve, retrieveAll).value)
    ensures r.Success? ==> forall x :: x in r.value.pos ==>
      && x.relevance > 0 && x.score == 0.0 && x.text.None?
      && exists qid :: qid in assess && (x.docid, x.relevance) in assess[qid]
    ensures r.Success? ==> forall x :: x in r.value.neg ==> x.relevance <= 0 && x.text.None?
  {
    var samples :- ReadSamples(assess, queries, batchSize, retrieve, retrieveAll);
    ReadSamplesShaped(assess, queries, batchSize, retrieve, retrieveAll);
    PoolsShaped(assess, samples);
    Success(ReadPools(samples))
  }

  /** The triples of either mode split as `_itertopics` does: positives are
      judged relevant with score 0, negatives have relevance `<= 0`. */
  ghost predicate SplitShaped(assess: map<string, Dict<int>>, samples: seq<TopicSample>)
  {
    && (forall i, c :: 0 <= i < |samples| && c in samples[i].positives ==>
         c.rel > 0 && c.score == 0.0 && exists qid :: qid in assess && (c.docno, c.rel) in assess[qid])
    && (forall i, c :: 0 <= i < |samples| && c in samples[i].negatives ==> c.rel <= 0)
  }

  lemma ReadSamplesShaped(assess: map<string, Dict<int>>, queries: seq<Topic>, batchSize: nat,
                          retrieve: Retriever, retrieveAll: RetrieveAll)
    requires forall qid :: qid in assess ==> UniqueKeys(assess[qid])
    requires ReadSamples(assess, queries, batchSize, retrieve, retrieveAll).Success?
    ensures SplitShaped(assess, ReadSamples(assess, queries, batchSize, retrieve, retrieveAll).value)
  {
    var samples := ReadSamples(assess, queries, batchSize, retrieve, retrieveAll).value;
    if batchSize == 0 {
      forall i, c | 0 <= i < |samples| && c in samples[i].positives
        ensures c.rel > 0 && c.score == 0.0 && exists qid :: qid in assess && (c.docno, c.rel) in assess[qid]
      {
        SampleFromPositives(assess, queries, retrieve, i, c);
      }
      forall i, c | 0 <= i < |samples| && c in samples[i].negatives ensures c.rel <= 0 {
        SampleFromPositives(assess, queries, retrieve, i, c);
      }
    } else {
      BatchwiseSplit(assess, Chunks(queries, batchSize), retrieveAll);
      forall i, c | 0 <= i < |samples| && c in samples[i].positives
        ensures c.rel > 0 && c.score == 0.0 && exists qid :: qid in assess && (c.docno, c.rel) in assess[qid]
      {
        assert samples[i] in samples;
      }
      forall i, c | 0 <= i < |samples| && c in samples[i].negatives ensures c.rel <= 0 {
        assert samples[i] in samples;
      }
    }
  }

  /** Records built from split-shaped triples keep the split's facts. */
  lemma PoolsShaped(assess: map<string, Dict<int>>, samples: seq<TopicSample>)
    requires SplitShaped(assess, samples)
    ensures forall x :: x in ReadPools(samples).pos ==>
      && x.relevance > 0 && x.score == 0.0 && x.text.None?
      && exists qid :: qid in assess && (x.docid, x.relevance) in assess[qid]
    ensures forall x :: x in ReadPools(samples).neg ==> x.relevance <= 0 && x.text.None?
  {
    forall x | x in ReadPools(samples).pos
      ensures x.relevance > 0 && x.score == 0.0 && x.text.None?
      ensures exists qid :: qid in assess && (x.docid, x.relevance) in assess[qid]
    {
      var i, c :| 0 <= i < |samples| && c in samples[i].positives && x == Record(samples[i].title, c);
    }
    forall x | x in ReadPools(samples).neg ensures x.relevance <= 0 && x.text.None? {
      var i, c :| 0 <= i < |samples| && c in samples[i].negatives && x == Record(samples[i].title, c);
    }
  }

  /** In the per-topic mode, the positive pool holds only judged-relevant
      documents with score 0 and the negative pool only documents judged
      `rel <= 0` (or unjudged), and both pools are non-empty as soon as one
      topic was kept. */
  lemma PerTopicPools(assess: map<string, Dict<int>>, queries: seq<Topic>, retrieve: Retriever, retrieveAll: RetrieveAll)
    requires forall qid :: qid in assess ==> UniqueKeys(assess[qid])
    requires ReadRecords(assess, queries, 0, retrieve, retrieveAll).Success?
    ensures forall x :: x in ReadRecords(assess, queries, 0, retrieve, retrieveAll).value.pos ==>
      x.relevance > 0 && x.score == 0.0 && x.text.None?
    ensures forall x :: x in ReadRecords(assess, queries, 0, retrieve, retrieveAll).value.neg ==>
      x.relevance <= 0 && x.text.None?
    ensures |IterTopics(assess, queries, retrieve).value.samples| > 0 ==>
      |ReadRecords(assess, queries, 0, retrieve, retrieveAll).value.pos| > 0 &&
      |ReadRecords(assess, queries, 0, retrieve, retrieveAll).value.neg| > 0
  {
    var samples := IterTopics(assess, queries, retrieve).value.samples;
    var pools := ReadPools(samples);
    forall x | x in pools.pos ensures x.relevance > 0 && x.score == 0.0 && x.text.None? {
      var i, c :| 0 <= i < |samples| && c in samples[i].positives && x == Record(samples[i].title, c);
      SampleFromPositives(assess, queries, retrieve, i, c);
    }
    forall x | x in pools.neg ensures x.relevance <= 0 && x.text.None? {
      var i, c :| 0 <= i < |samples| && c in samples[i].negatives && x == Record(samples[i].title, c);
      SampleFromPositives(assess, queries, retrieve, i, c);
    }
    if |samples| > 0 {
      assert samples[0] in samples;
      var t := samples[0];
      ReadPoolsComplete(samples, 0, t.positives[0]);
      ReadPoolsComplete(samples, 0, t.negatives[0]);
    }
  }

  /** Every kept topic's lists come from the split. */
  lemma {:induction false} SampleFromPositives(assess: map<string, Dict<int>>, queries: seq<Topic>, retrieve: Retriever, i: int, c: Candidate)
    requires forall qid :: qid in assess ==> UniqueKeys(assess[qid])
    requires IterTopics(assess, queries, retrieve).Success?
    requires 0 <= i < |IterTopics(assess, queries, retrieve).value.samples|
    ensures c in IterTopics(assess, queries, retrieve).value.samples[i].positives ==> c.rel > 0 && c.score == 0.0
    ensures c in IterTopics(assess, queries, retrieve).value.samples[i].positives ==>
      exists qid :: qid in assess && (c.docno, c.rel) in assess[qid]
    ensures c in IterTopics(assess, queries, retrieve).value.samples[i].negatives ==> c.rel <= 0
    decreases |queries|
  {
    var first := TopicStep(assess, queries[0], retrieve);
    assert IterTopics(assess, queries, retrieve) == Prepend(first, IterTopics(assess, queries[1..], retrieve));
    if first.value.Some? && i == 0 {
    } else {
      var j := if first.value.Some? then i - 1 else i;
      SampleFromPositives(assess, queries[1..], retrieve, j, c);
    }
  }

  /** `prepare`: a record without text gets the store's text for its document. */
  function Prepare(store: Store, x: PointwiseRecord): (r: PointwiseRecord)
    ensures r.query == x.query && r.docid == x.docid && r.score == x.score && r.relevance == x.relevance
    ensures x.text.Some? ==> r.text == x.text
    ensures x.text.None? ==> r.text == store(x.docid)
  {
    if x.text.None? then x.(text := store(x.docid)) else x
  }

  /** Preparing twice is preparing once. */
  lemma PrepareIdempotent(store: Store, x: PointwiseRecord)
    ensures Prepare(store, Prepare(store, x)) == Prepare(store, x)
  {
  }

  // --- `record_iter`

  /** The generator's locals: the pool sizes read when the generator first
      runs, at its first `next()`. */
  datatype RecordIter = RecordIter(npos: nat, nneg: nat)

  function StartIter(pools: Pools): RecordIter
  {
    RecordIter(|pools.pos|, |pools.neg|)
  }

  /** One `next()` of `record_iter` as written: a uniform draw picks the pool,
      then `randint(0, n)` with the size read at the first `next()` indexes
      the sampler's current pool. */
  function RecordNext(g: Prng, ratio: real, pools: Pools, it: RecordIter, store: Store, s: RandomState)
    : (r: Result<(PointwiseRecord, RandomState)>)
    ensures var positive := g.uniform(s).0 < ratio;
      var pool := if positive then pools.pos else pools.neg;
      var n := if positive then it.npos else it.nneg;
      && (r.Success? <==> 0 < n && RandInt(g, g.uniform(s).1, n).value.index < |pool|)
      && (r.Success? ==> exists x :: x in pool && r.value.0 == Prepare(store, x))
      && (r.Success? ==> r.value.1 == g.next(g.uniform(s).1).1)
      && (n == 0 ==> r == Failure(EmptyRange))
  {
    var (u, s1) := g.uniform(s);
    var positive := u < ratio;
    var pool := if positive then pools.pos else pools.neg;
    var d :- RandInt(g, s1, if positive then it.npos else it.nneg);
    if d.index < |pool| then
      assert pool[d.index] in pool;
      Success((Prepare(store, pool[d.index]), d.state))
    else Failure(IndexOutOfRange)
  }

  /** A stream whose first `next()` reads the current pools never indexes out
      of them: it fails only on an empty pool. */
  lemma FreshIterInBounds(g: Prng, ratio: real, pools: Pools, store: Store, s: RandomState)
    ensures var pool := if g.uniform(s).0 < ratio then pools.pos else pools.neg;
      (RecordNext(g, ratio, pools, StartIter(pools), store, s).Success? <==> |pool| > 0)
  {
  }

  /** Once `update` has shrunk a pool, the sizes the running stream read at
      its first `next()` let `randint` reach past its end. */
  lemma StaleSizeAfterUpdate(s: RandomState, x: PointwiseRecord)
    ensures var g := Prng(t => (1, t), t => (0.0, t));
      var before := Pools([x, x], [x]);
      var after := Pools([x], [x]);
      RecordNext(g, 0.5, after, StartIter(before), (d: string) => None, s) == Failure(IndexOutOfRange)
  {
  }

  /** The evidently intended `next()`: sizes read from the current pools. */
  function RecordNextLive(g: Prng, ratio: real, pools: Pools, store: Store, s: RandomState)
    : (r: Result<(PointwiseRecord, RandomState)>)
    ensures var positive := g.uniform(s).0 < ratio;
      var pool := if positive then pools.pos else pools.neg;
      && (r.Success? <==> |pool| > 0)
      && (r.Failure? ==> r.error == EmptyRange)
      && (r.Success? ==> exists x :: x in pool && r.value.0 == Prepare(store, x))
  {
    RecordNext(g, ratio, pools, StartIter(pools), store, s)
  }
}

=== FILE: pointwise_trainer.dfy ===
/** `PointwiseTrainer`: batches of `batch_size` records from the sampler's
    record stream, and the target vector each batch's loss is computed
    against. The ranker's scores are an input. */
module PointwiseTraining {
  import opened Common
  import opened Records
  import opened Rand
  import opened Tensors

  // --- `iter_batches`

  /** The first `k` items of a run that yields `m >= k` items. */
  lemma TakePrefix<T, S>(step: S -> Result<(T, S)>, s: S, k: nat, m: nat)
    requires k <= m && Take(step, s, m).Success?
    ensures Take(step, s, k).Success?
    ensures Take(step, s, k).value.items == Take(step, s, m).value.items[..k]
  {
    ResumeEquivalence(step, s, k, m - k);
  }

  /** One more batch: on a long enough stream, `zip(range(B), it)` after
      `m` records yields the next `B` records. */
  lemma NextBatch<T, S>(step: S -> Result<(T, S)>, s: S, m: nat, b: nat, total: nat)
    requires m + b <= total && Take(step, s, total).Success?
    ensures Take(step, s, m).Success? && Take(step, s, m + b).Success?
    ensures var z := ZipTake(step, Take(step, s, m).value.state, b);
      && z.Success? && |z.value.items| == b
      && Take(step, s, m + b).value.items == Take(step, s, m).value.items + z.value.items
      && Take(step, s, m + b).value.state == z.value.state
  {
    TakePrefix(step, s, m + b, total);
    ResumeEquivalence(step, s, m, b);
    ZipTakeFull(step, Take(step, s, m).value.state, b);
  }

  lemma {:induction false} MulStep(k: nat, n: nat, b: nat)
    requires k < n
    ensures k * b + b <= n * b
    decreases n - k
  {
    assert (k + 1) * b == k * b + b;
    if k + 1 < n {
      MulStep(k + 1, n, b);
    }
  }

  /** `n` batches of `iter_batches(it)`, each filled by `zip(range(B), it)`.
      On a stream of at least `n * B` records, the batches are full and hold
      the first `n * B` records in stream order. */
  method IterBatches<T, S>(step: S -> Result<(T, S)>, b: nat, s: S, n: nat) returns (batches: seq<seq<T>>, last: S)
    requires Take(step, s, n * b).Success?
    ensures |batches| == n
    ensures forall i :: 0 <= i < n ==> |batches[i]| == b
    ensures Flatten(batches) == Take(step, s, n * b).value.items
    ensures last == Take(step, s, n * b).value.state
  {
    batches := [];
    last := s;
    var k := 0;
    var m := 0;
    while k < n
      invariant 0 <= k <= n && m == k * b
      invariant |batches| == k
      invariant forall i :: 0 <= i < k ==> |batches[i]| == b
      invariant Take(step, s, m).Success?
      invariant Flatten(batches) == Take(step, s, m).value.items
      invariant last == Take(step, s, m).value.state
    {
      MulStep(k, n, b);
      NextBatch(step, s, m, b, n * b);
      var batch := ZipTake(step, last, b).value;
      FlattenOne(batches, batch.items);
      batches := batches + [batch.items];
      last := batch.state;
      k := k + 1;
      m := m + b;
    }
  }

  lemma FlattenOne<T>(xss: seq<seq<T>>, xs: seq<T>)
    ensures Flatten(xss + [xs]) == Flatten(xss) + xs
  {
    FlattenAppend(xss, [xs]);
    assert [xs][1..] == [];
  }

  // --- `train_batch`

  /** The configured loss: `MSELoss` or `BinaryCrossEntropyLoss`. */
  datatype LossFn = Mse | Bce(logits: bool)

  /** `target_relscores[target_relscores == -999.0] = 0.0`. */
  function Normalise(ts: seq<real>): (r: seq<real>)
    ensures |r| == |ts|
    ensures forall i :: 0 <= i < |ts| ==> r[i] != -999.0
    ensures forall i :: 0 <= i < |ts| && ts[i] != -999.0 ==> r[i] == ts[i]
  {
    seq(|ts|, i requires 0 <= i < |ts| => if ts[i] == -999.0 then 0.0 else ts[i])
  }

  /** Replacing `-999` twice is replacing it once. */
  lemma NormaliseIdempotent(ts: seq<real>)
    ensures Normalise(Normalise(ts)) == Normalise(ts)
  {
  }

  /** `(target_relscores > 0).float()`. */
  function Binarise(ts: seq<real>): (r: seq<real>)
    ensures |r| == |ts|
    ensures forall i :: 0 <= i < |ts| ==> (r[i] == 1.0 <==> ts[i] > 0.0) && (r[i] == 0.0 <==> ts[i] <= 0.0)
  {
    seq(|ts|, i requires 0 <= i < |ts| => if ts[i] > 0.0 then 1.0 else 0.0)
  }

  /** The vector the loss compares the scores with. */
  function LossTarget(fn: LossFn, ts: seq<real>): seq<real>
  {
    match fn
    case Mse => ts
    case Bce(_) => Binarise(ts)
  }

  /** For the cross-entropy loss the `-999` replacement changes nothing: `-999`
      and `0` are both non-relevant. It matters for the squared error only. */
  lemma NormaliseIrrelevantForBce(ts: seq<real>, logits: bool)
    ensures LossTarget(Bce(logits), Normalise(ts)) == LossTarget(Bce(logits), ts)
  {
    assert forall i :: 0 <= i < |ts| ==> (Normalise(ts)[i] > 0.0 <==> ts[i] > 0.0);
  }

  /** `torch.FloatTensor(batch.relevances)`. */
  function Relevances(batch: seq<PointwiseRecord>): (r: seq<real>)
    ensures |r| == |batch|
  {
    seq(|batch|, i requires 0 <= i < |batch| => batch[i].relevance as real)
  }

  /** What one training step hands to the loss and to the metrics: the
      flattened scores, the target, and the weight of the loss in the
      running mean. */
  datatype StepOutcome = StepOutcome(scores: seq<real>, target: seq<real>, weight: nat)

  /** `train_batch` on one batch. NaN or infinite scores abort the process
      (`sys.exit(1)`); the metric is weighted by the configured batch size,
      also for a short batch. */
  function TrainBatch(fn: LossFn, batchSize: nat, batch: seq<PointwiseRecord>, scores: seq<Float>): (r: Result<StepOutcome>)
    requires |scores| == |batch|
    ensures r.Failure? <==> !AllFinite(scores)
    ensures r.Failure? ==> r.error == Exit(1)
    ensures r.Success? ==> |r.value.scores| == |r.value.target| == |batch| && r.value.weight == batchSize
    ensures r.Success? ==> forall i :: 0 <= i < |batch| ==> scores[i] == Finite(r.value.scores[i])
    ensures r.Success? && fn.Bce? ==> forall i :: 0 <= i < |batch| ==>
      (r.value.target[i] == 1.0 <==> batch[i].relevance > 0) && (r.value.target[i] == 0.0 <==> batch[i].relevance <= 0)
    ensures r.Success? && fn.Mse? ==> forall i :: 0 <= i < |batch| ==>
      r.value.target[i] == if batch[i].relevance == -999 then 0.0 else batch[i].relevance as real
  {
    if !AllFinite(scores) then Failure(Exit(1))
    else
      var target := LossTarget(fn, Normalise(Relevances(batch)));
      assert fn.Bce? ==> target == Binarise(Relevances(batch)) by {
        if fn.Bce? {
          NormaliseIrrelevantForBce(Relevances(batch), fn.logits);
        }
      }
      Success(StepOutcome(Values(scores), target, batchSize))
  }
}

=== FILE: rand.dfy ===
/** The random source and the serialisable iterators the samplers are built
    from. numpy's `RandomState` is an opaque snapshot with a deterministic
    transition; Python generators become step functions `S -> Result<(T, S)>`
    over an explicit state `S`, so that "resume" is a statement about states. */
module Rand {
  import opened Common

  /** A snapshot of numpy's `RandomState` (what `get_state()` returns). */
  type RandomState(==)

  type Unit = r: real | 0.0 <= r < 1.0

  /** An abstract deterministic generator: `next` is the raw integer draw
      behind `randint`, `uniform` the draw behind `random()`. Both are functions
      of the state alone, which is all that resuming relies on. */
  datatype Prng = Prng(
    next: RandomState -> (nat, RandomState),
    uniform: RandomState -> (Unit, RandomState))

  datatype Draw = Draw(index: nat, state: RandomState)

  /** numpy `randint(0, n)` (equivalently `randint(n)`): an index in [0, n), or
      the ValueError numpy raises for an empty range. */
  function RandInt(g: Prng, s: RandomState, n: int): (r: Result<Draw>)
    ensures r.Success? <==> n > 0
    ensures r.Success? ==> r.value.index < n
    ensures r.Success? ==> r.value.state == g.next(s).1
  {
    if n <= 0 then Failure(EmptyRange) else Success(Draw(g.next(s).0 % n, g.next(s).1))
  }

  // --- Runs of an iterator

  datatype Taken<T, S> = Taken(items: seq<T>, state: S)

  /** `n` successive `next()` calls; the first exception aborts the run. */
  function Take<T, S>(step: S -> Result<(T, S)>, s: S, n: nat): (r: Result<Taken<T, S>>)
    ensures r.Success? ==> |r.value.items| == n
    decreases n
  {
    if n == 0 then Success(Taken([], s))
    else
      var p :- step(s);
      var t :- Take(step, p.1, n - 1);
      Success(Taken([p.0] + t.items, t.state))
  }

  /** A run continued for `m` more calls from where it stopped. */
  function Continue<T, S>(step: S -> Result<(T, S)>, r: Result<Taken<T, S>>, m: nat): Result<Taken<T, S>>
  {
    var t :- r;
    var u :- Take(step, t.state, m);
    Success(Taken(t.items + u.items, u.state))
  }

  /** `zip(range(n), it)`: at most `n` calls; the iterator running out ends
      the batch early, any other error propagates. */
  function ZipTake<T, S>(step: S -> Result<(T, S)>, s: S, n: nat): (r: Result<Taken<T, S>>)
    ensures r.Success? ==> |r.value.items| <= n
    decreases n
  {
    if n == 0 then Success(Taken([], s))
    else
      match step(s)
      case Failure(e) => if e == StopIteration then Success(Taken([], s)) else Failure(e)
      case Success(p) =>
        var t :- ZipTake(step, p.1, n - 1);
        Success(Taken([p.0] + t.items, t.state))
  }

  /** On a stream that does not run out, the zip is a plain run of `n` calls. */
  lemma {:induction false} ZipTakeFull<T, S>(step: S -> Result<(T, S)>, s: S, n: nat)
    requires Take(step, s, n).Success?
    ensures ZipTake(step, s, n) == Take(step, s, n)
    decreases n
  {
    if n > 0 {
      ZipTakeFull(step, step(s).value.1, n - 1);
    }
  }

  /** Resume equivalence. An iterator whose whole state is `S` (for
      `RandomSerializableIterator`, the random state its `state_dict` saves)
      produces, when restored from the state reached after `n` items and asked
      for `m` more, exactly what an uninterrupted run of `n + m` produces;
      and it fails exactly when the uninterrupted run fails. */
  lemma {:induction false} ResumeEquivalence<T, S>(step: S -> Result<(T, S)>, s: S, n: nat, m: nat)
    ensures Take(step, s, n + m) == Continue(step, Take(step, s, n), m)
    decreases n
  {
    if n == 0 {
      match Take(step, s, m)
      case Failure(e) =>
      case Success(u) => assert [] + u.items == u.items;
    } else {
      match step(s)
      case Failure(e) =>
      case Success(p) =>
        ResumeEquivalence(step, p.1, n - 1, m);
        match Take(step, p.1, n - 1)
        case Failure(e) =>
        case Success(t) =>
          match Take(step, t.state, m)
          case Failure(e) =>
          case Success(u) =>
            assert [p.0] + (t.items + u.items) == ([p.0] + t.items) + u.items;
    }
  }

  // --- SkippingIterator over a re-iterable finite source

  /** `next()` of a plain iterator over `source`; its state is the number of
      items already produced, which is what `SkippingIterator` saves. */
  function SourceNext<T>(source: seq<T>): nat -> Result<(T, nat)>
  {
    (pos: nat) => if pos < |source| then Success((source[pos], pos + 1)) else Failure(StopIteration)
  }

  /** A run over a finite source yields the source's items in order, and is
      cut short by StopIteration exactly when the source runs out. */
  lemma {:induction false} SourceRun<T>(source: seq<T>, pos: nat, k: nat)
    requires pos <= |source|
    ensures Take<T, nat>(SourceNext(source), pos, k).Success? <==> pos + k <= |source|
    ensures pos + k <= |source| ==>
      && Take<T, nat>(SourceNext(source), pos, k).value.items == source[pos..pos + k]
      && Take<T, nat>(SourceNext(source), pos, k).value.state == pos + k
    decreases k
  {
    if k > 0 {
      var step := SourceNext(source);
      if pos < |source| {
        assert step(pos) == Success((source[pos], pos + 1));
        SourceRun(source, pos + 1, k - 1);
        if pos + k <= |source| {
          var t := Take<T, nat>(step, pos + 1, k - 1).value;
          assert t.items == source[pos + 1..pos + k] && t.state == pos + k;
          assert Take<T, nat>(step, pos, k) == Success(Taken([source[pos]] + t.items, t.state));
          assert source[pos..pos + k] == [source[pos]] + source[pos + 1..pos + k];
        }
      } else {
        assert step(pos) == Failure(StopIteration);
      }
    }
  }

  /** `load_state_dict` of a `SkippingIterator`: a fresh iterator over the
      source, advanced past the `count` items already produced. */
  function SkipTo<T>(source: seq<T>, count: nat): (r: Result<nat>)
    ensures r.Success? <==> count <= |source|
    ensures r.Success? ==> r.value == count
  {
    SourceRun(source, 0, count);
    var t :- Take<T, nat>(SourceNext(source), 0, count);
    Success(t.state)
  }

  /** Skip-ahead equivalence: an iterator restored after `k` items produces the
      items `k`, `k + 1`, ... of an uninterrupted run. */
  lemma SkipResume<T>(source: seq<T>, k: nat, m: nat)
    requires k + m <= |source|
    ensures SkipTo(source, k).Success?
    ensures Take<T, nat>(SourceNext(source), SkipTo(source, k).value, m).Success?
    ensures Take<T, nat>(SourceNext(source), 0, k + m).Success?
    ensures Take<T, nat>(SourceNext(source), SkipTo(source, k).value, m).value.items
         == Take<T, nat>(SourceNext(source), 0, k + m).value.items[k..]
  {
    SourceRun(source, k, m);
    SourceRun(source, 0, k + m);
  }
}

=== FILE: records.dfy ===
/** The records exchanged by the samplers and trainers (xpmir.letor.records and
    the datamaestro topic/assessment types), and the collaborators they are
    read from. Text that may be missing is an `Option`. */
module Records {
  import opened Common

  /** `Query(id, text)`: samplers fill one of the two. */
  datatype Query = Query(id: Option<string>, text: Option<string>)

  /** A document score: retrieval gives a number, while the triplet TSV reader
      keeps the field's text as it was read. */
  datatype Score = Number(value: real) | Field(text: string)

  /** `Document(docid, text, score)`. */
  datatype Document = Document(docid: Option<string>, text: Option<string>, score: Option<Score>)

  /** `PointwiseRecord(query, docid, text, score, relevance)`; the query is its text. */
  datatype PointwiseRecord = PointwiseRecord(
    query: string, docid: string, text: Option<string>, score: real, relevance: int)

  /** `PairwiseRecord(query, positive, negative)`. */
  datatype PairwiseRecord = PairwiseRecord(query: Query, positive: Document, negative: Document)

  /** One judgement of a topic, and all the judgements of one topic. */
  datatype Qrel = Qrel(docno: string, rel: int)
  datatype Qrels = Qrels(qid: string, assessments: seq<Qrel>)

  /** A topic as the topics iterator yields it. */
  datatype Topic = Topic(qid: string, text: string)

  /** One entry of a retriever's ranked answer. */
  datatype ScoredDocument = ScoredDocument(docid: string, score: real)

  /** A `(docno, rel, score)` triple of a topic's positive or negative list. */
  datatype Candidate = Candidate(docno: string, rel: int, score: real)

  /** What the topic iterators yield: the query text with its positive and
      negative candidates. */
  datatype TopicSample = TopicSample(title: string, positives: seq<Candidate>, negatives: seq<Candidate>)

  /** `retriever.retrieve(text)`: a ranked list, best first. */
  type Retriever = string -> seq<ScoredDocument>

  /** `store.document_text(docid)`, which is None for a document without content. */
  type Store = string -> Option<string>
}

=== FILE: tensor.dfy ===
/** The few tensor operations the trainers rely on. IEEE special values are
    kept as distinct cases so that the NaN/Inf checks can be stated; the loss
    arithmetic itself is not modelled. */
module Tensors {
  import opened Common

  datatype Float = Finite(v: real) | NaN | Inf(negative: bool)

  /** `not (isnan(x).any() or isinf(x).any())`. */
  predicate AllFinite(xs: seq<Float>)
  {
    forall i :: 0 <= i < |xs| ==> xs[i].Finite?
  }

  function Values(xs: seq<Float>): (r: seq<real>)
    requires AllFinite(xs)
    ensures |r| == |xs|
    ensures forall i :: 0 <= i < |xs| ==> xs[i] == Finite(r[i])
  {
    seq(|xs|, i requires 0 <= i < |xs| => xs[i].v)
  }

  /** `flat.reshape(2, n).T`: row `i` pairs element `i` of the first half with
      element `i` of the second half. */
  function ReshapeT<T>(flat: seq<T>, n: nat): (r: Result<seq<(T, T)>>)
    ensures r.Success? <==> |flat| == 2 * n
    ensures r.Success? ==> |r.value| == n
    ensures r.Success? ==> forall i :: 0 <= i < n ==> r.value[i] == (flat[i], flat[n + i])
  {
    if |flat| != 2 * n then Failure(ShapeMismatch)
    else Success(seq(n, i requires 0 <= i < n => (flat[i], flat[n + i])))
  }

  /** The inverse: the first column followed by the second. */
  function Columns<T>(rows: seq<(T, T)>): seq<T>
  {
    seq(|rows|, i requires 0 <= i < |rows| => rows[i].0) + seq(|rows|, i requires 0 <= i < |rows| => rows[i].1)
  }

  /** Reshaping loses nothing: the columns, concatenated, are the flat vector,
      and reshaping the columns gives the rows back. */
  lemma ReshapeRoundTrip<T>(flat: seq<T>, rows: seq<(T, T)>)
    ensures ReshapeT(flat, |flat| / 2).Success? ==> Columns(ReshapeT(flat, |flat| / 2).value) == flat
    ensures ReshapeT(Columns(rows), |rows|) == Success(rows)
  {
    if ReshapeT(flat, |flat| / 2).Success? {
      var c := Columns(ReshapeT(flat, |flat| / 2).value);
      assert |c| == |flat|;
      assert forall i :: 0 <= i < |flat| ==> c[i] == flat[i];
    }
    var c := Columns(rows);
    var n := |rows|;
    assert |c| == 2 * n;
    assert forall i :: 0 <= i < n ==> c[i] == rows[i].0 && c[n + i] == rows[i].1;
    assert ReshapeT(c, n).Success?;
    var back := ReshapeT(c, n).value;
    assert |back| == n;
    assert forall i :: 0 <= i < n ==> back[i] == (c[i], c[n + i]) == rows[i];
    assert back == rows;
  }
}

=== FILE: text.dfy ===
/** Python's string primitives used by the file formats of the core:
    `sep.join(parts)`, `s.split(sep)` with an explicit one-character
    separator, and the decimal rendering `f"{n}"` of an integer together with
    its parser `int(s)`. */
module Text {
  import opened Common

  /** Position of the first `c` in `s`. */
  function IndexOf(s: string, c: char): (i: nat)
    requires c in s
    ensures i < |s| && s[i] == c
    ensures c !in s[..i]
  {
    if s[0] == c then 0
    else
      var j := IndexOf(s[1..], c);
      assert s[..j + 1] == [s[0]] + s[1..][..j];
      j + 1
  }

  /** `sep.join(parts)`. */
  function Join(parts: seq<string>, sep: char): string
  {
    if |parts| == 0 then ""
    else if |parts| == 1 then parts[0]
    else parts[0] + [sep] + Join(parts[1..], sep)
  }

  /** `s.split(sep)`: the maximal separator-free pieces, empty pieces included
      (so `"".split(" ") == [""]` and `"a  b".split(" ") == ["a", "", "b"]`). */
  function Split(s: string, sep: char): (parts: seq<string>)
    ensures |parts| >= 1
    ensures forall i :: 0 <= i < |parts| ==> sep !in parts[i]
    decreases |s|
  {
    if sep !in s then [s]
    else
      var i := IndexOf(s, sep);
      [s[..i]] + Split(s[i + 1..], sep)
  }

  /** None of the strings contains `c`. */
  predicate FreeOf(parts: seq<string>, c: char)
  {
    forall i :: 0 <= i < |parts| ==> c !in parts[i]
  }

  /** A separator-free first piece is split off exactly. */
  lemma SplitCons(first: string, sep: char, rest: string)
    requires sep !in first
    ensures Split(first + [sep] + rest, sep) == [first] + Split(rest, sep)
  {
    var s := first + [sep] + rest;
    assert s[..|first|] == first;
    assert s[|first|] == sep;
    var i := IndexOf(s, sep);
    assert i == |first|;
    assert s[..i] == first;
    assert s[i + 1..] == rest;
  }

  /** Splitting a join recovers the parts, provided none contains the separator
      and there is at least one part (the join of `[]` and of `[""]` agree). */
  lemma {:induction false} SplitJoin(parts: seq<string>, sep: char)
    requires |parts| >= 1
    requires FreeOf(parts, sep)
    ensures Split(Join(parts, sep), sep) == parts
    decreases |parts|
  {
    if |parts| > 1 {
      SplitJoin(parts[1..], sep);
      SplitCons(parts[0], sep, Join(parts[1..], sep));
      assert parts == [parts[0]] + parts[1..];
    }
  }

  /** Joining a split gives the original string back. */
  lemma {:induction false} JoinSplit(s: string, sep: char)
    ensures Join(Split(s, sep), sep) == s
    decreases |s|
  {
    if sep in s {
      var i := IndexOf(s, sep);
      var tail := s[i + 1..];
      JoinSplit(tail, sep);
      var parts := Split(s, sep);
      assert parts == [s[..i]] + Split(tail, sep);
      assert parts[1..] == Split(tail, sep);
      assert Join(parts, sep) == s[..i] + [sep] + tail;
      assert s == s[..i] + [s[i]] + tail;
    }
  }

  /** `"".join` of pieces that each end in `sep` is the join of the pieces
      with one trailing empty piece: how a file of terminated lines reads. */
  function Terminated(lines: seq<string>, sep: char): string
  {
    if |lines| == 0 then "" else lines[0] + [sep] + Terminated(lines[1..], sep)
  }

  lemma {:induction false} TerminatedIsJoin(lines: seq<string>, sep: char)
    ensures Terminated(lines, sep) == Join(lines + [""], sep)
    decreases |lines|
  {
    if |lines| > 0 {
      TerminatedIsJoin(lines[1..], sep);
      assert (lines + [""])[1..] == lines[1..] + [""];
    }
  }

  // --- Decimal integers

  predicate IsDigit(c: char)
  {
    '0' as int <= c as int <= '9' as int
  }

  function DigitChar(d: nat): (c: char)
    requires d < 10
    ensures IsDigit(c) && c as int - '0' as int == d
  {
    (d + '0' as int) as char
  }

  /** `f"{n}"` for a natural number: its decimal digits, most significant first. */
  function NatToString(n: nat): (s: string)
    ensures |s| >= 1
    ensures forall i :: 0 <= i < |s| ==> IsDigit(s[i])
    decreases n
  {
    if n < 10 then [DigitChar(n)] else NatToString(n / 10) + [DigitChar(n % 10)]
  }

  /** `f"{i}"` for any integer. */
  function IntToString(i: int): (s: string)
    ensures |s| >= 1
    ensures forall k :: 0 <= k < |s| ==> IsDigit(s[k]) || s[k] == '-'
  {
    if i < 0 then "-" + NatToString(-i) else NatToString(i)
  }

  function DigitsValue(s: string): nat
    requires forall i :: 0 <= i < |s| ==> IsDigit(s[i])
  {
    if |s| == 0 then 0
    else
      assert IsDigit(s[|s| - 1]);
      10 * DigitsValue(s[..|s| - 1]) + (s[|s| - 1] as int - '0' as int)
  }

  /** `int(s)` restricted to an optional minus sign followed by digits. */
  function ParseInt(s: string): Option<int>
  {
    if |s| > 0 && s[0] == '-' then
      var d := s[1..];
      if |d| > 0 && forall i :: 0 <= i < |d| ==> IsDigit(d[i]) then Some(-(DigitsValue(d) as int)) else None
    else if |s| > 0 && forall i :: 0 <= i < |s| ==> IsDigit(s[i]) then Some(DigitsValue(s))
    else None
  }

  lemma {:induction false} DigitsOfNat(n: nat)
    ensures DigitsValue(NatToString(n)) == n
    decreases n
  {
    if n >= 10 {
      DigitsOfNat(n / 10);
      var s := NatToString(n);
      assert s[..|s| - 1] == NatToString(n / 10);
    }
  }

  /** Reading back a rendered integer gives the integer. */
  lemma ParseIntToString(i: int)
    ensures ParseInt(IntToString(i)) == Some(i)
  {
    if i < 0 {
      DigitsOfNat(-i);
      assert IntToString(i)[1..] == NatToString(-i);
    } else {
      DigitsOfNat(i);
    }
  }
}

=== FILE: topics.dfy ===
/** `ModelBasedSampler._itertopics` and `_itertopics_batchwise`: turning the
    judgements and a retriever's ranking into, per topic, the list of positive
    candidates (judged rel > 0, score 0) and the list of negative candidates
    (retrieved documents whose rel, defaulting to 0, is <= 0, with their
    retrieval score). The per-topic mode skips and counts unusable topics; the
    batched mode does not skip anything. */
module TopicIteration {
  import opened Common
  import opened Records
  import opened Assessments

  // --- The positive/negative split

  /** `[(docno, rel, 0) for docno, rel in qassessments.items() if rel > 0]`. */
  function Positives(d: Dict<int>): (r: seq<Candidate>)
    ensures forall c :: c in r ==> c.rel > 0 && c.score == 0.0 && (c.docno, c.rel) in d
    ensures forall e :: e in d && e.1 > 0 ==> Candidate(e.0, e.1, 0.0) in r
  {
    if |d| == 0 then []
    else
      assert d == [d[0]] + d[1..];
      (if d[0].1 > 0 then [Candidate(d[0].0, d[0].1, 0.0)] else []) + Positives(d[1..])
  }

  /** The retrieved documents that are not positive, in retrieval order, with
      their relevance (0 when unjudged) and their retrieval score. */
  function Negatives(d: Dict<int>, docs: seq<ScoredDocument>): (r: seq<Candidate>)
    ensures forall c :: c in r ==>
      c.rel <= 0 && c.rel == RelOf(d, c.docno) && ScoredDocument(c.docno, c.score) in docs
    ensures forall sd :: sd in docs && RelOf(d, sd.docid) <= 0 ==>
      Candidate(sd.docid, RelOf(d, sd.docid), sd.score) in r
  {
    if |docs| == 0 then []
    else
      assert docs == [docs[0]] + docs[1..];
      var rel := RelOf(d, docs[0].docid);
      (if rel <= 0 then [Candidate(docs[0].docid, rel, docs[0].score)] else []) + Negatives(d, docs[1..])
  }

  /** Both lists keep their source order: each distributes over concatenation. */
  lemma {:induction false} PositivesAppend(a: Dict<int>, b: Dict<int>)
    ensures Positives(a + b) == Positives(a) + Positives(b)
    decreases |a|
  {
    if |a| == 0 {
      assert a + b == b;
    } else {
      assert (a + b)[0] == a[0];
      assert (a + b)[1..] == a[1..] + b;
      PositivesAppend(a[1..], b);
    }
  }

  lemma {:induction false} NegativesAppend(d: Dict<int>, a: seq<ScoredDocument>, b: seq<ScoredDocument>)
    ensures Negatives(d, a + b) == Negatives(d, a) + Negatives(d, b)
    decreases |a|
  {
    if |a| == 0 {
      assert a + b == b;
    } else {
      assert (a + b)[0] == a[0];
      assert (a + b)[1..] == a[1..] + b;
      NegativesAppend(d, a[1..], b);
    }
  }

  /** A dict has no positives exactly when none of its judgements is above 0. */
  lemma {:induction false} PositivesEmpty(d: Dict<int>)
    ensures Positives(d) == [] <==> forall e :: e in d ==> e.1 <= 0
    decreases |d|
  {
    if |d| > 0 {
      PositivesEmpty(d[1..]);
      assert d == [d[0]] + d[1..];
    }
  }

  /** With distinct keys, an entry of the dict is what its key looks up. */
  lemma EntryLookup(d: Dict<int>, e: (string, int))
    requires UniqueKeys(d)
    requires e in d
    ensures Get(d, e.0) == Some(e.1)
  {
    var i :| 0 <= i < |d| && d[i] == e;
    GetAt(d, i);
  }

  /** No document is both a positive and a negative of the same topic. */
  ghost predicate Separated(positives: seq<Candidate>, negatives: seq<Candidate>)
  {
    forall p, n :: p in positives && n in negatives ==> p.docno != n.docno
  }

  lemma SplitSeparated(d: Dict<int>, docs: seq<ScoredDocument>)
    requires UniqueKeys(d)
    ensures Separated(Positives(d), Negatives(d, docs))
  {
    forall p, n | p in Positives(d) && n in Negatives(d, docs)
      ensures p.docno != n.docno
    {
      EntryLookup(d, (p.docno, p.rel));
    }
  }

  // --- Per-topic retrieval (`_itertopics`)

  /** The topic reaches `assert len(positives) > 0 and len(negatives) > 0`
      with a positive but without a negative. */
  predicate AssertionFails(assess: map<string, Dict<int>>, q: Topic, retrieve: Retriever)
  {
    q.qid in assess && Positives(assess[q.qid]) != [] && Negatives(assess[q.qid], retrieve(q.text)) == []
  }

  /** What `_itertopics` does with one topic: None when it skips it, the
      yielded triple otherwise, or the failed `assert len(negatives) > 0`. */
  function TopicStep(assess: map<string, Dict<int>>, q: Topic, retrieve: Retriever): (r: Result<Option<TopicSample>>)
    requires forall qid :: qid in assess ==> UniqueKeys(assess[qid])
    ensures r.Success? && r.value.Some? ==>
      && q.qid in assess
      && r.value.value.title == q.text
      && r.value.value.positives == Positives(assess[q.qid])
      && r.value.value.negatives == Negatives(assess[q.qid], retrieve(q.text))
      && |r.value.value.positives| > 0 && |r.value.value.negatives| > 0
      && Separated(r.value.value.positives, r.value.value.negatives)
    ensures r == Success(None) <==> q.qid !in assess || Positives(assess[q.qid]) == []
    ensures r.Failure? <==> AssertionFails(assess, q, retrieve)
    ensures r.Failure? ==> r.error == AssertionFailed("no negatives")
  {
    if q.qid !in assess || |assess[q.qid]| == 0 then Success(None)
    else
      var d := assess[q.qid];
      var positives := Positives(d);
      if |positives| == 0 then Success(None)
      else
        var negatives := Negatives(d, retrieve(q.text));
        SplitSeparated(d, retrieve(q.text));
        if |negatives| == 0 then Failure(AssertionFailed("no negatives"))
        else Success(Some(TopicSample(q.text, positives, negatives)))
  }

  /** The yielded triples and the skip counter that the final log reports. */
  datatype TopicPass = TopicPass(samples: seq<TopicSample>, skipped: nat)

  /** One topic's outcome in front of the rest of the pass. */
  function Prepend(first: Result<Option<TopicSample>>, rest: Result<TopicPass>): Result<TopicPass>
  {
    var o :- first;
    var p :- rest;
    match o
    case None => Success(TopicPass(p.samples, p.skipped + 1))
    case Some(t) => Success(TopicPass([t] + p.samples, p.skipped))
  }

  /** `_itertopics` over the topics, in order; an assertion failure aborts the pass. */
  function IterTopics(assess: map<string, Dict<int>>, queries: seq<Topic>, retrieve: Retriever): (r: Result<TopicPass>)
    requires forall qid :: qid in assess ==> UniqueKeys(assess[qid])
    ensures r.Success? <==> forall i :: 0 <= i < |queries| ==> TopicStep(assess, queries[i], retrieve).Success?
    ensures r.Failure? ==> r.error == AssertionFailed("no negatives")
    ensures r.Success? ==> |r.value.samples| + r.value.skipped == |queries|
    ensures r.Success? ==> forall t :: t in r.value.samples ==>
      |t.positives| > 0 && |t.negatives| > 0 && Separated(t.positives, t.negatives)
    decreases |queries|
  {
    if |queries| == 0 then Success(TopicPass([], 0))
    else
      assert forall i :: 1 <= i < |queries| ==> queries[1..][i - 1] == queries[i];
      Prepend(TopicStep(assess, queries[0], retrieve), IterTopics(assess, queries[1..], retrieve))
  }

  /** The pass fails exactly when some topic has a positive but no negative:
      the `assert` is the only way `_itertopics` raises. */
  lemma IterTopicsSucceeds(assess: map<string, Dict<int>>, queries: seq<Topic>, retrieve: Retriever)
    requires forall qid :: qid in assess ==> UniqueKeys(assess[qid])
    ensures IterTopics(assess, queries, retrieve).Success? <==>
      forall i :: 0 <= i < |queries| ==> !AssertionFails(assess, queries[i], retrieve)
  {
    if !IterTopics(assess, queries, retrieve).Success? {
      var i :| 0 <= i < |queries| && !TopicStep(assess, queries[i], retrieve).Success?;
      assert AssertionFails(assess, queries[i], retrieve);
    }
  }

  /** Running over `a + b` is running over `a`, then over `b`: samples in topic
      order, skip counts added. */
  lemma {:induction false} IterTopicsAppend(assess: map<string, Dict<int>>, a: seq<Topic>, b: seq<Topic>, retrieve: Retriever)
    requires forall qid :: qid in assess ==> UniqueKeys(assess[qid])
    requires IterTopics(assess, a + b, retrieve).Success?
    ensures IterTopics(assess, a, retrieve).Success? && IterTopics(assess, b, retrieve).Success?
    ensures IterTopics(assess, a + b, retrieve).value.samples
         == IterTopics(assess, a, retrieve).value.samples + IterTopics(assess, b, retrieve).value.samples
    ensures IterTopics(assess, a + b, retrieve).value.skipped
         == IterTopics(assess, a, retrieve).value.skipped + IterTopics(assess, b, retrieve).value.skipped
    decreases |a|
  {
    var ab := a + b;
    if |a| == 0 {
      assert ab == b;
    } else {
      assert ab[0] == a[0];
      assert ab[1..] == a[1..] + b;
      var first := TopicStep(assess, a[0], retrieve);
      assert IterTopics(assess, ab, retrieve) == Prepend(first, IterTopics(assess, a[1..] + b, retrieve));
      assert IterTopics(assess, a, retrieve) == Prepend(first, IterTopics(assess, a[1..], retrieve));
      IterTopicsAppend(assess, a[1..], b, retrieve);
      var x := IterTopics(assess, a[1..], retrieve).value.samples;
      var y := IterTopics(assess, b, retrieve).value.samples;
      if first.value.Some? {
        assert [first.value.value] + (x + y) == ([first.value.value] + x) + y;
      }
    }
  }

  /** Skip rule: a topic is skipped (and counted) exactly when it has no
      judgements, an empty judgement dict, or no judged document with rel > 0;
      otherwise it yields its query text with both lists. */
  lemma OneTopic(assess: map<string, Dict<int>>, q: Topic, retrieve: Retriever)
    requires forall qid :: qid in assess ==> UniqueKeys(assess[qid])
    requires IterTopics(assess, [q], retrieve).Success?
    ensures IterTopics(assess, [q], retrieve).value.skipped == 1
        <==> q.qid !in assess || forall e :: e in assess[q.qid] ==> e.1 <= 0
    ensures IterTopics(assess, [q], retrieve).value.skipped == 0 ==>
      IterTopics(assess, [q], retrieve).value.samples
        == [TopicSample(q.text, Positives(assess[q.qid]), Negatives(assess[q.qid], retrieve(q.text)))]
  {
    assert [q][1..] == [];
    assert [q][0] == q;
    if q.qid in assess {
      PositivesEmpty(assess[q.qid]);
    }
  }

  // --- Batched retrieval (`_itertopics_batchwise`)

  /** `batchiter(size, items)`: consecutive groups of `size` items, the last one
      possibly shorter, nothing dropped or repeated. */
  function Chunks<T>(xs: seq<T>, size: nat): (r: seq<seq<T>>)
    requires size > 0
    ensures Flatten(r) == xs
    ensures forall i :: 0 <= i < |r| ==> 0 < |r[i]| <= size
    ensures forall i :: 0 <= i < |r| - 1 ==> |r[i]| == size
    decreases |xs|
  {
    if |xs| == 0 then []
    else if |xs| <= size then
      assert Flatten([xs]) == xs + Flatten<T>([]);
      [xs]
    else
      var rest := Chunks(xs[size..], size);
      var r := [xs[..size]] + rest;
      assert r[1..] == rest;
      assert xs == xs[..size] + xs[size..];
      r
  }

  /** `{query.qid: query.text for query in batch}`. */
  function QueriesDict(batch: seq<Topic>): (d: Dict<string>)
    ensures UniqueKeys(d)
  {
    if |batch| == 0 then []
    else Put(QueriesDict(batch[..|batch| - 1]), batch[|batch| - 1].qid, batch[|batch| - 1].text)
  }

  /** `retriever.retrieve_all(queries_dict)`: a dict from query id to ranking,
      in whatever order the retriever returns it. */
  type RetrieveAll = Dict<string> -> seq<(string, seq<ScoredDocument>)>

  /** The triples of one batch, in the order of the retriever's answer. A qid
      without judgements makes `None.items()` raise; a qid the batch did not
      ask for makes `queries_dict[qid]` raise. */
  function BatchSamples(assess: map<string, Dict<int>>, qd: Dict<string>, results: seq<(string, seq<ScoredDocument>)>)
    : (r: Result<seq<TopicSample>>)
    requires forall qid :: qid in assess ==> UniqueKeys(assess[qid])
    ensures r.Success? ==> |r.value| == |results|
    ensures r.Success? ==> forall i :: 0 <= i < |results| ==>
      && results[i].0 in assess
      && Get(qd, results[i].0) == Some(r.value[i].title)
      && r.value[i].positives == Positives(assess[results[i].0])
      && r.value[i].negatives == Negatives(assess[results[i].0], results[i].1)
      && Separated(r.value[i].positives, r.value[i].negatives)
    decreases |results|
  {
    if |results| == 0 then Success([])
    else
      var qid := results[0].0;
      if qid !in assess then Failure(NoneAttribute)
      else
        var d := assess[qid];
        SplitSeparated(d, results[0].1);
        match Get(qd, qid)
        case None => Failure(KeyMissing(qid))
        case Some(text) =>
          var rest :- BatchSamples(assess, qd, results[1..]);
          var r := [TopicSample(text, Positives(d), Negatives(d, results[0].1))] + rest;
          assert forall i :: 1 <= i < |results| ==> results[i] == results[1..][i - 1] && r[i] == rest[i - 1];
          Success(r)
  }

  /** One `retrieve_all` per batch, the batches' triples concatenated. */
  function RunBatches(assess: map<string, Dict<int>>, batches: seq<seq<Topic>>, retrieveAll: RetrieveAll)
    : Result<seq<TopicSample>>
    requires forall qid :: qid in assess ==> UniqueKeys(assess[qid])
    decreases |batches|
  {
    if |batches| == 0 then Success([])
    else
      var qd := QueriesDict(batches[0]);
      var first :- BatchSamples(assess, qd, retrieveAll(qd));
      var rest :- RunBatches(assess, batches[1..], retrieveAll);
      Success(first + rest)
  }

  /** `_itertopics_batchwise` (used when `batch_size` is not 0). */
  function IterTopicsBatchwise(assess: map<string, Dict<int>>, queries: seq<Topic>, size: nat, retrieveAll: RetrieveAll)
    : Result<seq<TopicSample>>
    requires forall qid :: qid in assess ==> UniqueKeys(assess[qid])
    requires size > 0
  {
    RunBatches(assess, Chunks(queries, size), retrieveAll)
  }

  /** Every yielded triple of the batched mode obeys the same split rule as the
      per-topic mode (but may have an empty list: nothing is skipped). */
  lemma {:induction false} BatchwiseSplit(assess: map<string, Dict<int>>, batches: seq<seq<Topic>>, retrieveAll: RetrieveAll)
    requires forall qid :: qid in assess ==> UniqueKeys(assess[qid])
    requires RunBatches(assess, batches, retrieveAll).Success?
    ensures forall t :: t in RunBatches(assess, batches, retrieveAll).value ==>
      exists qid :: qid in assess && t.positives == Positives(assess[qid]) && Separated(t.positives, t.negatives)
    ensures forall t, c :: t in RunBatches(assess, batches, retrieveAll).value && c in t.negatives ==> c.rel <= 0
    decreases |batches|
  {
    if |batches| > 0 {
      BatchwiseSplit(assess, batches[1..], retrieveAll);
      var qd := QueriesDict(batches[0]);
      var first := BatchSamples(assess, qd, retrieveAll(qd)).value;
      forall t | t in first
        ensures exists qid :: qid in assess && t.positives == Positives(assess[qid]) && Separated(t.positives, t.negatives)
      {
        var i :| 0 <= i < |first| && first[i] == t;
        var qid := retrieveAll(qd)[i].0;
        assert qid in assess && t.positives == Positives(assess[qid]);
      }
      forall t, c | t in first && c in t.negatives ensures c.rel <= 0 {
        var i :| 0 <= i < |first| && first[i] == t;
      }
    }
  }

  // --- The batched mode with a well-behaved retriever

  /** No two topics share an id. */
  ghost predicate DistinctIds(batch: seq<Topic>)
  {
    forall i, j :: 0 <= i < j < |batch| ==> batch[i].qid != batch[j].qid
  }

  /** A retriever that answers every query of the dict, in the dict's order. */
  ghost predicate AnswersInOrder(retrieveAll: RetrieveAll)
  {
    forall qd: Dict<string> :: |retrieveAll(qd)| == |qd| &&
      forall i :: 0 <= i < |qd| ==> retrieveAll(qd)[i].0 == qd[i].0
  }

  function Pairs(batch: seq<Topic>): Dict<string>
  {
    seq(|batch|, i requires 0 <= i < |batch| => (batch[i].qid, batch[i].text))
  }

  /** A batch of distinct topics becomes the dict of its (qid, text) pairs in order. */
  lemma {:induction false} QueriesDictDistinct(batch: seq<Topic>)
    requires DistinctIds(batch)
    ensures QueriesDict(batch) == Pairs(batch)
    decreases |batch|
  {
    if |batch| > 0 {
      var init := batch[..|batch| - 1];
      var last := batch[|batch| - 1];
      assert DistinctIds(init);
      QueriesDictDistinct(init);
      PairsSnoc(batch);
      PutNew(Pairs(init), last.qid, last.text);
    }
  }

  /** The pairs of a batch are those of all but its last topic, then the last. */
  lemma PairsSnoc(batch: seq<Topic>)
    requires |batch| > 0 && DistinctIds(batch)
    ensures var init := batch[..|batch| - 1];
      && UniqueKeys(Pairs(init))
      && batch[|batch| - 1].qid !in Keys(Pairs(init))
      && Pairs(batch) == Pairs(init) + [(batch[|batch| - 1].qid, batch[|batch| - 1].text)]
  {
    var init := batch[..|batch| - 1];
    var pi := Pairs(init);
    assert forall i :: 0 <= i < |pi| ==> pi[i].0 == batch[i].qid;
    assert Pairs(batch) == pi + [(batch[|batch| - 1].qid, batch[|batch| - 1].text)];
  }

  /** Putting a new key appends it. */
  lemma {:induction false} PutNew<V>(d: Dict<V>, k: string, v: V)
    requires UniqueKeys(d)
    requires k !in Keys(d)
    ensures Put(d, k, v) == d + [(k, v)]
    decreases |d|
  {
    if |d| > 0 {
      KeysCons(d[0], d[1..]);
      assert d == [d[0]] + d[1..];
      PutNew(d[1..], k, v);
    }
  }

  lemma DistinctChunks(queries: seq<Topic>, size: nat)
    requires size > 0
    requires DistinctIds(queries)
    ensures forall c :: c in Chunks(queries, size) ==> DistinctIds(c)
    decreases |queries|
  {
    if |queries| > size {
      DistinctChunks(queries[size..], size);
      assert DistinctIds(queries[..size]);
    }
  }

  function Texts(batch: seq<Topic>): seq<string>
  {
    seq(|batch|, i requires 0 <= i < |batch| => batch[i].text)
  }

  function Titles(samples: seq<TopicSample>): seq<string>
  {
    seq(|samples|, i requires 0 <= i < |samples| => samples[i].title)
  }

  /** Every batch has distinct ids and only judged topics. */
  ghost predicate JudgedBatches(assess: map<string, Dict<int>>, batches: seq<seq<Topic>>)
  {
    forall i :: 0 <= i < |batches| ==> DistinctIds(batches[i]) && forall q :: q in batches[i] ==> q.qid in assess
  }

  lemma TitlesAppend(x: seq<TopicSample>, y: seq<TopicSample>)
    ensures Titles(x + y) == Titles(x) + Titles(y)
  {
  }

  lemma TextsAppend(x: seq<Topic>, y: seq<Topic>)
    ensures Texts(x + y) == Texts(x) + Texts(y)
  {
  }

  /** With judgements for every topic, distinct ids, and a retriever that
      answers in order, the batched mode yields one triple per topic, in topic
      order, nothing skipped. */
  lemma {:induction false} BatchwiseOnePerTopic(assess: map<string, Dict<int>>, batches: seq<seq<Topic>>, retrieveAll: RetrieveAll)
    requires forall qid :: qid in assess ==> UniqueKeys(assess[qid])
    requires AnswersInOrder(retrieveAll)
    requires JudgedBatches(assess, batches)
    ensures RunBatches(assess, batches, retrieveAll).Success?
    ensures Titles(RunBatches(assess, batches, retrieveAll).value) == Texts(Flatten(batches))
    decreases |batches|
  {
    if |batches| > 0 {
      var b := batches[0];
      assert DistinctIds(b) && forall q :: q in b ==> q.qid in assess;
      assert JudgedBatches(assess, batches[1..]) by {
        forall i | 0 <= i < |batches[1..]|
          ensures DistinctIds(batches[1..][i]) && forall q :: q in batches[1..][i] ==> q.qid in assess
        {
          assert batches[1..][i] == batches[i + 1];
        }
      }
      BatchwiseOnePerTopic(assess, batches[1..], retrieveAll);
      var qd := QueriesDict(b);
      QueriesDictDistinct(b);
      var results := retrieveAll(qd);
      OneBatch(assess, b, qd, results);
      var first := BatchSamples(assess, qd, results).value;
      var rest := RunBatches(assess, batches[1..], retrieveAll).value;
      assert RunBatches(assess, batches, retrieveAll) == Success(first + rest);
      TitlesAppend(first, rest);
      TextsAppend(b, Flatten(batches[1..]));
    }
  }

  /** The whole batched pass over distinct, judged topics, answered in order:
      one triple per topic, titles in topic order. */
  lemma BatchwiseWellBehaved(assess: map<string, Dict<int>>, queries: seq<Topic>, size: nat, retrieveAll: RetrieveAll)
    requires forall qid :: qid in assess ==> UniqueKeys(assess[qid])
    requires size > 0
    requires AnswersInOrder(retrieveAll)
    requires DistinctIds(queries)
    requires forall q :: q in queries ==> q.qid in assess
    ensures IterTopicsBatchwise(assess, queries, size, retrieveAll).Success?
    ensures Titles(IterTopicsBatchwise(assess, queries, size, retrieveAll).value) == Texts(queries)
  {
    var cs: seq<seq<Topic>> := Chunks(queries, size);
    DistinctChunks(queries, size);
    forall i | 0 <= i < |cs|
      ensures DistinctIds(cs[i]) && forall q: Topic :: q in cs[i] ==> q.qid in assess
    {
      assert cs[i] in cs;
      forall q: Topic | q in cs[i] ensures q.qid in assess {
        FlattenMember(cs, i, q);
      }
    }
    BatchwiseOnePerTopic(assess, cs, retrieveAll);
  }

  /** A member of one of the pieces is a member of the flattening. */
  lemma {:induction false} FlattenMember<T>(xss: seq<seq<T>>, i: int, x: T)
    requires 0 <= i < |xss|
    requires x in xss[i]
    ensures x in Flatten(xss)
    decreases |xss|
  {
    if i > 0 {
      FlattenMember(xss[1..], i - 1, x);
    }
  }

  lemma OneBatch(assess: map<string, Dict<int>>, b: seq<Topic>, qd: Dict<string>, results: seq<(string, seq<ScoredDocument>)>)
    requires forall qid :: qid in assess ==> UniqueKeys(assess[qid])
    requires DistinctIds(b)
    requires forall q :: q in b ==> q.qid in assess
    requires qd == Pairs(b)
    requires |results| == |qd| && forall i :: 0 <= i < |qd| ==> results[i].0 == qd[i].0
    ensures BatchSamples(assess, qd, results).Success?
    ensures Titles(BatchSamples(assess, qd, results).value) == Texts(b)
  {
    assert UniqueKeys(qd);
    forall i | 0 <= i < |results|
      ensures results[i].0 in assess && Get(qd, results[i].0) == Some(b[i].text)
    {
      assert b[i] in b;
      GetAt(qd, i);
    }
    BatchSamplesSucceed(assess, qd, results);
  }

  /** The batch succeeds when every answered qid is judged and was asked for. */
  lemma {:induction false} BatchSamplesSucceed(assess: map<string, Dict<int>>, qd: Dict<string>, results: seq<(string, seq<ScoredDocument>)>)
    requires forall qid :: qid in assess ==> UniqueKeys(assess[qid])
    requires forall i :: 0 <= i < |results| ==> results[i].0 in assess && Get(qd, results[i].0).Some?
    ensures BatchSamples(assess, qd, results).Success?
    decreases |results|
  {
    if |results| > 0 {
      assert forall i :: 1 <= i < |results| ==> results[1..][i - 1] == results[i];
      BatchSamplesSucceed(assess, qd, results[1..]);
    }
  }
}

=== FILE: triplets.dfy ===
/** The file-backed pairwise samplers: the tab-separated reader they share,
    `PairwiseSampleDatasetFromTSV` (hard-negative rows: id at field 0,
    space-separated positives at field 2, negatives at field 4),
    `PairwiseSamplerFromTSV` (five-field triplet rows), `TripletBasedSampler`,
    and the resumable iterator of `PairwiseDatasetTripletBasedSampler`. */
module Triplets {
  import opened Common
  import opened Text
  import opened Records
  import opened Rand

  // --- Reading a tab-separated file

  /** The lines of a file: a final newline does not start an extra line. */
  function Lines(content: string): (ls: seq<string>)
    ensures forall i :: 0 <= i < |ls| ==> '\n' !in ls[i]
  {
    var parts := Split(content, '\n');
    if parts[|parts| - 1] == "" then parts[..|parts| - 1] else parts
  }

  /** The fields of one line; a blank line has none. */
  function Fields(line: string): (fs: seq<string>)
    ensures line != "" ==> |fs| >= 1
    ensures forall i :: 0 <= i < |fs| ==> '\t' !in fs[i]
  {
    if line == "" then [] else Split(line, '\t')
  }

  /** `read_tsv(path)`: one row of fields per line. */
  function ReadTsv(content: string): (rows: seq<seq<string>>)
    ensures |rows| == |Lines(content)|
    ensures forall i :: 0 <= i < |rows| ==> rows[i] == Fields(Lines(content)[i])
  {
    var ls := Lines(content);
    seq(|ls|, i requires 0 <= i < |ls| => Fields(ls[i]))
  }

  /** A file of newline-terminated lines reads back as those lines. */
  lemma LinesOfTerminated(lines: seq<string>)
    requires FreeOf(lines, '\n')
    ensures Lines(Terminated(lines, '\n')) == lines
  {
    TerminatedIsJoin(lines, '\n');
    SplitJoin(lines + [""], '\n');
    assert (lines + [""])[..|lines|] == lines;
  }

  /** Splitting a five-field tab join gives the five fields back. */
  lemma FiveFields(a: string, b: string, c: string, d: string, e: string)
    requires FreeOf([a, b, c, d, e], '\t')
    ensures Fields(Join([a, b, c, d, e], '\t')) == [a, b, c, d, e]
  {
    var parts := [a, b, c, d, e];
    assert parts[1..] == [b, c, d, e];
    assert parts[1..][1..] == [c, d, e];
    assert parts[1..][1..][1..] == [d, e];
    assert parts[1..][1..][1..][1..] == [e];
    assert '\t' in Join(parts, '\t');
    SplitJoin(parts, '\t');
  }

  // --- Hard-negative samples (`PairwiseSampleDatasetFromTSV.iter`)

  /** `PairwiseSample(query, positives, negatives)` as this reader fills it. */
  datatype HardNegativeSample = HardNegativeSample(query: string, positives: seq<string>, negatives: seq<string>)

  /** One row; a row with fewer than five fields raises IndexError. */
  function ParseHardNegativeRow(row: seq<string>): (r: Result<HardNegativeSample>)
    ensures r.Success? <==> |row| >= 5
    ensures r.Success? ==> r.value.query == row[0]
    ensures r.Success? ==> Join(r.value.positives, ' ') == row[2] && Join(r.value.negatives, ' ') == row[4]
  {
    if |row| < 5 then Failure(IndexOutOfRange)
    else
      JoinSplit(row[2], ' ');
      JoinSplit(row[4], ' ');
      Success(HardNegativeSample(row[0], Split(row[2], ' '), Split(row[4], ' ')))
  }

  /** The samples of the file, in order; the first short row aborts the read. */
  function ReadHardNegatives(content: string): (r: Result<seq<HardNegativeSample>>)
    ensures r.Success? <==> forall i :: 0 <= i < |ReadTsv(content)| ==> |ReadTsv(content)[i]| >= 5
    ensures r.Success? ==> |r.value| == |ReadTsv(content)|
    ensures r.Success? ==> forall i :: 0 <= i < |r.value| ==> Success(r.value[i]) == ParseHardNegativeRow(ReadTsv(content)[i])
  {
    ParseRows(ReadTsv(content))
  }

  function ParseRows(rows: seq<seq<string>>): (r: Result<seq<HardNegativeSample>>)
    ensures r.Success? <==> forall i :: 0 <= i < |rows| ==> |rows[i]| >= 5
    ensures r.Success? ==> |r.value| == |rows|
    ensures r.Success? ==> forall i :: 0 <= i < |r.value| ==> Success(r.value[i]) == ParseHardNegativeRow(rows[i])
    decreases |rows|
  {
    if |rows| == 0 then Success([])
    else
      assert forall i :: 1 <= i < |rows| ==> rows[1..][i - 1] == rows[i];
      var x :- ParseHardNegativeRow(rows[0]);
      var rest :- ParseRows(rows[1..]);
      Success([x] + rest)
  }

  /** Ids that fit in a field of a space-separated list. */
  predicate Word(s: string)
  {
    ' ' !in s && '\t' !in s && '\n' !in s
  }

  predicate Words(ss: seq<string>)
  {
    |ss| >= 1 && forall i :: 0 <= i < |ss| ==> Word(ss[i])
  }

  /** The hard-negative row layout: id, `positives:`, the positives,
      `negatives:`, the negatives, tab-separated. */
  function HardNegativeLine(qid: string, positives: seq<string>, negatives: seq<string>): string
  {
    Join([qid, "positives:", Join(positives, ' '), "negatives:", Join(negatives, ' ')], '\t')
  }

  lemma JoinFree(parts: seq<string>, sep: char, c: char)
    requires sep != c
    requires FreeOf(parts, c)
    ensures c !in Join(parts, sep)
    decreases |parts|
  {
    if |parts| > 1 {
      JoinFree(parts[1..], sep, c);
    }
  }

  /** Reading back a hard-negative line gives its id and both lists: the
      reader takes exactly the fields the layout writes. */
  lemma HardNegativeLineRoundTrip(qid: string, positives: seq<string>, negatives: seq<string>)
    requires Word(qid) && Words(positives) && Words(negatives)
    ensures ParseHardNegativeRow(Fields(HardNegativeLine(qid, positives, negatives)))
         == Success(HardNegativeSample(qid, positives, negatives))
  {
    JoinFree(positives, ' ', '\t');
    JoinFree(negatives, ' ', '\t');
    FiveFields(qid, "positives:", Join(positives, ' '), "negatives:", Join(negatives, ' '));
    SplitJoin(positives, ' ');
    SplitJoin(negatives, ' ');
  }

  /** A hard-negative line has no newline in it. */
  lemma HardNegativeLineOneLine(qid: string, positives: seq<string>, negatives: seq<string>)
    requires Word(qid) && Words(positives) && Words(negatives)
    ensures '\n' !in HardNegativeLine(qid, positives, negatives)
    ensures HardNegativeLine(qid, positives, negatives) != ""
  {
    JoinFree(positives, ' ', '\n');
    JoinFree(negatives, ' ', '\n');
    JoinFree([qid, "positives:", Join(positives, ' '), "negatives:", Join(negatives, ' ')], '\t', '\n');
  }

  // --- Triplets with teacher scores (`PairwiseSamplerFromTSV`)

  /** One row, unpacked into `q_id, pos_id, pos_score, neg_id, neg_score`;
      any other number of fields fails to unpack. Scores stay as read. */
  function TripletRow(row: seq<string>): (r: Result<PairwiseRecord>)
    ensures r.Success? <==> |row| == 5
    ensures r.Failure? ==> r.error == Unpack(|row|)
    ensures r.Success? ==>
      && r.value.query == Query(Some(row[0]), None)
      && r.value.positive == Document(Some(row[1]), None, Some(Field(row[2])))
      && r.value.negative == Document(Some(row[3]), None, Some(Field(row[4])))
  {
    if |row| != 5 then Failure(Unpack(|row|))
    else Success(PairwiseRecord(
      Query(Some(row[0]), None),
      Document(Some(row[1]), None, Some(Field(row[2]))),
      Document(Some(row[3]), None, Some(Field(row[4])))))
  }

  /** The five-field layout of a scored triplet. */
  function TripletLine(qid: string, pos: string, posScore: string, neg: string, negScore: string): string
  {
    Join([qid, pos, posScore, neg, negScore], '\t')
  }

  /** A triplet line reads back as the record of its five fields. */
  lemma TripletLineRoundTrip(qid: string, pos: string, posScore: string, neg: string, negScore: string)
    requires FreeOf([qid, pos, posScore, neg, negScore], '\t')
    ensures TripletRow(Fields(TripletLine(qid, pos, posScore, neg, negScore)))
         == Success(PairwiseRecord(Query(Some(qid), None),
                                   Document(Some(pos), None, Some(Field(posScore))),
                                   Document(Some(neg), None, Some(Field(negScore)))))
  {
    FiveFields(qid, pos, posScore, neg, negScore);
  }

  // --- `TripletBasedSampler`

  /** `__validate__`: an id-only source needs an index. */
  function ValidateTriplets(ids: bool, index: Option<Store>): (r: Result<bool>)
    ensures r.Failure? <==> ids && index.None?
  {
    if ids && index.None? then Failure(AssertionFailed("index")) else Success(true)
  }

  /** `getdoc`: `_fromid` (which asserts the index) or `_fromtext`. */
  function GetDoc(ids: bool, index: Option<Store>, field: string): (r: Result<Document>)
    ensures r.Failure? <==> ids && index.None?
    ensures r.Success? && ids ==> r.value == Document(Some(field), index.value(field), None)
    ensures r.Success? && !ids ==> r.value == Document(None, Some(field), None)
  {
    if ids then
      if index.None? then Failure(AssertionFailed("index"))
      else Success(Document(Some(field), index.value(field), None))
    else Success(Document(None, Some(field), None))
  }

  /** The record of one source triplet; the query always goes into the text
      slot, even for an id-only source. */
  function TripletRecord(ids: bool, index: Option<Store>, triplet: (string, string, string)): (r: Result<PairwiseRecord>)
    ensures r.Success? <==> ValidateTriplets(ids, index).Success?
    ensures r.Success? ==> r.value.query == Query(None, Some(triplet.0))
    ensures r.Success? && !ids ==>
      r.value.positive.text == Some(triplet.1) && r.value.negative.text == Some(triplet.2)
    ensures r.Success? && ids ==>
      r.value.positive.docid == Some(triplet.1) && r.value.negative.docid == Some(triplet.2)
  {
    var pos :- GetDoc(ids, index, triplet.1);
    // Both lookups fail under the same condition, so the second cannot.
    var neg := GetDoc(ids, index, triplet.2).value;
    Success(PairwiseRecord(Query(None, Some(triplet.0)), pos, neg))
  }

  /** The `SkippingIterator` over the source: its state is the position. */
  function TripletNext(ids: bool, index: Option<Store>, source: seq<(string, string, string)>): nat -> Result<(PairwiseRecord, nat)>
  {
    (pos: nat) =>
      if pos >= |source| then Failure(StopIteration)
      else
        var rec :- TripletRecord(ids, index, source[pos]);
        Success((rec, pos + 1))
  }

  /** For a valid configuration, the stream restored after `k` records yields
      the records of triplets `k`, `k + 1`, ... in source order. */
  lemma {:induction false} TripletRun(ids: bool, index: Option<Store>, source: seq<(string, string, string)>, k: nat, m: nat)
    requires ValidateTriplets(ids, index).Success?
    requires k + m <= |source|
    ensures Take<PairwiseRecord, nat>(TripletNext(ids, index, source), k, m).Success?
    ensures Take<PairwiseRecord, nat>(TripletNext(ids, index, source), k, m).value.state == k + m
    ensures forall i :: 0 <= i < m ==>
      Success(Take<PairwiseRecord, nat>(TripletNext(ids, index, source), k, m).value.items[i])
        == TripletRecord(ids, index, source[k + i])
    decreases m
  {
    if m > 0 {
      var step := TripletNext(ids, index, source);
      var rec := TripletRecord(ids, index, source[k]).value;
      assert step(k) == Success((rec, k + 1));
      TripletRun(ids, index, source, k + 1, m - 1);
      var t := Take<PairwiseRecord, nat>(step, k + 1, m - 1).value;
      var all := Take<PairwiseRecord, nat>(step, k, m).value;
      assert all.items == [rec] + t.items;
      forall i | 0 <= i < m
        ensures Success(all.items[i]) == TripletRecord(ids, index, source[k + i])
      {
        if i > 0 {
          assert all.items[i] == t.items[i - 1];
        }
      }
    }
  }

  // --- `PairwiseDatasetTripletBasedSampler._Iterator`

  /** A sample with its negatives grouped by the algorithm that produced them. */
  datatype GroupedSample = GroupedSample(query: string, positives: seq<string>, negatives: seq<seq<string>>)

  datatype SampledTriple = SampledTriple(query: string, positive: string, negative: string)

  /** `state_dict()`: the random state together with the skip position. */
  datatype IterState = IterState(random: RandomState, position: nat)

  /** `next()`: the next sample of the dataset, then one positive, one group
      of negatives and one negative of that group, drawn in that order. */
  function IteratorNext(g: Prng, dataset: seq<GroupedSample>, st: IterState): (r: Result<(SampledTriple, IterState)>)
    ensures st.position >= |dataset| ==> r == Failure(StopIteration)
    ensures r.Success? ==>
      var sample := dataset[st.position];
      && r.value.0.query == sample.query
      && r.value.0.positive in sample.positives
      && (exists j :: 0 <= j < |sample.negatives| && r.value.0.negative in sample.negatives[j])
      && r.value.1.position == st.position + 1
    ensures st.position < |dataset| && |dataset[st.position].positives| == 0 ==> r == Failure(EmptyRange)
    ensures st.position < |dataset| && |dataset[st.position].negatives| == 0 ==> r.Failure?
    ensures r.Success? ==>
      var sample := dataset[st.position];
      var d1 := g.next(st.random);
      var d2 := g.next(d1.1);
      var d3 := g.next(d2.1);
      && |sample.positives| > 0 && |sample.negatives| > 0
      && r.value.0.positive == sample.positives[d1.0 % |sample.positives|]
      && var group := sample.negatives[d2.0 % |sample.negatives|];
      && |group| > 0
      && r.value.0.negative == group[d3.0 % |group|]
      && r.value.1.random == d3.1
  {
    if st.position >= |dataset| then Failure(StopIteration)
    else
      var sample := dataset[st.position];
      var p :- RandInt(g, st.random, |sample.positives|);
      var gr :- RandInt(g, p.state, |sample.negatives|);
      var group := sample.negatives[gr.index];
      var n :- RandInt(g, gr.state, |group|);
      Success((SampledTriple(sample.query, sample.positives[p.index], group[n.index]),
               IterState(n.state, st.position + 1)))
  }

  function IteratorStep(g: Prng, dataset: seq<GroupedSample>): IterState -> Result<(SampledTriple, IterState)>
  {
    st => IteratorNext(g, dataset, st)
  }

  /** `load_state_dict(state)`: skip the dataset to the saved position (which
      fails if the dataset is shorter), then restore the random state. */
  function LoadState(dataset: seq<GroupedSample>, saved: IterState): (r: Result<IterState>)
    ensures r.Success? <==> saved.position <= |dataset|
    ensures r.Success? ==> r.value == saved
  {
    var pos :- SkipTo(dataset, saved.position);
    Success(IterState(saved.random, pos))
  }

  /** Every state a run reaches can be saved and loaded back. */
  lemma {:induction false} RunStaysInDataset(g: Prng, dataset: seq<GroupedSample>, st: IterState, n: nat)
    requires Take(IteratorStep(g, dataset), st, n).Success?
    ensures Take(IteratorStep(g, dataset), st, n).value.state.position == st.position + n
    ensures n > 0 ==> Take(IteratorStep(g, dataset), st, n).value.state.position <= |dataset|
    decreases n
  {
    if n > 0 {
      var p := IteratorStep(g, dataset)(st).value;
      RunStaysInDataset(g, dataset, p.1, n - 1);
    }
  }

  /** Resume equivalence: saving the state after `n` draws, loading it back
      and drawing `m` more gives exactly the draws `n + 1 .. n + m` of an
      uninterrupted run. */
  lemma SaveLoadResume(g: Prng, dataset: seq<GroupedSample>, st: IterState, n: nat, m: nat)
    requires st.position <= |dataset|
    requires Take(IteratorStep(g, dataset), st, n).Success?
    ensures LoadState(dataset, Take(IteratorStep(g, dataset), st, n).value.state).Success?
    ensures var step := IteratorStep(g, dataset);
      var restored := LoadState(dataset, Take(step, st, n).value.state).value;
      (Take(step, st, n + m).Success? <==> Take(step, restored, m).Success?)
    ensures var step := IteratorStep(g, dataset);
      var restored := LoadState(dataset, Take(step, st, n).value.state).value;
      Take(step, st, n + m).Success? ==>
        Take(step, st, n + m).value.items == Take(step, st, n).value.items + Take(step, restored, m).value.items
  {
    RunStaysInDataset(g, dataset, st, n);
    ResumeEquivalence(IteratorStep(g, dataset), st, n, m);
  }
}

=== FILE: validation.dfy ===
/** `ValidationListener` (configuration, best table and early stopping): the
    best-so-far table maps a metric to `{value, epoch}`; early stopping
    compares the epoch with the latest best epoch of the keep-flagged
    metrics. The JSON info file keeps the table's insertion order, so the
    table is an insertion-ordered dict. */
module Validation {
  import opened Common
  import opened Assessments

  datatype Status = Stop | DontStop | NoDecision

  datatype Best = Best(value: real, epoch: int)

  /** `self.top`. */
  type Table = Dict<Best>

  /** The listener's parameters; `metrics` maps each metric to whether its
      best checkpoint is kept. */
  datatype Config = Config(
    id: string,
    metrics: Dict<bool>,
    warmup: int,
    storeLast: bool,
    validationInterval: int,
    earlyStop: int)

  /** `__validate__`: `early_stop` must be a multiple of `validation_interval`
      (Python's `%`; a zero interval raises ZeroDivisionError). */
  function Validate(cfg: Config): (r: Result<Config>)
    ensures cfg.validationInterval == 0 ==> r == Failure(ZeroModulo)
    ensures r.Success? <==> cfg.validationInterval != 0 && cfg.earlyStop % cfg.validationInterval == 0
    ensures r.Success? ==> r.value == cfg
  {
    if cfg.validationInterval == 0 then Failure(ZeroModulo)
    else if PyMod(cfg.earlyStop, cfg.validationInterval) != 0 then Failure(AssertionFailed("early_stop"))
    else Success(cfg)
  }

  /** `initialize`: the table read from the info file, or an empty table
      whatever went wrong reading it. */
  function Initialize(read: Result<Table>): (top: Table)
    ensures read.Failure? ==> top == []
    ensures read.Success? ==> top == read.value
  {
    match read
    case Failure(_) => []
    case Success(t) => t
  }

  // --- Early stopping

  /** The best epoch of a keep-flagged metric. */
  ghost predicate KeptEpoch(metrics: Dict<bool>, top: Table, e: int)
  {
    exists i :: 0 <= i < |top| && Get(metrics, top[i].0) == Some(true) && top[i].1.epoch == e
  }

  /** `info["epoch"] for key, info in self.top.items() if self.metrics[key]`,
      which raises KeyError at the first table key that is not a metric. */
  function KeptEpochs(metrics: Dict<bool>, top: Table): (r: Result<seq<int>>)
    ensures r.Success? <==> forall i :: 0 <= i < |top| ==> Get(metrics, top[i].0).Some?
    ensures r.Success? ==> forall e :: e in r.value <==> KeptEpoch(metrics, top, e)
    decreases |top|
  {
    if |top| == 0 then Success([])
    else
      var rest := KeptEpochs(metrics, top[1..]);
      assert forall i :: 1 <= i < |top| ==> top[1..][i - 1] == top[i];
      match Get(metrics, top[0].0)
      case None => Failure(KeyMissing(top[0].0))
      case Some(keep) =>
        var es :- rest;
        var r := if keep then [top[0].1.epoch] + es else es;
        assert forall e :: KeptEpoch(metrics, top, e) <==> (keep && e == top[0].1.epoch) || KeptEpoch(metrics, top[1..], e) by {
          forall e | KeptEpoch(metrics, top, e) && !(keep && e == top[0].1.epoch)
            ensures KeptEpoch(metrics, top[1..], e)
          {
            var i :| 0 <= i < |top| && Get(metrics, top[i].0) == Some(true) && top[i].1.epoch == e;
            assert i > 0;
            assert top[1..][i - 1] == top[i];
          }
          forall e | KeptEpoch(metrics, top[1..], e) ensures KeptEpoch(metrics, top, e) {
            var i :| 0 <= i < |top[1..]| && Get(metrics, top[1..][i].0) == Some(true) && top[1..][i].1.epoch == e;
            assert top[i + 1] == top[1..][i];
          }
        }
        Success(r)
  }

  /** `max(...)` of a non-empty sequence. */
  function MaxOf(xs: seq<int>): (m: int)
    requires |xs| > 0
    ensures m in xs
    ensures forall x :: x in xs ==> x <= m
  {
    if |xs| == 1 then xs[0]
    else
      var m := MaxOf(xs[1..]);
      assert forall x :: x in xs[1..] ==> x in xs;
      assert forall x :: x in xs ==> x == xs[0] || x in xs[1..];
      if xs[0] > m then xs[0] else m
  }

  /** `epoch or self.context.epoch`: 0 means the context's epoch. */
  function EpochOr(epoch: int, ctxEpoch: int): int
  {
    if epoch == 0 then ctxEpoch else epoch
  }

  /** Every keep-flagged best is at least `earlyStop` epochs before `e`. */
  ghost predicate Stale(cfg: Config, top: Table, e: int)
  {
    forall i :: 0 <= i < |top| && Get(cfg.metrics, top[i].0) == Some(true) ==> e - top[i].1.epoch >= cfg.earlyStop
  }

  /** `should_stop(epoch)`. STOP exactly when early stopping is on, the table
      is not empty, and no keep-flagged metric improved during the last
      `early_stop` epochs. A table key that is not a metric raises KeyError;
      a table with no keep-flagged metric makes `max` raise ValueError. */
  function ShouldStop(cfg: Config, top: Table, epoch: int, ctxEpoch: int): (r: Result<Status>)
    ensures cfg.earlyStop <= 0 || |top| == 0 ==> r == Success(DontStop)
    ensures r.Success? ==> r.value != NoDecision
    ensures cfg.earlyStop > 0 && |top| > 0 ==>
      (r.Success? <==> KeptEpochs(cfg.metrics, top).Success? && exists e :: KeptEpoch(cfg.metrics, top, e))
    ensures r == Success(Stop) <==>
      && cfg.earlyStop > 0 && |top| > 0
      && KeptEpochs(cfg.metrics, top).Success?
      && (exists e :: KeptEpoch(cfg.metrics, top, e))
      && Stale(cfg, top, EpochOr(epoch, ctxEpoch))
  {
    if cfg.earlyStop > 0 && |top| > 0 then
      var es :- KeptEpochs(cfg.metrics, top);
      if |es| == 0 then
        assert forall e :: !KeptEpoch(cfg.metrics, top, e);
        Failure(EmptyMax)
      else
        var since := EpochOr(epoch, ctxEpoch) - MaxOf(es);
        assert KeptEpoch(cfg.metrics, top, es[0]);
        StaleIffMax(cfg, top, es, EpochOr(epoch, ctxEpoch));
        if since >= cfg.earlyStop then Success(Stop) else Success(DontStop)
    else Success(DontStop)
  }

  lemma StaleIffMax(cfg: Config, top: Table, es: seq<int>, e: int)
    requires |es| > 0
    requires forall x :: x in es <==> KeptEpoch(cfg.metrics, top, x)
    ensures Stale(cfg, top, e) <==> e - MaxOf(es) >= cfg.earlyStop
  {
    var m := MaxOf(es);
    if Stale(cfg, top, e) {
      var i :| 0 <= i < |top| && Get(cfg.metrics, top[i].0) == Some(true) && top[i].1.epoch == m;
    }
    if e - m >= cfg.earlyStop {
      forall i | 0 <= i < |top| && Get(cfg.metrics, top[i].0) == Some(true)
        ensures e - top[i].1.epoch >= cfg.earlyStop
      {
        assert KeptEpoch(cfg.metrics, top, top[i].1.epoch);
      }
    }
  }

  /** `should_stop()` with no argument decides with the context's epoch. */
  lemma ShouldStopDefaultEpoch(cfg: Config, top: Table, ctxEpoch: int)
    ensures ShouldStop(cfg, top, 0, ctxEpoch) == ShouldStop(cfg, top, ctxEpoch, ctxEpoch)
  {
  }

  /** Once STOP, always STOP: a later (non-zero) epoch cannot un-stop. */
  lemma ShouldStopMonotone(cfg: Config, top: Table, e: int, e': int, ctxEpoch: int)
    requires e != 0 && e' != 0 && e <= e'
    requires ShouldStop(cfg, top, e, ctxEpoch) == Success(Stop)
    ensures ShouldStop(cfg, top, e', ctxEpoch) == Success(Stop)
  {
    assert Stale(cfg, top, e');
  }

  /** Only keep-flagged metrics count: a metric that is not kept can have
      improved at any epoch without preventing a stop. */
  lemma UnflaggedIgnored(cfg: Config, top: Table, i: int, b: Best, e: int, ctxEpoch: int)
    requires 0 <= i < |top|
    requires Get(cfg.metrics, top[i].0) == Some(false)
    ensures ShouldStop(cfg, top[i := (top[i].0, b)], e, ctxEpoch) == ShouldStop(cfg, top, e, ctxEpoch)
  {
    var top' := top[i := (top[i].0, b)];
    assert forall j :: 0 <= j < |top| ==> top'[j].0 == top[j].0;
    assert forall j :: 0 <= j < |top| && j != i ==> top'[j] == top[j];
    assert forall x :: KeptEpoch(cfg.metrics, top', x) <==> KeptEpoch(cfg.metrics, top, x) by {
      forall x | KeptEpoch(cfg.metrics, top', x) ensures KeptEpoch(cfg.metrics, top, x) {
        var j :| 0 <= j < |top'| && Get(cfg.metrics, top'[j].0) == Some(true) && top'[j].1.epoch == x;
        assert top'[j] == top[j];
      }
      forall x | KeptEpoch(cfg.metrics, top, x) ensures KeptEpoch(cfg.metrics, top', x) {
        var j :| 0 <= j < |top| && Get(cfg.metrics, top[j].0) == Some(true) && top[j].1.epoch == x;
        assert top'[j] == top[j];
      }
    }
    KeptEpochsSameKeys(cfg.metrics, top, top');
    assert Stale(cfg, top', EpochOr(e, ctxEpoch)) <==> Stale(cfg, top, EpochOr(e, ctxEpoch));
  }

  /** Which metric raises KeyError depends on the keys alone. */
  lemma {:induction false} KeptEpochsSameKeys(metrics: Dict<bool>, a: Table, b: Table)
    requires |a| == |b|
    requires forall j :: 0 <= j < |a| ==> a[j].0 == b[j].0
    ensures KeptEpochs(metrics, a).Failure? ==> KeptEpochs(metrics, b) == KeptEpochs(metrics, a)
    decreases |a|
  {
    if |a| > 0 {
      assert forall j :: 0 <= j < |a[1..]| ==> a[1..][j].0 == a[j + 1].0 == b[j + 1].0 == b[1..][j].0;
      KeptEpochsSameKeys(metrics, a[1..], b[1..]);
    }
  }

  /** The example: bests at epochs 0, 2 and 4 of kept metrics, `early_stop`
      4: at epoch 8 the listener stops, at epoch 6 it does not. */
  lemma ShouldStopExample()
    ensures var cfg := Config("v", [("a", true), ("b", true), ("c", true)], -1, false, 1, 4);
      var top := [("a", Best(0.1, 0)), ("b", Best(0.2, 2)), ("c", Best(0.3, 4))];
      ShouldStop(cfg, top, 8, 8) == Success(Stop) && ShouldStop(cfg, top, 6, 6) == Success(DontStop)
  {
    var cfg := Config("v", [("a", true), ("b", true), ("c", true)], -1, false, 1, 4);
    var top := [("a", Best(0.1, 0)), ("b", Best(0.2, 2)), ("c", Best(0.3, 4))];
    assert Get(cfg.metrics, "a") == Some(true);
    assert Get(cfg.metrics, "b") == Some(true);
    assert Get(cfg.metrics, "c") == Some(true);
    assert top[1..][1..][1..] == [];
    assert KeptEpochs(cfg.metrics, top[1..][1..][1..]) == Success([]);
    assert top[1..][1..][0] == ("c", Best(0.3, 4));
    assert top[1..][0] == ("b", Best(0.2, 2));
    assert [4] + [] == [4] && [2] + [4] == [2, 4] && [0] + [2, 4] == [0, 2, 4];
    assert KeptEpochs(cfg.metrics, top[1..][1..]) == Success([4]);
    assert KeptEpochs(cfg.metrics, top[1..]) == Success([2, 4]);
    assert KeptEpochs(cfg.metrics, top) == Success([0, 2, 4]);
    assert MaxOf([0, 2, 4]) == 4 by {
      assert [0, 2, 4][1..] == [2, 4];
      assert [2, 4][1..] == [4];
    }
  }

  // --- Outputs

  /** What a task output names: the best checkpoint of a metric, or the last one. */
  datatype Output = BestCheckpoint(metric: string) | LastCheckpoint

  /** The keep-flagged metrics, in order. */
  function KeptMetrics(metrics: Dict<bool>): (r: seq<string>)
    ensures forall k :: k in r <==> exists i :: 0 <= i < |metrics| && metrics[i].0 == k && metrics[i].1
    decreases |metrics|
  {
    if |metrics| == 0 then []
    else
      var rest := KeptMetrics(metrics[1..]);
      assert forall i :: 1 <= i < |metrics| ==> metrics[1..][i - 1] == metrics[i];
      if metrics[0].1 then [metrics[0].0] + rest else rest
  }

  /** `monitored()`. */
  function Monitored(cfg: Config): (r: seq<string>)
    requires UniqueKeys(cfg.metrics)
    ensures forall k :: k in r <==> Get(cfg.metrics, k) == Some(true)
  {
    forall k ensures k in KeptMetrics(cfg.metrics) <==> Get(cfg.metrics, k) == Some(true) {
      if k in KeptMetrics(cfg.metrics) {
        var i :| 0 <= i < |cfg.metrics| && cfg.metrics[i].0 == k && cfg.metrics[i].1;
        GetAt(cfg.metrics, i);
      }
      if Get(cfg.metrics, k) == Some(true) {
        GetFound(cfg.metrics, k);
        var i :| 0 <= i < |cfg.metrics| && cfg.metrics[i].0 == k;
        GetAt(cfg.metrics, i);
      }
    }
    KeptMetrics(cfg.metrics)
  }

  function BestOutputs(keys: seq<string>): Dict<Output>
  {
    if |keys| == 0 then [] else [(keys[0], BestCheckpoint(keys[0]))] + BestOutputs(keys[1..])
  }

  /** The output `taskoutputs` promises under a key: the last checkpoint
      under `last_checkpoint` when it is stored, else the key's own best
      checkpoint when the key is a keep-flagged metric. */
  function OutputOf(cfg: Config, k: string): Option<Output>
  {
    if cfg.storeLast && k == "last_checkpoint" then Some(LastCheckpoint)
    else if Get(cfg.metrics, k) == Some(true) then Some(BestCheckpoint(k))
    else None
  }

  /** `taskoutputs()`: the best checkpoint of every keep-flagged metric, plus
      `last_checkpoint` when the last checkpoint is stored (which would
      replace a metric of that name). */
  function TaskOutputs(cfg: Config): (r: Dict<Output>)
    requires UniqueKeys(cfg.metrics)
    ensures UniqueKeys(r)
    ensures forall k :: k in Keys(r) <==> Get(cfg.metrics, k) == Some(true) || (cfg.storeLast && k == "last_checkpoint")
    ensures forall k :: Get(r, k) == OutputOf(cfg, k)
  {
    var best := BestOutputs(Monitored(cfg));
    BestOutputsKeys(Monitored(cfg));
    UniqueMonitored(cfg);
    BestOutputsUnique(Monitored(cfg));
    forall k ensures Get(best, k) == if k in Monitored(cfg) then Some(BestCheckpoint(k)) else None {
      BestOutputsGet(Monitored(cfg), k);
    }
    forall k ensures cfg.storeLast ==>
      Get(Put(best, "last_checkpoint", LastCheckpoint), k) == if k == "last_checkpoint" then Some(LastCheckpoint) else Get(best, k)
    {
      if cfg.storeLast {
        PutGet(best, "last_checkpoint", LastCheckpoint, k);
      }
    }
    if cfg.storeLast then Put(best, "last_checkpoint", LastCheckpoint) else best
  }

  /** Each metric's output is its own best checkpoint. */
  lemma {:induction false} BestOutputsGet(keys: seq<string>, k: string)
    ensures Get(BestOutputs(keys), k) == if k in keys then Some(BestCheckpoint(k)) else None
    decreases |keys|
  {
    if |keys| > 0 {
      BestOutputsGet(keys[1..], k);
      assert k in keys <==> k == keys[0] || k in keys[1..];
    }
  }

  lemma {:induction false} BestOutputsKeys(keys: seq<string>)
    ensures Keys(BestOutputs(keys)) == set k | k in keys
    decreases |keys|
  {
    if |keys| > 0 {
      BestOutputsKeys(keys[1..]);
      KeysCons((keys[0], BestCheckpoint(keys[0])), BestOutputs(keys[1..]));
      assert forall k :: k in keys <==> k == keys[0] || k in keys[1..];
    }
  }

  ghost predicate Distinct(keys: seq<string>)
  {
    forall i, j :: 0 <= i < j < |keys| ==> keys[i] != keys[j]
  }

  lemma {:induction false} BestOutputsUnique(keys: seq<string>)
    requires Distinct(keys)
    ensures UniqueKeys(BestOutputs(keys))
    decreases |keys|
  {
    if |keys| > 0 {
      assert Distinct(keys[1..]) by {
        forall i, j | 0 <= i < j < |keys[1..]| ensures keys[1..][i] != keys[1..][j] {
          assert keys[1..][i] == keys[i + 1] && keys[1..][j] == keys[j + 1];
        }
      }
      BestOutputsUnique(keys[1..]);
      BestOutputsKeys(keys[1..]);
      var d := BestOutputs(keys);
      forall i, j | 0 <= i < j < |d| ensures d[i].0 != d[j].0 {
        if i == 0 {
          assert d[j] == BestOutputs(keys[1..])[j - 1];
          assert d[j].0 in Keys(BestOutputs(keys[1..]));
          var k :| 0 <= k < |keys[1..]| && keys[1..][k] == d[j].0;
          assert keys[k + 1] == keys[1..][k];
        } else {
          assert d[i] == BestOutputs(keys[1..])[i - 1] && d[j] == BestOutputs(keys[1..])[j - 1];
        }
      }
    }
  }

  lemma {:induction false} KeptMetricsDistinct(metrics: Dict<bool>)
    requires UniqueKeys(metrics)
    ensures Distinct(KeptMetrics(metrics))
    decreases |metrics|
  {
    if |metrics| > 0 {
      assert UniqueKeys(metrics[1..]) by {
        forall i, j | 0 <= i < j < |metrics[1..]| ensures metrics[1..][i].0 != metrics[1..][j].0 {
          assert metrics[1..][i] == metrics[i + 1] && metrics[1..][j] == metrics[j + 1];
        }
      }
      KeptMetricsDistinct(metrics[1..]);
      var rest := KeptMetrics(metrics[1..]);
      if metrics[0].1 {
        var r := [metrics[0].0] + rest;
        forall i, j | 0 <= i < j < |r| ensures r[i] != r[j] {
          if i == 0 {
            assert r[j] == rest[j - 1];
            assert rest[j - 1] in rest;
            var k :| 0 <= k < |metrics[1..]| && metrics[1..][k].0 == r[j] && metrics[1..][k].1;
            assert metrics[k + 1] == metrics[1..][k];
          } else {
            assert r[i] == rest[i - 1] && r[j] == rest[j - 1];
          }
        }
      }
    }
  }

  lemma UniqueMonitored(cfg: Config)
    requires UniqueKeys(cfg.metrics)
    ensures Distinct(Monitored(cfg))
  {
    KeptMetricsDistinct(cfg.metrics);
  }

  /** `update_metrics(metrics)`: with a non-empty table, one
      `<id>/final/<metric>` entry per metric holding its best value; a metric
      absent from the table raises KeyError. */
  function UpdateMetrics(cfg: Config, top: Table, metrics: Dict<real>): (r: Result<Dict<real>>)
    requires UniqueKeys(metrics)
    ensures |top| == 0 ==> r == Success(metrics)
    ensures r.Success? ==> UniqueKeys(r.value)
    ensures |top| > 0 ==> (r.Success? <==> forall i :: 0 <= i < |cfg.metrics| ==> Get(top, cfg.metrics[i].0).Some?)
  {
    if |top| == 0 then Success(metrics) else AddFinals(cfg.id, cfg.metrics, top, metrics)
  }

  function FinalKey(id: string, metric: string): string
  {
    id + "/final/" + metric
  }

  function AddFinals(id: string, ms: Dict<bool>, top: Table, metrics: Dict<real>): (r: Result<Dict<real>>)
    requires UniqueKeys(metrics)
    ensures r.Success? ==> UniqueKeys(r.value)
    ensures r.Success? <==> forall i :: 0 <= i < |ms| ==> Get(top, ms[i].0).Some?
    ensures r.Success? ==> forall i :: 0 <= i < |ms| ==> FinalKey(id, ms[i].0) in Keys(r.value)
    ensures r.Success? ==> Keys(metrics) <= Keys(r.value)
    decreases |ms|
  {
    if |ms| == 0 then Success(metrics)
    else
      assert forall i :: 1 <= i < |ms| ==> ms[1..][i - 1] == ms[i];
      match Get(top, ms[0].0)
      case None => Failure(KeyMissing(ms[0].0))
      case Some(b) =>
        var next := Put(metrics, FinalKey(id, ms[0].0), b.value);
        AddFinals(id, ms[1..], top, next)
  }

  /** The value stored under a metric's final key is that metric's best value. */
  lemma {:induction false} AddFinalsValue(id: string, ms: Dict<bool>, top: Table, metrics: Dict<real>, i: int)
    requires UniqueKeys(metrics)
    requires UniqueKeys(ms)
    requires 0 <= i < |ms|
    requires AddFinals(id, ms, top, metrics).Success?
    ensures Get(AddFinals(id, ms, top, metrics).value, FinalKey(id, ms[i].0)) == Some(Get(top, ms[i].0).value.value)
    decreases |ms|
  {
    var next := Put(metrics, FinalKey(id, ms[0].0), Get(top, ms[0].0).value.value);
    assert UniqueKeys(ms[1..]) by {
      forall a, b | 0 <= a < b < |ms[1..]| ensures ms[1..][a].0 != ms[1..][b].0 {
        assert ms[1..][a] == ms[a + 1] && ms[1..][b] == ms[b + 1];
      }
    }
    if i == 0 {
      PutGet(metrics, FinalKey(id, ms[0].0), Get(top, ms[0].0).value.value, FinalKey(id, ms[0].0));
      forall j | 0 <= j < |ms[1..]| ensures FinalKey(id, ms[1..][j].0) != FinalKey(id, ms[0].0) {
        assert ms[1..][j] == ms[j + 1];
        FinalKeyInjective(id, ms[j + 1].0, ms[0].0);
      }
      AddFinalsKeeps(id, ms[1..], top, next, FinalKey(id, ms[0].0));
    } else {
      assert ms[1..][i - 1] == ms[i];
      AddFinalsValue(id, ms[1..], top, next, i - 1);
    }
  }

  /** Keys that are not the final key of a later metric keep their value. */
  lemma {:induction false} AddFinalsKeeps(id: string, ms: Dict<bool>, top: Table, metrics: Dict<real>, k: string)
    requires UniqueKeys(metrics)
    requires AddFinals(id, ms, top, metrics).Success?
    requires forall j :: 0 <= j < |ms| ==> FinalKey(id, ms[j].0) != k
    ensures Get(AddFinals(id, ms, top, metrics).value, k) == Get(metrics, k)
    decreases |ms|
  {
    if |ms| > 0 {
      var next := Put(metrics, FinalKey(id, ms[0].0), Get(top, ms[0].0).value.value);
      PutGet(metrics, FinalKey(id, ms[0].0), Get(top, ms[0].0).value.value, k);
      assert forall j :: 0 <= j < |ms[1..]| ==> ms[1..][j] == ms[j + 1];
      AddFinalsKeeps(id, ms[1..], top, next, k);
    }
  }

  lemma FinalKeyInjective(id: string, a: string, b: string)
    requires a != b
    ensures FinalKey(id, a) != FinalKey(id, b)
  {
    var p := id + "/final/";
    assert FinalKey(id, a)[|p|..] == a;
    assert FinalKey(id, b)[|p|..] == b;
  }
}

=== FILE: validation_step.dfy ===
/** `ValidationListener.__call__`: one end-of-epoch call. The evaluation's
    per-metric means are an input; the writer, the checkpoint copies and the
    info file become effects listed in order. */
module ValidationStep {
  import opened Common
  import opened Assessments
  import opened Validation

  /** What the call does outside the table. */
  datatype Effect =
    | Scalar(tag: string, value: real, step: int)
    | Histogram(tag: string, step: int)
    | CopyBest(metric: string)
    | CopyLast
    | WriteInfo(top: Table)

  datatype TrainState = TrainState(epoch: int, step: int)

  datatype Outcome = Outcome(status: Status, top: Table, effects: seq<Effect>)

  /** The best entry after a validation value: replaced when past warmup and
      the metric is new or strictly better. */
  function Improve(prev: Option<Best>, value: real, pastWarmup: bool, ctxEpoch: int): Option<Best>
  {
    if pastWarmup && (prev.None? || value > prev.value.value) then Some(Best(value, ctxEpoch)) else prev
  }

  /** The body of the metric loop for one metric. */
  function MetricStep(cfg: Config, state: TrainState, ctxEpoch: int, metric: string, keep: bool, value: real, top: Table)
    : (r: (Table, seq<Effect>))
    requires UniqueKeys(top)
    ensures UniqueKeys(r.0)
    ensures Get(r.0, metric) == Improve(Get(top, metric), value, state.epoch >= cfg.warmup, ctxEpoch)
    ensures forall k :: k != metric ==> Get(r.0, k) == Get(top, k)
    ensures CopyBest(metric) in r.1 <==> keep && r.0 != top
  {
    var logs := [Scalar(cfg.id + "/" + metric + "/mean", value, state.step), Histogram(cfg.id + "/" + metric, state.step)];
    var prev := Get(top, metric);
    forall k ensures Get(Put(top, metric, Best(value, ctxEpoch)), k) == if k == metric then Some(Best(value, ctxEpoch)) else Get(top, k) {
      PutGet(top, metric, Best(value, ctxEpoch), k);
    }
    if state.epoch >= cfg.warmup && (prev.None? || value > prev.value.value) then
      var top' := Put(top, metric, Best(value, ctxEpoch));
      assert top' != top by {
        assert Get(top', metric) != Get(top, metric);
      }
      (top', logs + if keep then [CopyBest(metric)] else [])
    else (top, logs)
  }

  /** The loop over the configured metrics, in order; a metric missing from
      the means raises KeyError. */
  function RunMetrics(cfg: Config, ms: Dict<bool>, means: Dict<real>, state: TrainState, ctxEpoch: int, top: Table)
    : (r: Result<(Table, seq<Effect>)>)
    requires UniqueKeys(top)
    ensures r.Success? <==> forall i :: 0 <= i < |ms| ==> Get(means, ms[i].0).Some?
    ensures r.Success? ==> UniqueKeys(r.value.0)
    decreases |ms|
  {
    if |ms| == 0 then Success((top, []))
    else
      assert forall i :: 1 <= i < |ms| ==> ms[1..][i - 1] == ms[i];
      match Get(means, ms[0].0)
      case None => Failure(KeyMissing(ms[0].0))
      case Some(value) =>
        var first := MetricStep(cfg, state, ctxEpoch, ms[0].0, ms[0].1, value, top);
        var rest :- RunMetrics(cfg, ms[1..], means, state, ctxEpoch, first.0);
        Success((rest.0, first.1 + rest.1))
  }

  /** `__call__(state)`. A STOP from the check on the previous epoch returns
      at once; otherwise, on validation epochs, the metrics are logged, the
      table and the best checkpoints are updated, the last checkpoint is
      copied and the table is written; the decision is `should_stop()`. */
  function OnEpoch(cfg: Config, state: TrainState, ctxEpoch: int, means: Dict<real>, top: Table): (r: Result<Outcome>)
    requires UniqueKeys(top)
    ensures ShouldStop(cfg, top, state.epoch - 1, ctxEpoch) == Success(Stop) ==> r == Success(Outcome(Stop, top, []))
    ensures ShouldStop(cfg, top, state.epoch - 1, ctxEpoch).Failure? ==> r.Failure?
    ensures cfg.validationInterval == 0 && ShouldStop(cfg, top, state.epoch - 1, ctxEpoch) == Success(DontStop) ==> r == Failure(ZeroModulo)
    ensures r.Success? ==> UniqueKeys(r.value.top) && r.value.status != NoDecision
    ensures r.Success? && ShouldStop(cfg, top, state.epoch - 1, ctxEpoch) != Success(Stop) ==>
      Success(r.value.status) == ShouldStop(cfg, r.value.top, 0, ctxEpoch)
    ensures r.Success? && ShouldStop(cfg, top, state.epoch - 1, ctxEpoch) != Success(Stop) && state.epoch % cfg.validationInterval != 0 ==>
      r.value.top == top && r.value.effects == []
  {
    var pre :- ShouldStop(cfg, top, state.epoch - 1, ctxEpoch);
    if pre == Stop then Success(Outcome(Stop, top, []))
    else if cfg.validationInterval == 0 then Failure(ZeroModulo)
    else
      var run :=
        if PyMod(state.epoch, cfg.validationInterval) != 0 then Success((top, []))
        else
          var p :- RunMetrics(cfg, cfg.metrics, means, state, ctxEpoch, top);
          Success((p.0, p.1 + (if cfg.storeLast then [CopyLast] else []) + [WriteInfo(p.0)]));
      var p :- run;
      var status :- ShouldStop(cfg, p.0, 0, ctxEpoch);
      Success(Outcome(status, p.0, p.1))
  }

  /** Over the whole loop, each configured metric's entry is improved by its
      mean and every other entry is untouched. */
  lemma {:induction false} RunMetricsTable(cfg: Config, ms: Dict<bool>, means: Dict<real>, state: TrainState, ctxEpoch: int, top: Table, k: string)
    requires UniqueKeys(top) && UniqueKeys(ms)
    requires RunMetrics(cfg, ms, means, state, ctxEpoch, top).Success?
    ensures var top' := RunMetrics(cfg, ms, means, state, ctxEpoch, top).value.0;
      Get(top', k) == if k in Keys(ms) then Improve(Get(top, k), Get(means, k).value, state.epoch >= cfg.warmup, ctxEpoch) else Get(top, k)
    decreases |ms|
  {
    if |ms| > 0 {
      var value := Get(means, ms[0].0).value;
      var first := MetricStep(cfg, state, ctxEpoch, ms[0].0, ms[0].1, value, top);
      assert UniqueKeys(ms[1..]) by {
        forall a, b | 0 <= a < b < |ms[1..]| ensures ms[1..][a].0 != ms[1..][b].0 {
          assert ms[1..][a] == ms[a + 1] && ms[1..][b] == ms[b + 1];
        }
      }
      RunMetricsTable(cfg, ms[1..], means, state, ctxEpoch, first.0, k);
      KeysCons(ms[0], ms[1..]);
      assert ms == [ms[0]] + ms[1..];
    }
  }

  /** A best value never decreases, and an entry is never removed. */
  lemma BestNeverDecreases(cfg: Config, state: TrainState, ctxEpoch: int, means: Dict<real>, top: Table, k: string)
    requires UniqueKeys(top) && UniqueKeys(cfg.metrics)
    requires OnEpoch(cfg, state, ctxEpoch, means, top).Success?
    requires Get(top, k).Some?
    ensures Get(OnEpoch(cfg, state, ctxEpoch, means, top).value.top, k).Some?
    ensures Get(OnEpoch(cfg, state, ctxEpoch, means, top).value.top, k).value.value >= Get(top, k).value.value
  {
    var pre := ShouldStop(cfg, top, state.epoch - 1, ctxEpoch);
    if pre == Success(DontStop) && PyMod(state.epoch, cfg.validationInterval) == 0 {
      RunMetricsTable(cfg, cfg.metrics, means, state, ctxEpoch, top, k);
    }
  }

  /** Before the warmup epoch the table is never changed. */
  lemma WarmupKeepsTable(cfg: Config, state: TrainState, ctxEpoch: int, means: Dict<real>, top: Table)
    requires UniqueKeys(top) && UniqueKeys(cfg.metrics)
    requires state.epoch < cfg.warmup
    requires OnEpoch(cfg, state, ctxEpoch, means, top).Success?
    ensures forall k :: Get(OnEpoch(cfg, state, ctxEpoch, means, top).value.top, k) == Get(top, k)
  {
    var pre := ShouldStop(cfg, top, state.epoch - 1, ctxEpoch);
    if pre == Success(DontStop) && PyMod(state.epoch, cfg.validationInterval) == 0 {
      forall k ensures Get(OnEpoch(cfg, state, ctxEpoch, means, top).value.top, k) == Get(top, k) {
        RunMetricsTable(cfg, cfg.metrics, means, state, ctxEpoch, top, k);
      }
    }
  }

  /** Only keep-flagged metrics have their checkpoint copied, and only when
      their entry now holds this call's value at the context's epoch. */
  lemma {:induction false} CopiesOnlyKept(cfg: Config, ms: Dict<bool>, means: Dict<real>, state: TrainState, ctxEpoch: int, top: Table, m: string)
    requires UniqueKeys(top) && UniqueKeys(ms)
    requires RunMetrics(cfg, ms, means, state, ctxEpoch, top).Success?
    requires CopyBest(m) in RunMetrics(cfg, ms, means, state, ctxEpoch, top).value.1
    ensures Get(ms, m) == Some(true)
    ensures Get(means, m).Some?
    ensures Get(RunMetrics(cfg, ms, means, state, ctxEpoch, top).value.0, m) == Some(Best(Get(means, m).value, ctxEpoch))
    decreases |ms|
  {
    var value := Get(means, ms[0].0).value;
    var first := MetricStep(cfg, state, ctxEpoch, ms[0].0, ms[0].1, value, top);
    var rest := RunMetrics(cfg, ms[1..], means, state, ctxEpoch, first.0).value;
    assert UniqueKeys(ms[1..]) by {
      forall a, b | 0 <= a < b < |ms[1..]| ensures ms[1..][a].0 != ms[1..][b].0 {
        assert ms[1..][a] == ms[a + 1] && ms[1..][b] == ms[b + 1];
      }
    }
    assert forall i :: 0 <= i < |ms[1..]| ==> ms[1..][i] == ms[i + 1];
    if CopyBest(m) in first.1 {
      assert m == ms[0].0 by {
        assert first.1[..2] + first.1[2..] == first.1;
      }
      GetAt(ms, 0);
      RunMetricsTable(cfg, ms[1..], means, state, ctxEpoch, first.0, m);
    } else {
      assert CopyBest(m) in rest.1;
      CopiesOnlyKept(cfg, ms[1..], means, state, ctxEpoch, first.0, m);
      assert Get(ms, m) == Get(ms[1..], m) by {
        GetFound(ms[1..], m);
        var j :| 0 <= j < |ms[1..]| && ms[1..][j].0 == m;
        GetAt(ms, j + 1);
        GetAt(ms[1..], j);
      }
    }
  }

  /** A worse value keeps the earlier best and its epoch; a better one
      replaces both. */
  lemma ImproveExample()
    ensures var cfg := Config("v", [("m", true)], -1, false, 1, 0);
      var r1 := OnEpoch(cfg, TrainState(1, 10), 1, [("m", 0.5)], []);
      && r1.Success? && Get(r1.value.top, "m") == Some(Best(0.5, 1))
      && var r2 := OnEpoch(cfg, TrainState(2, 20), 2, [("m", 0.3)], r1.value.top);
      && r2.Success? && Get(r2.value.top, "m") == Some(Best(0.5, 1))
      && var r3 := OnEpoch(cfg, TrainState(3, 30), 3, [("m", 0.6)], r2.value.top);
      && r3.Success? && Get(r3.value.top, "m") == Some(Best(0.6, 3))
  {
    var cfg := Config("v", [("m", true)], -1, false, 1, 0);
    assert Get(cfg.metrics, "m") == Some(true);
    assert "m" in Keys(cfg.metrics);
    assert Get([("m", 0.5)], "m") == Some(0.5);
    assert Get([("m", 0.3)], "m") == Some(0.3);
    assert Get([("m", 0.6)], "m") == Some(0.6);
    var t0: Table := [];
    var r1 := OnEpoch(cfg, TrainState(1, 10), 1, [("m", 0.5)], t0);
    RunMetricsTable(cfg, cfg.metrics, [("m", 0.5)], TrainState(1, 10), 1, t0, "m");
    var r2 := OnEpoch(cfg, TrainState(2, 20), 2, [("m", 0.3)], r1.value.top);
    RunMetricsTable(cfg, cfg.metrics, [("m", 0.3)], TrainState(2, 20), 2, r1.value.top, "m");
    var r3 := OnEpoch(cfg, TrainState(3, 30), 3, [("m", 0.6)], r2.value.top);
    RunMetricsTable(cfg, cfg.metrics, [("m", 0.6)], TrainState(3, 30), 3, r2.value.top, "m");
  }
}
